=== FILE: README.md ===
# Battleship session server — a Dafny model

This project models the server of a small multiplayer Battleship game, written in Java. Clients connect over sockets. Each connection is given an id and placed in the `lobby` room. From there a client chats, reverses text, lists rooms, creates rooms and moves between them. Every room other than the lobby is a game room: players mark themselves ready, a session starts when a ready timer fires with at least two ready players, ships are placed on a shared 5×5 grid, players then attack in turn, and a player who reaches 6 points ends the session.

The model is functional. Every entity is an immutable datatype and every operation a pure function from the old state to the new one:

| module | models |
|---|---|
| `Cells` | `Cell` |
| `Grids` | `Grid` |
| `Users` | `User` |
| `Members` | a room's client map, as a sequence with distinct ids |
| `Commands` | `Command` |
| `GameRooms` | `BaseGameRoom` and `GameRoom` |
| `Rooms` | `Room` |
| `Registry` | `Server`, and the request loop of `ServerThread`/`BaseServerThread` |
| `Protocol` | the payloads |
| `Text` | the string helpers the Java library supplies |
| `GameProperties` | the properties that span several game steps |

Things the model takes from outside are parameters:

- **Delivery** is an oracle `fails: int -> bool`. It says whether a write to the connection held under a given client id throws. It is fixed for one operation. The registry closes it for id -1 before handing it to a room (`Registry.Closed`). Ids handed out start at 1, so only a connection whose cleanup ran reads as -1, and its stream is closed, so every write to it throws.
- **Iteration order of the hash maps** is approximated by the order of a sequence: a room's members in the order they joined, and for the registry an `order` that lists each key once. A `ConcurrentHashMap` visits its entries by hash bin instead, so where the order matters (which member a failed write reaches first) the model fixes one of the orders the source may take, not the one it takes.
- **The shuffled turn order** is a parameter required to be a permutation of the ready players.
- **A timer firing** is an operation of its own: `ReadyTimerExpires` and `TurnTimerExpires`.

A failed write is not a local event in the source. `sendToClient` calls `cleanup()`, which resets that connection's user record: its id becomes -1, and it forgets its room. The room's nested `disconnect` of that connection therefore looks up id -1. It finds nothing, or it finds a member that is stored under -1 because its own cleanup ran before it joined, and disconnects that member in full.

The model follows this, on the assumption that cleanup's `close` calls succeed (see "Left out"):

- **`Rooms.Step`** tracks three things besides the room:
  - every payload written, in order;
  - the set of connections whose cleanup ran;
  - whether an unchecked exception escaped.
- **`Registry.Outcome`** adds:
  - the registry;
  - the acting connection;
  - the exception a request ended with.

## Where the model follows the code rather than the documented design

Where a contract or lemma states the behaviour, it is named in brackets and listed in the table below.

- **Re-joining your own room.** Suppose a client is the only member of a game room and asks to join that same room. The room empties, closes and unregisters itself. `rooms.get` then returns `null`, and `next.addClient` throws a `NullPointerException`. The move is not a no-op (`Registry.RejoinSoleRoomIsNull`).
- **A newcomer whose writes fail.** In a non-empty room this disconnects an existing member in full: in the model, the first one in join order (`Rooms.DeadNewcomerDisconnectsFirst`). In an empty game room it closes the room (`Rooms.DeadNewcomerClosesEmptyRoom`).
- **The last member's write fails.** When the only member of a game room is evicted under its real id, the room stays running, empty unless an exception escapes its turn bookkeeping, and registered (`Rooms.SoleFailingMemberStaysOpen`). Only a member held under -1 closes the room this way (`Rooms.SoleFailingMemberCloses`).
- **Syncing existing members.** When the sync write to the newcomer fails, the member that is disconnected is the existing one whose name was being sent.
- **Game requests.** `processPayload` never dispatches them, so they are dropped like unknown types (`Protocol.GameRequestsSkipped`). The game handlers are modelled as the room operations they would be.
- **When a session starts.** Only when the ready timer fires. A failed check leaves that timer expired, and no later ready can start a session (`GameProperties.FailedReadyCheckBlocksSessions`).
- **The end of a session** resets phase, turn order, grid and ready and turn flags. It keeps points and placed-ship counts (`GameRooms.OnSessionEnd`).
- **The first attacker.** `onRoundEnd` after placement runs `onRoundStart` twice. The first attacker is therefore the second player in the turn order, and each attack stage spans two round numbers (`GameProperties.FirstAttackerIsSecondInOrder`, `GameProperties.TwoAttackRounds`).
- **The current player leaving** stalls the turn. `onTurnStart` cannot find that player in the order; its exception is caught, and every later attack is refused (`GameProperties.CurrentPlayerLeavingStalls`).
- **Ship ownership.** Placed ships are recorded for the default id -1, not for the player (`GameProperties.PlacementOwnedByNoOne`). A placement at an invalid coordinate still counts toward the player's five ships (`GameProperties.RefusedPlacementStillCounts`).
- **Skip** is not checked against the current player. A ready player out of turn moves the turn on (`GameProperties.SkipOutOfTurn`).
- **A winning attack** still falls through to "took turn" and to `onTurnEnd`, which starts a new turn timer in the Ready phase (`GameProperties.WinEndsInReady`).
- **Client ids** are a `long`: `Math.max(++nextClientId, 1)` wraps from `Long.MAX_VALUE` to 1 (`Registry.NextClientId`).

## Model

| member | source | states |
|---|---|---|
| Text.Lower | Project/Server/Server.java:123 | folding keeps the length, turns each upper-case letter into its lower-case form, keeps every other character and leaves no upper-case letter |
| Text.EqualsIgnoreCase | Project/Server/Server.java:127 | two names are equal ignoring case exactly when they have the same length and agree at every position after folding |
| Text.LowerIdempotent | Project/Server/Server.java:123 | folding a room name to lower case twice gives the same key as folding it once |
| Text.Contains | Project/Server/Server.java:163 | the query matches exactly when it occurs at some position of the text |
| Text.Reverse | Project/Server/Room.java:266-271 | the reversed text has the same length and holds character `i` at position `len-1-i` |
| Text.ReverseInvolution | Project/Server/Room.java:266-271 | reversing text twice gives the original back |
| Text.Trim | Project/Server/ServerThread.java:151 | the trimmed name is the input with a blank prefix and suffix removed, and it neither starts nor ends with a blank |
| Text.TrimIdempotent | Project/Server/ServerThread.java:151 | trimming an already trimmed name changes nothing |
| Text.ParseNatOfNatToString | Project/Common/User.java:72-74 | the decimal digits written for a natural number read back as that number |
| Text.ParseIntOfIntToString | Project/Common/User.java:72-74 | the decimal text written for any id, negative ones included, reads back as that id |
| Text.StrLessIsLexicographic | Project/Server/Server.java:166 | the order `StrLess` used by `sorted()` puts one name before another exactly when, at the first position where they differ, the first name has ended or holds the smaller character |
| Text.StrLessTransitive | Project/Server/Server.java:166 | the lexicographic order used to sort room names is transitive |
| Text.StrLessTotal | Project/Server/Server.java:166 | any two distinct names are ordered one way or the other |
| Text.SortStrings | Project/Server/Server.java:166 | the room names come out sorted and are a permutation of the names that went in |
| Cells.StatusCode | Project/Common/Cell.java:92-94 | the status code is 0 exactly for an untouched cell and 1 exactly for a hit one |
| Cells.Bump | Project/Common/Cell.java:21-32 | one more ship for the owner, every other owner's count unchanged, the total up by one |
| Cells.NewCell | Project/Common/Cell.java:15-19 | a new cell is untouched, holds no ships and remembers no sunk ships |
| Cells.PlaceShip | Project/Common/Cell.java:21-32 | placing adds one ship for the owner and none for anyone else, and leaves status and position alone |
| Cells.AttackShip | Project/Common/Cell.java:39-60 | the cell always ends hit; the attack scores exactly when the cell was untouched and held ships; a hit moves the ship count into the sunk count and clears the ships |
| Cells.SecondAttackHasNoEffect | Project/Common/Cell.java:39-60 | attacking the same cell a second time scores nothing and changes nothing |
| Cells.StatusNeverMiss | Project/Common/Cell.java:11 | no operation ever marks a cell as a miss |
| Cells.GetShipPositive | Project/Common/Cell.java:66-72 | the ship count of a cell is never negative, and it is positive exactly when some owner has a ship there |
| Cells.GetShip | Project/Common/Cell.java:66-72 | in a well formed cell the total is never negative and no owner has more ships there than the total |
| Cells.CountAtMostTotal | Project/Common/Cell.java:66-72 | with no negative counts, each owner's count lies between zero and the sum over all owners |
| Cells.LastShipsOnlyByHit | Project/Common/Cell.java:62-64 | the sunk count `getLastShips` returns is unchanged by placing a ship and changes only through a scoring attack, which sets it to the ships the cell held |
| Cells.CellStatus | Project/Common/Cell.java:92-94 | the code is in 0..2 and is 0, 1 or 2 exactly for an untouched, hit or missed cell |
| Cells.TotalOfZeroAll | Project/Common/Cell.java:43-52 | after a hit zeroes every owner's count, the cell's total and each owner's count are zero |
| Grids.IsValidCoordinate | Project/Common/Grid.java:14-17 | on a well formed board a coordinate is valid exactly when it lies inside the rows-by-cols rectangle, and a valid coordinate names a cell although only the first row's length is checked |
| Grids.Generate | Project/Common/Grid.java:6-13 | a negative size is refused; otherwise the valid coordinates are exactly the rows-by-cols rectangle and every cell is new |
| Grids.Put | Project/Common/Grid.java:60-89 | writing one cell keeps the board's shape and changes no other cell |
| Grids.PlaceShip | Project/Common/Grid.java:60-70 | refused exactly off the board; otherwise one more ship at that cell for the owner, status kept, every other cell unchanged |
| Grids.AttackShip | Project/Common/Grid.java:72-89 | refused exactly off the board; otherwise the target is marked hit, the attack scores exactly when it was untouched with ships, and every other cell is unchanged |
| Grids.GetShip | Project/Common/Grid.java:36-46 | off the board is an error; on it the result is the cell's own `getShip` total, which is non-negative and positive exactly when the cell holds a ship |
| Grids.GetLastShips | Project/Common/Grid.java:24-34 | off the board is an error; on it the cell's sunk count |
| Grids.CellStatus | Project/Common/Grid.java:48-58 | off the board is an error; on it a code in 0..2 that is 0, 1 or 2 exactly for an untouched, hit or missed cell, the meaning the attack handler's `cellStatus(x, y) == 1` test relies on |
| Grids.Reset | Project/Common/Grid.java:91-103 | after a reset no coordinate is valid |
| Grids.ResetIdempotent | Project/Common/Grid.java:91-103 | resetting twice is resetting once, and a reset board refuses every placement and attack |
| Grids.AttackTwiceNoSecondHit | Project/Common/Grid.java:72-89 | a second attack on the same valid coordinate never scores and leaves the board as the first one left it |
| Grids.CountFollowsBoard | Project/Common/Grid.java:36-46 | the count `getShip` reports goes up by one with a placement at that square, and a scoring attack empties the square and hands its count to `getLastShips` |
| Grids.PlaceKeepsStatus | Project/Common/Grid.java:60-70 | placing a ship never changes the attack status of any square |
| Users.NewUser | Project/Common/User.java:4-11 | a new user has id -1, no name, no points, no ships, and is a spectator |
| Users.AddGamePoints | Project/Common/User.java:29-32 | the points go up by exactly the amount and nothing else in the record changes |
| Users.SetPlacedShip | Project/Common/User.java:34-37 | the placed-ship count goes up by one and nothing else changes |
| Users.SetReady | Project/Common/User.java:80-82 | the user is a spectator exactly when not ready; nothing else changes |
| Users.SetTookTurn | Project/Common/User.java:101-103 | only the took-turn flag changes |
| Users.Reset | Project/Common/User.java:84-89 | a reset user has id -1, no name, is not ready and has not taken a turn, but keeps points and placed ships |
| Users.ResetIdempotent | Project/Common/User.java:84-89 | resetting twice is resetting once |
| Users.PlaceManyCompletes | Project/Common/User.java:39-42 | after n placements a fresh count is n, and all ships are placed exactly when n reaches five |
| Users.PlacedAllShipsStays | Project/Common/User.java:39-42 | once `placedAllShips` holds it keeps holding through a further placement, points, the ready and turn flags and a reset |
| Users.DisplayName | Project/Common/User.java:72-74 | the display name is at least two characters long |
| Users.DisplayNameRoundTrip | Project/Common/User.java:72-74 | splitting the display name at its last `#` gives back the name and the id |
| Users.NullNamePrintsAsNull | Project/Common/User.java:72-74 | `NameText` prints a missing name as "null", so a client without a name has the same display name as one named "null" |
| Members.IndexOf | Project/Server/Room.java:38-53 | absent exactly when no member has the id; otherwise the first position holding it |
| Members.Get | Project/Server/Room.java:55-70 | the record returned is a member with the requested id |
| Members.Replace | Project/Server/BaseGameRoom.java:295-319 | the record with the id is replaced, the others are kept, and the ids stay in order |
| Members.Remove | Project/Server/Room.java:55-70 | the members left are exactly those without the id, and the room shrinks when the id was present |
| Members.Keys | Project/Server/Room.java:38-53 | the key set holds exactly the ids of the members |
| Members.ReadyIds | Project/Server/GameRoom.java:325-329 | the ids collected are exactly those of the ready members, and there are no more of them than members |
| Members.CountReady | Project/Server/BaseGameRoom.java:156-157 | the number of ready members counted by `checkReadyStatus` is the number of ready ids, at most the room's size |
| Members.SetAllReady | Project/Server/BaseGameRoom.java:166-169 | every member's ready flag is set, in place, and the ids and their order are unchanged |
| Members.SetAllTookTurn | Project/Server/GameRoom.java:315-320 | every member's took-turn flag is set, in place, and the ids and their order are unchanged |
| Members.RemoveUnique | Project/Server/Room.java:55-70 | removing keeps ids distinct and removes exactly one record when the id was present |
| Members.ReplaceFacts | Project/Server/BaseGameRoom.java:295-319 | replacing keeps ids distinct and membership unchanged, and looking the id up afterwards gives the new record |
| Members.ReadyIdsDistinct | Project/Server/BaseGameRoom.java:156-164 | the ids of the ready players are pairwise distinct |
| Members.AllTookTurnCounts | Project/Server/GameRoom.java:395-411 | the count of ready players who took a turn equals the count of ready players exactly when every ready player took a turn |
| Members.NoneReady | Project/Server/BaseGameRoom.java:166-169 | once every flag is cleared, no one is counted ready |
| Commands.Keyword | Project/Common/Command.java:6-15 | every command has a non-empty keyword |
| Commands.Table | Project/Common/Command.java:17-22 | the lookup table's keys are exactly the keywords of the listed commands |
| Commands.StringToCommand | Project/Common/Command.java:29-31 | a string maps to a command exactly when it is one of the keywords |
| Commands.KeywordInjective | Project/Common/Command.java:6-15 | no two commands share a keyword |
| Commands.TableLookup | Project/Common/Command.java:17-22 | each listed command is found under its own keyword |
| Commands.StringToCommandRoundTrip | Project/Common/Command.java:29-31 | looking up a command's keyword gives that command back |
| Commands.StringToCommandCaseSensitive | Project/Common/Command.java:29-31 | the lookup is case-sensitive: every string it recognises is already in lower case, and a string that only folds to a recognised one is not recognised |
| Commands.KeywordLower | Project/Common/Command.java:5-15 | every command keyword is in lower case |
| GameRooms.NewGame | Project/Server/GameRoom.java:30-33 | a new game is in the Ready phase with no turn order, no current player, round 0, no board and no timers |
| GameRooms.Find | Project/Server/GameRoom.java:359-370 | absent exactly when the id is not in the order; otherwise its first position |
| GameRooms.Without | Project/Server/GameRoom.java:59-73 | removing a player from the turn order keeps exactly the other entries |
| GameRooms.WithoutDistinct | Project/Server/GameRoom.java:59-73 | removing a player keeps the turn order free of repeats |
| GameRooms.ShuffleDistinct | Project/Server/GameRoom.java:325-329 | a shuffle of members with distinct ids has no repeated id |
| GameRooms.DistinctMultiset | Project/Server/GameRoom.java:325-329 | a turn order has no repeats exactly when every id occurs at most once in its multiset |
| GameRooms.ChangePhase | Project/Server/BaseGameRoom.java:177-182 | the phase becomes the requested one, a change is reported exactly when it differs from the old one, and nothing else changes |
| GameRooms.ResetReadyStatus | Project/Server/BaseGameRoom.java:166-169 | every member ends not ready, nothing else in their records changes, and the ready count is zero |
| GameRooms.ResetTurnStatus | Project/Server/GameRoom.java:315-320 | every member ends without a turn taken and nothing else in their records changes |
| GameRooms.CheckPlayerInRoom | Project/Server/BaseGameRoom.java:352-357 | passes exactly for a member, and is otherwise refused as not in the room |
| GameRooms.CheckCurrentPhase | Project/Server/BaseGameRoom.java:331-337 | passes exactly in the expected phase |
| GameRooms.CheckIsReady | Project/Server/BaseGameRoom.java:339-344 | passes exactly for a ready user |
| GameRooms.CheckCurrentPlayer | Project/Server/GameRoom.java:414-418 | passes exactly for the current player |
| GameRooms.CheckTookTurn | Project/Server/GameRoom.java:384-388 | passes exactly when the user has not yet taken a turn |
| GameRooms.GetCurrentPlayer | Project/Server/GameRoom.java:338-348 | succeeds exactly when the current id is set and present in the order; the error tells a missing current id from one not found |
| GameRooms.GetNextPlayer | Project/Server/GameRoom.java:359-370 | with no current player the next is the head of the order; otherwise the successor of the current player, wrapping round; a current id not in the order is an error |
| GameRooms.IsLastPlayer | Project/Server/GameRoom.java:379-382 | succeeds exactly when the current player is found, and is true exactly when it sits at the end of the order |
| GameRooms.OnTurnStart | Project/Server/GameRoom.java:158-175 | in the Attack phase the turn passes to the next player; an empty order with no current player throws; otherwise a turn timer starts and nothing else changes |
| GameRooms.OnRoundStart | Project/Server/GameRoom.java:130-154 | every took-turn flag is cleared; after placement the phase switches to Attack in the same round, otherwise the round number goes up by one |
| GameRooms.OnSessionEnd | Project/Server/GameRoom.java:229-242 | back to Ready with no order, no current player and no board; ready and turn flags cleared; points and placed ships kept |
| GameRooms.OnRoundEnd | Project/Server/GameRoom.java:213-225 | before the last round the board and order stay; points and placed ships are kept and the game invariant holds |
| GameRooms.OnTurnEnd | Project/Server/GameRoom.java:181-207 | outside Attack, or after the last player, the round ends; before the last player the next turn starts; if the current player cannot be found nothing advances |
| GameRooms.OnSessionStart | Project/Server/GameRoom.java:113-126 | the game enters Place in round 1 with the shuffled order, a fresh 5×5 board and a running turn timer |
| GameRooms.CheckReadyStatus | Project/Server/BaseGameRoom.java:156-164 | a session starts (phase Place, the shuffled order, timer cleared) exactly when at least two members are ready; otherwise the session-end reset runs and the timer is left as it was |
| GameRooms.ReadyTimerExpires | Project/Server/BaseGameRoom.java:136-150 | when the ready timer fires the check runs; the timer is cleared when a session starts and left expired otherwise |
| GameRooms.TurnTimerExpires | Project/Server/GameRoom.java:181-207 | a turn timer firing ends the turn exactly as `OnTurnEnd` does |
| GameRooms.OnClientRemoved | Project/Server/GameRoom.java:59-73 | the leaver is dropped from the turn order; an empty room ends the session and stops the timers; a leaver who was not the current player leaves the turn where it was |
| GameRooms.HandleReady | Project/Server/BaseGameRoom.java:295-319 | refused for a non-member or outside Ready; otherwise only that member's ready flag changes (set, or toggled when toggling is allowed) and a ready timer is armed if none was set |
| GameRooms.CheckAllTookTurn | Project/Server/GameRoom.java:395-411 | the round ends exactly when every ready player has taken a turn |
| GameRooms.Finish | Project/Server/GameRoom.java:455-510 | a handler ends aborted exactly when a lifecycle step threw |
| GameRooms.HandlePlace | Project/Server/GameRoom.java:513-556 | refused for a non-member, outside Place, or when not ready; otherwise the placement is counted even when it is then refused for all ships placed or an off-board coordinate, and a refusal leaves the game unchanged |
| GameRooms.PlaceOnBoard | Project/Server/GameRoom.java:513-556 | an off-board coordinate is refused with the game unchanged; ids and the game invariant are kept |
| GameRooms.HandleAttack | Project/Server/GameRoom.java:455-510 | refused, with nothing changed, exactly when the attacker is not a ready member in Attack whose turn it is and who has not attacked, or the coordinate is off the board |
| GameRooms.AttackByMember | Project/Server/GameRoom.java:455-510 | not ready, not the current player, or already attacked: each is refused with nothing changed |
| GameRooms.AttackOnBoard | Project/Server/GameRoom.java:455-510 | refused exactly for an off-board coordinate, with nothing changed |
| GameRooms.AttackScored | Project/Server/GameRoom.java:472-492 | scoring, the win check and the end of the turn keep ids and the game invariant |
| GameRooms.HandleSkip | Project/Server/GameRoom.java:423-452 | refused exactly for a non-member, outside Attack, when not ready, or when the turn is already taken; otherwise the player is marked as having taken the turn and the turn ends |
| GameProperties.FindDistinct | Project/Server/GameRoom.java:359-370 | in an order without repeats each id is found at its own position |
| GameProperties.TurnsFollowOrder | Project/Server/GameRoom.java:158-175 | starting with no current player, the k-th turn goes to the k-th player in the order, and only the last is reported as last |
| GameProperties.TurnsWrapAround | Project/Server/GameRoom.java:359-370 | one turn past the end of the order comes back to its head |
| GameProperties.TalliesGet | Project/Server/GameRoom.java:229-242 | a step that keeps tallies leaves each member's points and placed ships as they were |
| GameProperties.AttackReaches | Project/Server/GameRoom.java:455-510 | a valid attack by the current player reaches scoring with the attacked board |
| GameProperties.AttackScores | Project/Server/GameRoom.java:472-478 | a valid attack by the current player is accepted and adds the ships sunk at the target to that player's points |
| GameProperties.FirstAttackerIsSecondInOrder | Project/Server/GameRoom.java:213-225 | the end of the placement round enters Attack in round 2 with the second player in the order to move |
| GameProperties.AttackRoundEnd | Project/Server/GameRoom.java:213-225 | an attack round before the last advances the round by two and stays in Attack; from the last round the session ends |
| GameProperties.TwoAttackRounds | Project/Server/GameRoom.java:213-225 | after placement two attack stages follow, and the third round end returns to Ready at round 5 |
| GameProperties.PlacementOwnedByNoOne | Project/Server/GameRoom.java:513-556 | an accepted placement records its ship under the default id -1, not under the player |
| GameProperties.RefusedPlacementStillCounts | Project/Server/GameRoom.java:513-556 | a placement refused for an off-board coordinate still increases the player's placed-ship count |
| GameProperties.SkipOutOfTurn | Project/Server/GameRoom.java:423-452 | a ready player who is not the current player can skip, and the turn moves to the next player in the order |
| GameProperties.CurrentPlayerLeavingStalls | Project/Server/GameRoom.java:59-73 | when the current player leaves, the turn stays with the missing id, ending the turn does not advance it, and every attack is refused |
| GameProperties.WinEndsInReady | Project/Server/GameRoom.java:485-492 | an attack that brings the player to six points ends the session: phase Ready, no order, no board, a later round, a turn timer still started |
| GameProperties.ScoredWinEnds | Project/Server/GameRoom.java:485-492 | once the scored points reach six, the attack's remaining steps end in Ready with the board cleared |
| GameProperties.TurnEndInReady | Project/Server/GameRoom.java:181-225 | ending a turn in the Ready phase ends the round and the session again, and starts a turn timer |
| GameProperties.ReadyAll | Project/Server/BaseGameRoom.java:295-319 | a series of ready requests keeps ids, the phase and the game invariant |
| GameProperties.ExpiredTimerStaysExpired | Project/Server/BaseGameRoom.java:136-150 | once the ready timer has expired, no series of ready requests re-arms it |
| GameProperties.FailedReadyCheckBlocksSessions | Project/Server/BaseGameRoom.java:136-164 | a ready check that fails leaves the room in Ready with an expired timer for good |
| GameProperties.ReadyTwiceIsReadyOnce | Project/Server/BaseGameRoom.java:295-319 | without toggling, a second ready request by the same player changes nothing |
| GameProperties.ToggleTwiceRestores | Project/Server/BaseGameRoom.java:295-319 | with toggling, two ready requests restore the player's record |
| GameProperties.SessionEndIdempotent | Project/Server/GameRoom.java:229-242 | ending a session twice is ending it once |
| Protocol.ClientInfoType | Project/Server/ServerThread.java:95-113 | the tag is the sync tag exactly for a silent sync; otherwise join and leave are told apart |
| Protocol.ClientInfo | Project/Server/ServerThread.java:95-113 | a client-info payload carries the id and name given and the tag of the action |
| Protocol.ResetUserList | Project/Server/ServerThread.java:69-71 | the reset is a join for id -1 with no name |
| Protocol.ClientIdPayload | Project/Server/ServerThread.java:121-128 | the handshake reply carries the connection's own id and name |
| Protocol.MessagePayload | Project/Server/ServerThread.java:137-143 | a chat payload carries the sender id and the text |
| Protocol.RoomsPayload | Project/Server/ServerThread.java:56-60 | a room list carries exactly the names given |
| Protocol.ClientInfoTags | Project/Server/ServerThread.java:95-113 | a silent sync hides the action; without it a join and a leave carry different tags |
| Protocol.Dispatch | Project/Server/ServerThread.java:147-179 | a null type crashes; unknown types are skipped; room requests without a room crash; a leave means joining the lobby; a connect sets the trimmed name |
| Protocol.GameRequestsSkipped | Project/Common/PayloadType.java:15-26 | no game request type is dispatched |
| Protocol.ConnectTrims | Project/Server/ServerThread.java:151 | a name sent with surrounding blanks registers as the trimmed name |
| Rooms.Begin | Project/Server/Room.java:38-53 | an operation starts with nothing written, no cleanup run and no exception |
| Rooms.IsLobby | Project/Server/Server.java:127 | a name is the lobby's exactly when it folds to "lobby", the key the registry files the lobby under |
| Rooms.NewRoom | Project/Server/Room.java:24-28 | a new room runs and is empty; it is a game room exactly when its name is not the lobby's |
| Rooms.Send | Project/Server/BaseServerThread.java:111-127 | a write appends one delivery and changes nothing else |
| Rooms.Live | Project/Server/BaseServerThread.java:207-221 | a connection whose cleanup ran reads as its reset record; any other as it was |
| Rooms.AutoCleanup | Project/Server/Room.java:200-204 | a room keeps running exactly when it is the lobby or still has members |
| Rooms.GameRemoved | Project/Server/BaseGameRoom.java:114-118 | the game drops the leaver from its turn order and keeps its invariant, and the membership is untouched |
| Rooms.RelayPayload | Project/Server/Room.java:127-132 | a server message is prefixed with the room name and a client's with its display name |
| Rooms.FollowsTrans | Project/Server/Room.java:121-149 | the step invariant composes: two steps that each keep it keep it together |
| Rooms.KeepsTrans | Project/Server/Room.java:140-148 | "only failing connections are dropped" composes across steps |
| Rooms.Evict | Project/Server/Room.java:140-148 | a member whose write failed is reset and is no longer a member, and no connection that can still be written to is dropped |
| Rooms.NestedDisconnect | Project/Server/Room.java:159-183 | the nested disconnect after a failed write only drops connections whose writes fail |
| Rooms.FullDisconnect | Project/Server/Room.java:159-183 | the leaver is gone and reset; every remaining member that can be written to is told of the leave and sees the "disconnected" line; the room closes exactly when a non-lobby room empties |
| Rooms.LeaveThenNotice | Project/Server/Room.java:172-182 | after the leave updates, the "disconnected" relay reaches every remaining reachable member |
| Rooms.Relay | Project/Server/Room.java:121-149 | a closed room sends nothing; otherwise every reachable member gets the formatted message, and exactly the members whose writes fail are dropped |
| Rooms.Broadcast | Project/Server/Room.java:121-149 | every pending reachable member gets the payload, and the room ends clean of failing members |
| Rooms.ActionOf | Project/Server/Room.java:86-106 | the action is Join exactly for a join |
| Rooms.JoinText | Project/Server/Room.java:88-92 | the line starts "Room[name] ", names the reader as "You" when the ids compare equal and the client by display name otherwise, and ends " the room" |
| Rooms.JoinPass | Project/Server/Room.java:86-106 | every pending reachable member gets the join or leave update and the "You"/name line for the client as it currently reads |
| Rooms.JoinStep | Project/Server/Room.java:86-106 | one member gets both join lines, or is evicted if its write fails |
| Rooms.Sync | Project/Server/Room.java:72-84 | the newcomer gets a silent sync for every other member; without a failure the room is unchanged |
| Rooms.AddClient | Project/Server/Room.java:38-53 | joining a closed room or an existing member changes nothing; otherwise only the newcomer can be added, ids stay distinct, and the lobby stays open |
| Rooms.AdmittedThen | Project/Server/Room.java:38-53 | whatever follows the admission keeps the guarantees `AddClient` promises |
| Rooms.Admit | Project/Server/Room.java:44-47 | the newcomer is appended and its user list is reset first, unless that write fails |
| Rooms.AddClientWelcomes | Project/Server/Room.java:38-53 | a reachable newcomer ends up a member, no reachable member is dropped, and the room is clean of failing members |
| Rooms.AddClientResetsFirst | Project/Server/Room.java:44-47 | the first payload the newcomer receives is the user-list reset |
| Rooms.AddClientSyncs | Project/Server/Room.java:72-84 | the newcomer is told silently of every member who was there before it |
| Rooms.AddClientAnnounces | Project/Server/Room.java:86-106 | every reachable member, the newcomer included, is told of the join and sees the join line |
| Rooms.RemoveClient | Project/Server/BaseGameRoom.java:103-111 | a closed room is untouched; removing a non-member sends nothing; otherwise a reachable leaver is gone and the room is clean |
| Rooms.LeaveAndRemove | Project/Server/Room.java:55-70 | the leave is announced, then the leaver is removed and the room cleans up |
| Rooms.RemoveClientNotifies | Project/Server/Room.java:55-70 | every reachable member is told that the leaver left |
| Rooms.RemoveLive | Project/Server/Room.java:55-70 | the room drops the leaver under the id it reads as now, and nothing is written |
| Rooms.RemovedThen | Project/Server/BaseGameRoom.java:103-111 | the game bookkeeping after a removal leaves membership and writes alone |
| Rooms.Disconnect | Project/Server/BaseGameRoom.java:114-118 | in a running room the client is gone afterwards; a member is reset, and every other reachable member is told of the leave |
| Rooms.HandleMessage | Project/Server/Room.java:273-275 | every reachable member gets the sender's display name followed by the text |
| Rooms.HandleReverseText | Project/Server/Room.java:266-271 | every reachable member gets the sender's display name followed by the reversed text |
| Rooms.ReverseTwice | Project/Server/Room.java:266-275 | reversing reversed text relays the same as sending the text |
| Rooms.DeadNewcomerDisconnectsFirst | Project/Server/Room.java:86-106 | a newcomer whose writes fail disconnects the first existing member, and every other member still sees the join line |
| Rooms.DeadNewcomerClosesEmptyRoom | Project/Server/Room.java:38-53 | a newcomer whose writes fail, joining an empty game room, closes that room |
| Rooms.AddClientToEmpty | Project/Server/Room.java:38-53 | joining an empty room is admission followed by the join pass for the newcomer alone |
| Rooms.JoinPassOne | Project/Server/Room.java:86-106 | a join pass whose only member fails evicts that member |
| Rooms.SoleFailingMemberCloses | Project/Server/Room.java:159-183 | evicting the only member of a game room closes it when that member is held under -1, because the nested lookup under -1 then finds it |
| Rooms.SoleFailingMemberStaysOpen | Project/Server/Room.java:139-148 | evicting the only member of a game room held under a real id leaves the room running and, unless an exception escaped, empty: the nested lookup under -1 finds nothing and `autoCleanup` (Room.java:200-204) runs while the member is still in the map, so this eviction neither closes the room nor takes it out of the registry |
| Rooms.SoleMemberDisconnectCloses | Project/Server/Room.java:159-183 | the only member of a game room disconnecting closes the room without a write |
| Registry.NextClientId | Project/Server/Server.java:101 | the next id is one more than the last, except that at `Long.MAX_VALUE` (or below 0) it wraps to 1; ids are always positive |
| Registry.IdsCountUp | Project/Server/Server.java:99-113 | the n-th connection from a fresh server gets id n |
| Registry.IdsIncrease | Project/Server/Server.java:99-113 | before the wrap, later connections get strictly larger ids |
| Registry.Start | Project/Server/Server.java:70 | the server starts with only the lobby, a plain empty room, and the counter at 0 |
| Registry.CreateRoom | Project/Server/Server.java:122-130 | refused as a duplicate exactly when the folded name is taken; otherwise a new empty running room under that key and nothing else changed |
| Registry.RemoveRoom | Project/Server/Server.java:170-173 | exactly the room's folded key is removed |
| Registry.CreateThenRemove | Project/Server/Server.java:122-173 | removing a room just created restores the registry |
| Registry.Store | Project/Server/Room.java:222-224 | a running room is written back under its key; a closed one unregisters itself; other keys are untouched |
| Registry.StoreValid | Project/Server/Room.java:206-226 | writing back a room that evolved legally keeps the registry invariant, and the lobby is untouched |
| Registry.Matching | Project/Server/Server.java:163 | exactly the names whose folded form contains the query |
| Registry.Names | Project/Server/Server.java:164 | exactly the names of the enumerated rooms |
| Registry.ListRooms | Project/Server/Server.java:160-168 | at most ten names, sorted, each a registered room matching the query; with ten rooms or fewer every match is listed |
| Registry.DistinctCard | Project/Server/Server.java:160-168 | an enumeration without repeats has as many entries as there are rooms |
| Registry.LeaveCurrent | Project/Server/Server.java:145-149 | without a current room nothing happens; otherwise the outcome is the old room's removal, written back, and every other room is untouched |
| Registry.Enter | Project/Server/Server.java:150-151 | adding to the target room keeps the registry valid and other rooms untouched; a connection whose write fails, or whose cleanup already ran, ends reset and in no room |
| Registry.EnterJoins | Project/Server/Server.java:150-151 | a reachable client entering a room becomes its member and the connection records that room |
| Registry.JoinRoom | Project/Server/Server.java:140-152 | an unknown room is refused with nothing changed; otherwise the registry stays valid and rooms other than the old and the new one are untouched |
| Registry.JoinMoves | Project/Server/Server.java:140-152 | a reachable client that moves ends up in the new room and out of the old one |
| Registry.LeaveCurrentLeaves | Project/Server/Server.java:145-149 | a reachable client leaving its room is no longer a member of it |
| Registry.RejoinSoleRoomIsNull | Project/Server/Server.java:140-152 | the only member re-joining its own game room closes it and ends in a null room |
| Registry.SoleLeaveRemoves | Project/Server/Room.java:222 | the only member leaving a game room unregisters the room |
| Registry.SoleLeaveCloses | Project/Server/Room.java:200-204 | the only member leaving a game room closes it |
| Registry.Tell | Project/Server/BaseServerThread.java:111-127 | a reply reaches a reachable client; a failing one is reset and forgets its room |
| Registry.Initialize | Project/Server/Server.java:99-113 | the counter advances and the handshake reply with the new id is the first write; when that reply fails, the connection ends reset and in no room |
| Registry.Closed | Project/Server/BaseServerThread.java:207-221 | the oracle handed to the rooms fails for id -1, the id of every connection whose cleanup closed its stream, and otherwise agrees with the delivery oracle |
| Registry.InitializeJoinsLobby | Project/Server/Server.java:99-113 | a new reachable connection gets the new id and ends in the lobby |
| Registry.HandleCreateRoom | Project/Server/Room.java:233-243 | an existing name is answered with "already exists" and nothing else happens |
| Registry.CreateEnters | Project/Server/Room.java:233-243 | creating a new room moves the creator into it, under the name as given |
| Registry.HandleJoinRoom | Project/Server/Room.java:245-251 | an unknown room is answered with "doesn't exist"; a known one is a move |
| Registry.HandleListRooms | Project/Server/Room.java:229-231 | the client gets the listing and the registry is untouched |
| Registry.InRoom | Project/Server/ServerThread.java:154-161 | the result of a room's own handler is written back and keeps the registry valid |
| Registry.Abort | Project/Server/BaseServerThread.java:194-201 | when the request loop ends, the connection is disconnected from its room and reset |
| Registry.Process | Project/Server/ServerThread.java:147-179 | skipped payloads change nothing; crashing ones end the connection; any exception leaves the connection reset and roomless |

## Left out

- Sockets, threads and the object streams are left out. They are replaced by the delivery oracle and the recorded sequence of writes. `synchronized` and the concurrent maps are not modelled: each operation runs to completion on its own.
- The 3-second name timer in `BaseServerThread.run` is left out, because it only calls `disconnect()`, which `Registry.Abort` covers.
- The `TimedEvent` class is not part of this model. Its countdown callbacks and the time payloads sent on each tick are left out; a timer firing is an explicit operation.
- `RoomAction.java`, `Phase.java` and `TimedEvent.java` are not part of this model. Their enums are restated as `Protocol.RoomAction` and `GameRooms.Phase`.
- `Collections.shuffle` and `Random` are parameters: the shuffled order is required to be a permutation.
- Game notifications are left out: phase, ready, turn, points, game-event and timer payloads, and the relayed hit text. So are the evictions a failed game notification would cause. In the source, a failed send there calls `removeClient` or `disconnect` (BaseGameRoom.java:202, 220, 242, 256, 271, 287; GameRoom.java:250, 259, 274, 284, 298, 308), which removes the member, notifies the rest and runs `onClientRemoved`. In the model the game handlers never fail a send: they change only game state and user records.
- `handleTurnAction` is left out: the dispatch never reaches it. The `IN_PROGRESS` phase is left out for the same reason.
- `Grid.shipsRemaining` and `Cell.getUsersShips` are left out: neither is called by the server.
- The player-migration branch of `Room.close` is left out. It is reached only when a non-lobby room is closed while it still has members, and `autoCleanup` never does that. `disconnectAll`, `Server.shutdown` and `relayToAllRooms` are left out because they are shutdown and demonstration paths.
- The separate thread that `BaseGameRoom.addClient` starts for the game's sync messages is left out, with the messages.
- `toLowerCase` and `equalsIgnoreCase` are modelled for ASCII only.
- Text.StrLess: compares characters as Unicode scalar values. Java's `String.compareTo`, behind `sorted()` in `listRooms`, compares UTF-16 code units, so the two orders differ when a supplementary character is compared with one in U+E000–U+FFFF.
- Java `int` overflow of points and ship counts is not modelled; only the `long` client id wraps.
- Rooms.Evict: assumes cleanup's `out.close()` and `client.close()` succeed. In the source (BaseServerThread.java:207-221) an `IOException` from either skips `user.reset()`. The connection then keeps its id, and the room's `disconnect` removes it in full, with leave notices to the others and a "disconnected" line. The model always resets; `Rooms.Live` and `Registry.After` rest on the same assumption.
- Registry.Tell: makes the same assumption about cleanup for the acting connection's own writes.
- Rooms.DeadNewcomerDisconnectsFirst: which member the dead newcomer's nested disconnect reaches first follows join order. The source visits entries by hash bin; `Long.hashCode(-1)` is 0, so the dead newcomer is visited first, then the member in the lowest bin, which is usually the smallest id, not necessarily the earliest joiner.
- Registry.Initialize: a repeated `CLIENT_CONNECT` from a connection already in a room leaves its old entry in that room as a copied record with the old id and name. In the source the entry is the live connection object: it reads as the new id and name, the sync skips it (Room.java:74), and the connection is told "You joined" twice (Room.java:88-92). The model syncs the old id and name to it and names the old name in the join line.
- GameRooms.OnClientRemoved: removes only `key` from the turn order. The source's filter (GameRoom.java:63) compares live ids, so when `sp` has been reset it also removes every other entry whose connection was reset. Within one room operation the model evicts such entries as they are reset; an entry reset by a failed write outside the room (see Registry.Enter) stays in the model's turn order.
- Rooms.AddClient: a member stored under -1 by a newcomer that failed before joining is kept as the source keeps it. Its effect on later operations is modelled only as far as the lemmas here state.
- Registry.Process: a connection whose cleanup ran is not stopped from sending later requests. In the source its next read throws on the closed socket and the thread ends.
- Registry.Enter: only the acting connection's record is tracked. Other connections reset by a failed write are reflected in the rooms, but their own records are not kept.
- Registry.Abort: an exception thrown inside the `finally` block of `run` is modelled as ending the disconnect where it stands.
- Registry.ListRooms: completeness is stated only for registries with at most ten rooms. With more, which ten are kept depends on the hash map's iteration order, which is a parameter here.
- Serialization, the payload classes' `toString`, logging and colour output are left out.
- The client, its user interface and the `Sandbox` class are left out: they are not part of the server.

=== FILE: cells.dfy ===
/** One square of the Battleship board (Project/Common/Cell.java): how many
    ships each owner placed there, whether the square has been attacked, and
    how many ships the last successful attack removed. */
module Cells {

  /** The source stores the status as an int: 0 untouched, 1 hit, 2 miss. */
  datatype Status = Untouched | Hit | Miss

  function StatusCode(s: Status): (code: int)
    ensures 0 <= code <= 2
    ensures s == Untouched <==> code == 0
    ensures s == Hit <==> code == 1
  {
    match s
    case Untouched => 0
    case Hit => 1
    case Miss => 2
  }

  /** One entry of the per-owner ship map: owner client id and ship count. */
  datatype Entry = Entry(owner: int, count: int)

  datatype Cell = Cell(row: int, col: int, status: Status, ships: seq<Entry>, lastShips: int)

  // ---------------------------------------------------------------------------
  // The ship map as an association list with distinct owners
  // ---------------------------------------------------------------------------

  predicate DistinctOwners(ships: seq<Entry>) {
    forall i, j :: 0 <= i < j < |ships| ==> ships[i].owner != ships[j].owner
  }

  predicate NonNegative(ships: seq<Entry>) {
    forall i :: 0 <= i < |ships| ==> ships[i].count >= 0
  }

  predicate HasOwner(ships: seq<Entry>, owner: int) {
    exists i :: 0 <= i < |ships| && ships[i].owner == owner
  }

  /** Ships `owner` has in the cell; an owner without an entry has none. */
  function CountOf(ships: seq<Entry>, owner: int): int {
    if |ships| == 0 then 0
    else if ships[0].owner == owner then ships[0].count
    else CountOf(ships[1..], owner)
  }

  /** Sum of all per-owner counts (the loop of `getShip`). */
  function Total(ships: seq<Entry>): int {
    if |ships| == 0 then 0 else ships[0].count + Total(ships[1..])
  }

  /** The map after `put(owner, get(owner) + 1)`, or `put(owner, 1)` for a new owner. */
  function Bump(ships: seq<Entry>, owner: int): (r: seq<Entry>)
    requires DistinctOwners(ships)
    ensures DistinctOwners(r)
    ensures CountOf(r, owner) == CountOf(ships, owner) + 1
    ensures forall o :: o != owner ==> CountOf(r, o) == CountOf(ships, o)
    ensures forall o :: HasOwner(r, o) <==> HasOwner(ships, o) || o == owner
    ensures Total(r) == Total(ships) + 1
    ensures NonNegative(ships) ==> NonNegative(r)
  {
    if |ships| == 0 then
      [Entry(owner, 1)]
    else if ships[0].owner == owner then
      assert !HasOwner(ships[1..], owner) by {
        forall i | 0 <= i < |ships[1..]| ensures ships[1..][i].owner != owner {
          assert ships[1..][i] == ships[i + 1];
        }
      }
      var r := [Entry(owner, ships[0].count + 1)] + ships[1..];
      forall o ensures HasOwner(r, o) <==> HasOwner(ships, o) || o == owner {
        HasOwnerCons(Entry(owner, ships[0].count + 1), ships[1..], o);
        HasOwnerCons(ships[0], ships[1..], o);
        assert ships == [ships[0]] + ships[1..];
      }
      r
    else
      var rest := Bump(ships[1..], owner);
      var r := [ships[0]] + rest;
      forall o ensures HasOwner(r, o) <==> HasOwner(ships, o) || o == owner {
        HasOwnerCons(ships[0], rest, o);
        HasOwnerCons(ships[0], ships[1..], o);
        assert ships == [ships[0]] + ships[1..];
      }
      assert DistinctOwners(r) by {
        forall j | 0 < j < |r| ensures r[0].owner != r[j].owner {
          assert HasOwner(rest, r[j].owner) by {
            assert rest[j - 1] == r[j];
          }
          if r[j].owner != owner {
            var i :| 0 <= i < |ships[1..]| && ships[1..][i].owner == r[j].owner;
            assert ships[i + 1].owner == r[j].owner;
          }
        }
      }
      r
  }

  lemma HasOwnerCons(e: Entry, t: seq<Entry>, o: int)
    ensures HasOwner([e] + t, o) <==> e.owner == o || HasOwner(t, o)
  {
    var r := [e] + t;
    if HasOwner(r, o) && e.owner != o {
      var i :| 0 <= i < |r| && r[i].owner == o;
      assert t[i - 1].owner == o;
    }
    if HasOwner(t, o) {
      var i :| 0 <= i < |t| && t[i].owner == o;
      assert r[i + 1].owner == o;
    }
    assert r[0] == e;
  }

  /** Every count set to zero, keys kept (the `entry.setValue(0)` loop). */
  function ZeroAll(ships: seq<Entry>): (r: seq<Entry>)
    ensures |r| == |ships|
    ensures forall i :: 0 <= i < |r| ==> r[i] == Entry(ships[i].owner, 0)
  {
    if |ships| == 0 then [] else [Entry(ships[0].owner, 0)] + ZeroAll(ships[1..])
  }

  lemma {:induction false} TotalOfZeroAll(ships: seq<Entry>)
    ensures Total(ZeroAll(ships)) == 0
    ensures forall o :: CountOf(ZeroAll(ships), o) == 0
  {
    if |ships| > 0 {
      TotalOfZeroAll(ships[1..]);
      assert ZeroAll(ships)[1..] == ZeroAll(ships[1..]);
    }
  }

  /** With no negative counts the total is positive exactly when some owner
      still has a ship in the cell. */
  lemma {:induction false} TotalPositive(ships: seq<Entry>)
    requires NonNegative(ships)
    ensures Total(ships) >= 0
    ensures Total(ships) > 0 <==> exists i :: 0 <= i < |ships| && ships[i].count > 0
  {
    if |ships| > 0 {
      TotalPositive(ships[1..]);
      if exists i :: 0 <= i < |ships[1..]| && ships[1..][i].count > 0 {
        var i :| 0 <= i < |ships[1..]| && ships[1..][i].count > 0;
        assert ships[i + 1].count > 0;
      }
      if exists i :: 0 <= i < |ships| && ships[i].count > 0 {
        var i :| 0 <= i < |ships| && ships[i].count > 0;
        if i > 0 {
          assert ships[1..][i - 1].count > 0;
        }
      }
    }
  }

  // ---------------------------------------------------------------------------
  // Cell operations
  // ---------------------------------------------------------------------------

  /** A cell is well formed when each owner appears once and no count is negative. */
  predicate Valid(c: Cell) {
    DistinctOwners(c.ships) && NonNegative(c.ships)
  }

  /** `new Cell(row, col)`: untouched, no ships, no recorded hit. */
  function NewCell(row: int, col: int): (c: Cell)
    ensures Valid(c) && c.row == row && c.col == col
    ensures c.status == Untouched && StatusCode(c.status) == 0
    ensures GetShip(c) == 0 && GetLastShips(c) == 0
    ensures forall o :: CountOf(c.ships, o) == 0
  {
    Cell(row, col, Untouched, [], 0)
  }

  /** `placeShip(id)`: one more ship for `owner`, every other owner unchanged. */
  function PlaceShip(c: Cell, owner: int): (r: Cell)
    requires Valid(c)
    ensures Valid(r)
    ensures CountOf(r.ships, owner) == CountOf(c.ships, owner) + 1
    ensures forall o :: o != owner ==> CountOf(r.ships, o) == CountOf(c.ships, o)
    ensures GetShip(r) == GetShip(c) + 1
    ensures r.status == c.status && r.lastShips == c.lastShips
    ensures r.row == c.row && r.col == c.col
  {
    c.(ships := Bump(c.ships, owner))
  }

  /** `getShip()`: total ships in the cell over all owners. In a well formed
      cell it is never negative and bounds every single owner's count. */
  function GetShip(c: Cell): (n: int)
    ensures Valid(c) ==> n >= 0 && forall o :: 0 <= CountOf(c.ships, o) <= n
  {
    assert forall o :: NonNegative(c.ships) ==> 0 <= CountOf(c.ships, o) <= Total(c.ships) by {
      forall o ensures NonNegative(c.ships) ==> 0 <= CountOf(c.ships, o) <= Total(c.ships) {
        CountAtMostTotal(c.ships, o);
      }
    }
    Total(c.ships)
  }

  /** With no negative counts, one owner's count lies between zero and the total. */
  lemma {:induction false} CountAtMostTotal(ships: seq<Entry>, o: int)
    ensures NonNegative(ships) ==> 0 <= CountOf(ships, o) <= Total(ships)
  {
    if NonNegative(ships) && |ships| > 0 {
      TotalPositive(ships[1..]);
      CountAtMostTotal(ships[1..], o);
    }
  }

  /** `getLastShips()`: ships removed by the last successful attack. */
  function GetLastShips(c: Cell): int {
    c.lastShips
  }

  /** The sunk count changes only through a scoring attack, which sets it to
      the ships the cell held; placing a ship leaves it alone. */
  lemma LastShipsOnlyByHit(c: Cell, owner: int)
    requires Valid(c)
    ensures GetLastShips(PlaceShip(c, owner)) == GetLastShips(c)
    ensures GetLastShips(AttackShip(c).0) != GetLastShips(c) ==>
              AttackShip(c).1 && GetLastShips(AttackShip(c).0) == GetShip(c) > 0
  {
  }

  /** `cellStatus()`: the status as its code, 0 untouched, 1 hit, 2 miss. */
  function CellStatus(c: Cell): (code: int)
    ensures 0 <= code <= 2
    ensures code == 0 <==> c.status == Untouched
    ensures code == 1 <==> c.status == Hit
    ensures code == 2 <==> c.status == Miss
  {
    StatusCode(c.status)
  }

  /** `attackShip()`. An untouched cell holding ships is a hit: every owner's
      ships are removed and their number is remembered. Anything else is not a
      hit and only marks the cell; the source never assigns the miss status. */
  function AttackShip(c: Cell): (r: (Cell, bool))
    requires Valid(c)
    ensures Valid(r.0)
    ensures r.0.status == Hit && r.0.row == c.row && r.0.col == c.col
    ensures r.1 <==> c.status == Untouched && GetShip(c) > 0
    ensures r.1 ==> GetShip(r.0) == 0 && GetLastShips(r.0) == GetShip(c)
                    && (forall o :: CountOf(r.0.ships, o) == 0)
                    && (forall o :: HasOwner(r.0.ships, o) <==> HasOwner(c.ships, o))
    ensures !r.1 ==> r.0.ships == c.ships && r.0.lastShips == c.lastShips
  {
    if GetShip(c) > 0 && c.status == Untouched then
      TotalOfZeroAll(c.ships);
      var z := ZeroAll(c.ships);
      assert forall o :: HasOwner(z, o) <==> HasOwner(c.ships, o) by {
        forall o ensures HasOwner(z, o) <==> HasOwner(c.ships, o) {
          if HasOwner(c.ships, o) {
            var i :| 0 <= i < |c.ships| && c.ships[i].owner == o;
            assert z[i].owner == o;
          }
        }
      }
      (c.(ships := z, status := Hit, lastShips := GetShip(c)), true)
    else
      (c.(status := Hit), false)
  }

  // ---------------------------------------------------------------------------
  // Properties
  // ---------------------------------------------------------------------------

  /** A hit is final: attacking an attacked cell reports no hit and changes
      nothing, so it can never score twice. */
  lemma SecondAttackHasNoEffect(c: Cell)
    requires Valid(c)
    ensures AttackShip(AttackShip(c).0) == (AttackShip(c).0, false)
  {
  }

  /** Neither operation ever produces the miss status, and a hit stays a hit. */
  lemma StatusNeverMiss(c: Cell, owner: int)
    requires Valid(c) && c.status != Miss
    ensures PlaceShip(c, owner).status != Miss
    ensures AttackShip(c).0.status != Miss
    ensures c.status == Hit ==> PlaceShip(c, owner).status == Hit
  {
  }

  /** `getShip` is positive exactly when some owner has a ship in the cell. */
  lemma GetShipPositive(c: Cell)
    requires Valid(c)
    ensures GetShip(c) >= 0
    ensures GetShip(c) > 0 <==> exists i :: 0 <= i < |c.ships| && c.ships[i].count > 0
  {
    TotalPositive(c.ships);
  }
}

=== FILE: commands.dfy ===
/** The slash-command table (Project/Common/Command.java): each command has
    one lower-case keyword, and `stringToCommand` looks a keyword up in a map
    built from all commands. */
module Commands {
  import opened Results
  import Text

  datatype Command =
    | Quit | Disconnect | Logout | Logoff | Reverse
    | CreateRoom | LeaveRoom | JoinRoom | Name | ListUsers

  /** The keyword of each command. */
  function Keyword(c: Command): (k: string)
    ensures |k| > 0
  {
    match c
    case Quit => "quit"
    case Disconnect => "disconnect"
    case Logout => "logout"
    case Logoff => "logoff"
    case Reverse => "reverse"
    case CreateRoom => "createroom"
    case LeaveRoom => "leaveroom"
    case JoinRoom => "joinroom"
    case Name => "name"
    case ListUsers => "users"
  }

  /** `values()` in declaration order. */
  const AllCommands: seq<Command> :=
    [Quit, Disconnect, Logout, Logoff, Reverse, CreateRoom, LeaveRoom, JoinRoom, Name, ListUsers]

  lemma AllCommandsComplete(c: Command)
    ensures c in AllCommands
  {
  }

  /** The static initialiser: `BY_COMMAND.put(e.command, e)` for each command
      in order, a later entry replacing an earlier one with the same key. */
  function Table(cs: seq<Command>): (m: map<string, Command>)
    ensures forall k :: k in m <==> exists c :: c in cs && Keyword(c) == k
  {
    if |cs| == 0 then map[]
    else
      var m := Table(cs[..|cs| - 1])[Keyword(cs[|cs| - 1]) := cs[|cs| - 1]];
      assert cs == cs[..|cs| - 1] + [cs[|cs| - 1]];
      m
  }

  const ByCommand: map<string, Command> := Table(AllCommands)

  /** `stringToCommand(command)`: the command with exactly this keyword, or
      `null`. The lookup is case-sensitive. */
  function StringToCommand(s: string): (r: Option<Command>)
    ensures r.Some? <==> exists c :: Keyword(c) == s
  {
    if s in ByCommand then
      Some(ByCommand[s])
    else
      assert forall c :: Keyword(c) != s by {
        forall c ensures Keyword(c) != s {
          AllCommandsComplete(c);
        }
      }
      None
  }

  /** Distinct commands have distinct keywords. */
  lemma KeywordInjective(a: Command, b: Command)
    requires Keyword(a) == Keyword(b)
    ensures a == b
  {
  }

  /** When no two commands in `cs` share a keyword, the table maps each
      keyword back to its own command. */
  lemma {:induction false} TableLookup(cs: seq<Command>, c: Command)
    requires c in cs
    ensures Keyword(c) in Table(cs) && Table(cs)[Keyword(c)] == c
  {
    var last := cs[|cs| - 1];
    if last != c {
      assert cs == cs[..|cs| - 1] + [last];
      assert c in cs[..|cs| - 1];
      TableLookup(cs[..|cs| - 1], c);
      if Keyword(last) == Keyword(c) {
        KeywordInjective(last, c);
      }
    }
  }

  /** Looking up a command's own keyword gives that command back. */
  lemma StringToCommandRoundTrip(c: Command)
    ensures StringToCommand(Keyword(c)) == Some(c)
  {
    AllCommandsComplete(c);
    TableLookup(AllCommands, c);
  }

  /** Every keyword is already in lower case. */
  lemma KeywordLower(c: Command)
    ensures Text.Lower(Keyword(c)) == Keyword(c)
  {
    var k := Keyword(c);
    assert forall i :: 0 <= i < |k| ==> 'a' <= k[i] <= 'z';
    assert forall i :: 0 <= i < |k| ==> Text.Lower(k)[i] == k[i];
  }

  /** The lookup does not fold case: only a string in lower case can be
      recognised, so a keyword spelled with any upper-case letter is unknown
      (for instance "QUIT" and "Quit", while "quit" is `Quit`). */
  lemma StringToCommandCaseSensitive(s: string, t: string)
    ensures StringToCommand(s).Some? ==> Text.Lower(s) == s
    ensures Text.Lower(t) == s && t != s ==> StringToCommand(t).None?
  {
    if StringToCommand(s).Some? {
      var c :| Keyword(c) == s;
      KeywordLower(c);
    }
    if StringToCommand(t).Some? {
      var c :| Keyword(c) == t;
      KeywordLower(c);
    }
  }
}

=== FILE: gameprops.dfy ===
/** Properties of the Battleship session: the turn rotation, scoring, the
    number of attack rounds, and the behaviours of Project/Server/GameRoom.java
    that follow from the order in which it calls its lifecycle methods. */
module GameProperties {
  import opened Results
  import opened Users
  import opened Members
  import Cells
  import Grids
  import opened GameRooms

  // ---------------------------------------------------------------------------
  // Turn rotation
  // ---------------------------------------------------------------------------

  /** In an order without repeats, each entry is found at its own position. */
  lemma FindDistinct(s: seq<int>, i: int)
    requires Distinct(s) && 0 <= i < |s|
    ensures Find(s, s[i]) == Some(i)
  {
    var k := Find(s, s[i]).value;
    assert !(i < k);
  }

  /** The game after `k` calls of `getNextPlayer`; a call that fails leaves
      the state as it was. */
  function Advance(g: Game, k: nat): (r: Game)
    ensures r == g.(currentTurn := r.currentTurn)
    ensures r.currentTurn == g.currentTurn || r.currentTurn in g.turnOrder
  {
    if k == 0 then g
    else
      var prev := Advance(g, k - 1);
      match GetNextPlayer(prev)
      case Ok(next) => next
      case Err(_) => prev
  }

  /** Starting with no current player, the k-th call of `getNextPlayer` picks
      the k-th player of the order, and `isLastPlayer` holds exactly after the
      last one. */
  lemma {:induction false} TurnsFollowOrder(g: Game, k: nat)
    requires Distinct(g.turnOrder) && DefaultClientId !in g.turnOrder
    requires g.currentTurn == DefaultClientId
    requires 1 <= k <= |g.turnOrder|
    ensures Advance(g, k).currentTurn == g.turnOrder[k - 1]
    ensures IsLastPlayer(Advance(g, k)) == Ok(k == |g.turnOrder|)
  {
    if k > 1 {
      TurnsFollowOrder(g, k - 1);
      FindDistinct(g.turnOrder, k - 2);
    }
    FindDistinct(g.turnOrder, k - 1);
  }

  /** After the last player the turn goes back to the first. */
  lemma TurnsWrapAround(g: Game)
    requires Distinct(g.turnOrder) && DefaultClientId !in g.turnOrder
    requires g.currentTurn == DefaultClientId && |g.turnOrder| > 0
    ensures Advance(g, |g.turnOrder| + 1).currentTurn == g.turnOrder[0]
  {
    TurnsFollowOrder(g, |g.turnOrder|);
    FindDistinct(g.turnOrder, |g.turnOrder| - 1);
  }

  // ---------------------------------------------------------------------------
  // Scoring
  // ---------------------------------------------------------------------------

  /** The lifecycle keeps every member's tallies, looked up by id. */
  lemma TalliesGet(a: Members, b: Members, id: int)
    requires TalliesKept(a, b) && UniqueIds(b) && IsMember(b, id)
    ensures UniqueIds(a) && IsMember(a, id)
    ensures Get(a, id).gamePoints == Get(b, id).gamePoints
    ensures Get(a, id).placedShips == Get(b, id).placedShips
  {
    var i := IndexOf(b, id).value;
    GetAt(b, i);
    assert a[i] in a;
    assert UniqueIds(a) by {
      forall p, q | 0 <= p < q < |a| ensures a[p].clientId != a[q].clientId {
        assert a[p].clientId == b[p].clientId && a[q].clientId == b[q].clientId;
      }
    }
    GetAt(a, i);
  }

  /** An attack that passes every check is scored on the attacked board. */
  lemma AttackReaches(ms: Members, g: Game, id: int, x: int, y: int)
    requires UniqueIds(ms) && GameInv(g)
    requires IsMember(ms, id) && g.phase == Attack && Get(ms, id).isReady
    requires g.currentTurn == id && !Get(ms, id).tookTurn
    requires Grids.IsValidCoordinate(g.grid, x, y)
    ensures var a := Grids.AttackShip(g.grid, x, y).value;
            HandleAttack(ms, g, id, x, y) == Finish(AttackScored(ms, g.(grid := a.0), Get(ms, id), x, y, a.1))
  {
    var u := Get(ms, id);
    assert HandleAttack(ms, g, id, x, y) == AttackByMember(ms, g, u, x, y) == AttackOnBoard(ms, g, u, x, y);
  }

  /** A legal attack earns the attacker exactly the ships standing on an
      untouched square, and nothing on a square already attacked or empty;
      the points survive the end of the turn and of the session. */
  lemma AttackScores(ms: Members, g: Game, id: int, x: int, y: int)
    requires UniqueIds(ms) && GameInv(g)
    requires IsMember(ms, id) && g.phase == Attack && Get(ms, id).isReady
    requires g.currentTurn == id && !Get(ms, id).tookTurn
    requires Grids.IsValidCoordinate(g.grid, x, y)
    ensures var r := HandleAttack(ms, g, id, x, y);
            var c := Grids.At(g.grid, x, y);
            && !r.outcome.Rejected?
            && IsMember(r.members, id)
            && Get(r.members, id).gamePoints
               == Get(ms, id).gamePoints
                  + (if c.status == Cells.Untouched && Cells.GetShip(c) > 0 then Cells.GetShip(c) else 0)
  {
    var u := Get(ms, id);
    var c := Grids.At(g.grid, x, y);
    var (grid1, hit) := Grids.AttackShip(g.grid, x, y).value;
    var g1 := g.(grid := grid1);
    assert Cells.CellStatus(Grids.At(grid1, x, y)) == 1;
    var scored := hit && Grids.CellStatus(grid1, x, y) == Ok(1);
    assert scored == hit;
    var u1 := if scored then AddGamePoints(u, Grids.GetLastShips(grid1, x, y).value) else u;
    assert u1.gamePoints == u.gamePoints + (if c.status == Cells.Untouched && Cells.GetShip(c) > 0 then Cells.GetShip(c) else 0);
    ReplaceFacts(ms, u1);
    var ms1 := Replace(ms, u1);
    var p := if u1.gamePoints >= WinningPoints then OnSessionEnd(ms1, g1) else Play(ms1, g1, false);
    assert TalliesKept(p.members, ms1);
    TalliesGet(p.members, ms1, id);
    var u2 := SetTookTurn(Get(p.members, id), true);
    ReplaceFacts(p.members, u2);
    var ms2 := Replace(p.members, u2);
    var q := OnTurnEnd(ms2, p.game);
    TalliesGet(q.members, ms2, id);
    assert AttackScored(ms, g1, u, x, y, hit) == q;
    AttackReaches(ms, g, id, x, y);
  }

  // ---------------------------------------------------------------------------
  // Rounds
  // ---------------------------------------------------------------------------

  /** The end of PLACE starts two rounds back to back: the first switches to
      ATTACK and gives the turn to the first player, the second moves it on
      at once, so the first attack belongs to the second player of the order. */
  lemma FirstAttackerIsSecondInOrder(ms: Members, g: Game)
    requires GameInv(g) && g.phase == Place
    requires |g.turnOrder| >= 2 && DefaultClientId !in g.turnOrder
    ensures var r := OnRoundEnd(ms, g);
            && !r.halted && r.game.phase == Attack && r.game.round == 2
            && r.game.currentTurn == g.turnOrder[1]
  {
    var p := OnRoundStart(ms, g);
    assert p.game.currentTurn == g.turnOrder[0];
    FindDistinct(g.turnOrder, 0);
  }

  /** Ending an ATTACK round: from round 3 on the session ends (and the extra
      round start still counts one more round); before that two rounds start,
      so the round number goes up by two. */
  lemma AttackRoundEnd(ms: Members, g: Game)
    requires GameInv(g) && g.phase == Attack && |g.turnOrder| > 0
    ensures var r := OnRoundEnd(ms, g);
            && !r.halted
            && (g.round >= LastRound ==> r.game.phase == Ready && r.game.round == g.round + 1)
            && (g.round < LastRound ==>
                  r.game.phase == Attack && r.game.round == g.round + 2 && r.game.turnOrder == g.turnOrder)
  {
  }

  /** A session has exactly two attack rounds: after PLACE ends, the first
      attack round ends in ATTACK and the second ends the session. */
  lemma TwoAttackRounds(ms: Members, g: Game)
    requires GameInv(g) && g.phase == Place && |g.turnOrder| >= 2 && DefaultClientId !in g.turnOrder
    ensures var a := OnRoundEnd(ms, g);
            var b := OnRoundEnd(a.members, a.game);
            var c := OnRoundEnd(b.members, b.game);
            && a.game.phase == Attack && b.game.phase == Attack && c.game.phase == Ready
            && !c.halted && c.game.round == 5
  {
    FirstAttackerIsSecondInOrder(ms, g);
    var a := OnRoundEnd(ms, g);
    AttackRoundEnd(a.members, a.game);
    var b := OnRoundEnd(a.members, a.game);
    AttackRoundEnd(b.members, b.game);
  }

  // ---------------------------------------------------------------------------
  // Placement
  // ---------------------------------------------------------------------------

  /** An accepted placement puts the ship on the requested square under the
      current-turn id, which is -1 throughout PLACE, so the ship belongs to no
      player. */
  lemma PlacementOwnedByNoOne(ms: Members, g: Game, id: int, x: int, y: int)
    requires UniqueIds(ms) && GameInv(g) && g.phase == Place
    ensures var r := HandlePlace(ms, g, id, x, y);
            !r.outcome.Rejected? ==>
              && Grids.IsValidCoordinate(g.grid, x, y) && GameInv(r.game)
              && Grids.IsValidCoordinate(r.game.grid, x, y)
              && Cells.CountOf(Grids.At(r.game.grid, x, y).ships, DefaultClientId)
                 == Cells.CountOf(Grids.At(g.grid, x, y).ships, DefaultClientId) + 1
              && Cells.GetShip(Grids.At(r.game.grid, x, y)) == Cells.GetShip(Grids.At(g.grid, x, y)) + 1
  {
  }

  /** A placement refused for an off-board square still counts as a placed
      ship: the counter is raised before the coordinate is checked. */
  lemma RefusedPlacementStillCounts(ms: Members, g: Game, id: int, x: int, y: int)
    requires UniqueIds(ms) && Grids.Valid(g.grid)
    requires IsMember(ms, id) && g.phase == Place && Get(ms, id).isReady && !Get(ms, id).tookTurn
    requires !Grids.IsValidCoordinate(g.grid, x, y)
    ensures var r := HandlePlace(ms, g, id, x, y);
            && r.outcome == Rejected(InvalidCoordinate)
            && IsMember(r.members, id)
            && Get(r.members, id).placedShips == Get(ms, id).placedShips + 1
  {
    ReplaceFacts(ms, SetPlacedShip(Get(ms, id)));
  }

  // ---------------------------------------------------------------------------
  // Skipping and leaving
  // ---------------------------------------------------------------------------

  /** A skip is not checked against the current player: any ready member that
      has not taken its turn ends the current player's turn, and the next
      player of the order gets it. */
  lemma SkipOutOfTurn(ms: Members, g: Game, id: int, k: int)
    requires UniqueIds(ms) && GameInv(g) && g.phase == Attack
    requires IsMember(ms, id) && Get(ms, id).isReady && !Get(ms, id).tookTurn
    requires 0 <= k < |g.turnOrder| - 1 && g.currentTurn == g.turnOrder[k] && g.currentTurn != DefaultClientId
    requires id != g.currentTurn
    ensures var r := HandleSkip(ms, g, id);
            && r.outcome == Done
            && r.game.currentTurn == g.turnOrder[k + 1]
            && IsMember(r.members, id) && Get(r.members, id).tookTurn
  {
    FindDistinct(g.turnOrder, k);
    ReplaceFacts(ms, SetTookTurn(Get(ms, id), true));
  }

  /** When the current player leaves mid-ATTACK (its id unchanged) or
      disconnects (its id already reset to -1), nobody else gets the turn:
      the id stays current although it left the order, every attack is then
      refused, and a turn ending (a skip or the turn timer) changes nothing. */
  lemma CurrentPlayerLeavingStalls(ms: Members, g: Game, id: int, liveId: int)
    requires UniqueIds(ms) && GameInv(g) && g.phase == Attack
    requires g.currentTurn == id && id != DefaultClientId && !IsMember(ms, id) && |ms| > 0
    requires liveId == id || liveId == DefaultClientId
    ensures var r := OnClientRemoved(ms, g, id, liveId);
            && !r.halted && r.game.currentTurn == id && id !in r.game.turnOrder
            && IsLastPlayer(r.game) == Err(PlayerNotFound)
            && OnTurnEnd(r.members, r.game).game.currentTurn == id
            && (forall other, x, y :: HandleAttack(r.members, r.game, other, x, y).outcome.Rejected?)
  {
    var r := OnClientRemoved(ms, g, id, liveId);
    forall other, x, y ensures HandleAttack(r.members, r.game, other, x, y).outcome.Rejected? {
      if IsMember(r.members, other) {
        assert other != id;
      }
    }
  }

  // ---------------------------------------------------------------------------
  // Winning
  // ---------------------------------------------------------------------------

  /** A winning attack ends the session but the handler carries on: the
      attacker's turn is marked and the turn ends in READY, which starts
      rounds again. The game is left in READY with no board and no order, the
      round number higher than before and the turn timer running; the winner
      keeps the points. */
  lemma WinEndsInReady(ms: Members, g: Game, id: int, x: int, y: int)
    requires UniqueIds(ms) && GameInv(g)
    requires IsMember(ms, id) && g.phase == Attack && Get(ms, id).isReady
    requires g.currentTurn == id && !Get(ms, id).tookTurn
    requires Grids.IsValidCoordinate(g.grid, x, y)
    requires var c := Grids.At(g.grid, x, y);
             c.status == Cells.Untouched && Get(ms, id).gamePoints + Cells.GetShip(c) >= WinningPoints
    ensures var r := HandleAttack(ms, g, id, x, y);
            && r.outcome == Done
            && r.game.phase == Ready && r.game.turnOrder == [] && r.game.grid == Grids.Ungenerated
            && r.game.round > g.round && r.game.turnTimer
            && Get(r.members, id).gamePoints >= WinningPoints
  {
    var c := Grids.At(g.grid, x, y);
    AttackScores(ms, g, id, x, y);
    var u := Get(ms, id);
    var (grid1, hit) := Grids.AttackShip(g.grid, x, y).value;
    assert Cells.CellStatus(Grids.At(grid1, x, y)) == 1;
    if Cells.GetShip(c) == 0 {
      assert u.gamePoints >= WinningPoints;
    }
    var u1 := if hit then AddGamePoints(u, Grids.GetLastShips(grid1, x, y).value) else u;
    assert u1.gamePoints >= WinningPoints;
    NewGridKeepsInv(g, grid1);
    ScoredWinEnds(ms, g.(grid := grid1), u, x, y, hit);
    AttackReaches(ms, g, id, x, y);
  }

  /** Once the attacker's points reach the winning score, the rest of the
      attack ends the session and the turn, which leaves the room in READY. */
  lemma ScoredWinEnds(ms: Members, g: Game, u: User, x: int, y: int, hit: bool)
    requires UniqueIds(ms) && IsMember(ms, u.clientId) && Grids.Valid(g.grid)
    requires var scored := hit && Grids.CellStatus(g.grid, x, y) == Ok(1);
             (if scored then AddGamePoints(u, Grids.GetLastShips(g.grid, x, y).value) else u).gamePoints >= WinningPoints
    ensures var r := AttackScored(ms, g, u, x, y, hit);
            && !r.halted
            && r.game.phase == Ready && r.game.turnOrder == [] && r.game.grid == Grids.Ungenerated
            && r.game.round > g.round && r.game.turnTimer
  {
    var scored := hit && Grids.CellStatus(g.grid, x, y) == Ok(1);
    var u1 := if scored then AddGamePoints(u, Grids.GetLastShips(g.grid, x, y).value) else u;
    ReplaceFacts(ms, u1);
    var ms1 := Replace(ms, u1);
    var p := OnSessionEnd(ms1, g);
    TalliesGet(p.members, ms1, u.clientId);
    var u2 := SetTookTurn(Get(p.members, u.clientId), true);
    assert AttackScored(ms, g, u, x, y, hit) == OnTurnEnd(Replace(p.members, u2), p.game);
    TurnEndInReady(Replace(p.members, u2), p.game);
  }

  /** A turn ending in READY starts rounds again: the round number goes up,
      the turn timer runs, and the room stays in READY with no board or
      order. */
  lemma TurnEndInReady(ms: Members, g: Game)
    requires GameInv(g) && g.phase == Ready
    ensures var r := OnTurnEnd(ms, g);
            && !r.halted && r.game.phase == Ready && r.game.turnOrder == [] && r.game.grid == Grids.Ungenerated
            && r.game.round > g.round && r.game.turnTimer
  {
  }

  // ---------------------------------------------------------------------------
  // Ready check
  // ---------------------------------------------------------------------------

  /** A run of READY requests from the given ids. */
  function ReadyAll(ms: Members, g: Game, ids: seq<int>): (r: (Members, Game))
    requires UniqueIds(ms)
    ensures Ids(r.0) == Ids(ms) && UniqueIds(r.0)
    decreases |ids|
    ensures GameInv(g) ==> GameInv(r.1)
    ensures r.1.phase == g.phase
  {
    if |ids| == 0 then (ms, g)
    else
      var h := HandleReady(ms, g, ids[0]);
      SameIds(h.members, ms);
      ReadyAll(h.members, h.game, ids[1..])
  }

  /** Once the ready check has failed, the fired timer stays referenced and no
      READY request creates a new one, so no later ready check runs. */
  lemma {:induction false} ExpiredTimerStaysExpired(ms: Members, g: Game, ids: seq<int>)
    requires UniqueIds(ms) && g.readyTimer == Expired
    ensures ReadyAll(ms, g, ids).1.readyTimer == Expired
    decreases |ids|
  {
    if |ids| > 0 {
      var h := HandleReady(ms, g, ids[0]);
      SameIds(h.members, ms);
      ExpiredTimerStaysExpired(h.members, h.game, ids[1..]);
    }
  }

  /** A ready check with fewer than two ready members leaves the room in
      READY with the timer expired, and no sequence of READY requests can
      start another check. */
  lemma FailedReadyCheckBlocksSessions(ms: Members, g: Game, order: seq<int>, ids: seq<int>)
    requires UniqueIds(ms) && g.readyTimer == Armed && IsShuffleOf(order, ms)
    requires CountReady(ms) < MinimumRequiredToStart
    ensures var p := ReadyTimerExpires(ms, g, order);
            && p.game.phase == Ready && p.game.readyTimer == Expired
            && UniqueIds(p.members)
            && ReadyAll(p.members, p.game, ids).1.readyTimer == Expired
  {
    var p := ReadyTimerExpires(ms, g, order);
    SameIds(p.members, ms);
    ExpiredTimerStaysExpired(p.members, p.game, ids);
  }

  /** Without toggling, a second READY from the same member changes nothing. */
  lemma ReadyTwiceIsReadyOnce(ms: Members, g: Game, id: int)
    requires UniqueIds(ms) && !g.allowToggleReady
    ensures var r1 := HandleReady(ms, g, id);
            r1.outcome == Done ==>
              && UniqueIds(r1.members)
              && HandleReady(r1.members, r1.game, id) == r1
  {
    var r1 := HandleReady(ms, g, id);
    if r1.outcome == Done {
      SameIds(r1.members, ms);
      var v := Get(r1.members, id);
      assert v.isReady;
      assert SetReady(v, true) == v;
      var ms2 := Replace(r1.members, v);
      forall i | 0 <= i < |ms2| ensures ms2[i] == r1.members[i] {
        if r1.members[i].clientId == id {
          GetAt(r1.members, i);
        }
      }
      assert ms2 == r1.members;
    }
  }

  /** With toggling allowed, two READY requests from one member give back its
      original record. */
  lemma ToggleTwiceRestores(ms: Members, g: Game, id: int)
    requires UniqueIds(ms) && g.allowToggleReady && IsMember(ms, id) && g.phase == Ready
    ensures var r1 := HandleReady(ms, g, id);
            && UniqueIds(r1.members)
            && var r2 := HandleReady(r1.members, r1.game, id);
               r2.outcome == Done && IsMember(r2.members, id) && Get(r2.members, id) == Get(ms, id)
  {
    var r1 := HandleReady(ms, g, id);
    SameIds(r1.members, ms);
    var r2 := HandleReady(r1.members, r1.game, id);
    SameIds(r2.members, r1.members);
  }

  /** Ending a session twice is ending it once. */
  lemma SessionEndIdempotent(ms: Members, g: Game)
    ensures var p := OnSessionEnd(ms, g);
            OnSessionEnd(p.members, p.game) == p
  {
    var p := OnSessionEnd(ms, g);
    var q := OnSessionEnd(p.members, p.game);
    assert |q.members| == |p.members|;
    forall i | 0 <= i < |p.members| ensures q.members[i] == p.members[i] {
      assert q.members[i].(isReady := p.members[i].isReady, tookTurn := p.members[i].tookTurn) == p.members[i];
    }
    assert q.members == p.members;
  }
}

=== FILE: gamerooms.dfy ===
/** The Battleship session of a game room (Project/Server/BaseGameRoom.java and
    Project/Server/GameRoom.java): the ready check, the phases READY, PLACE and
    ATTACK, the round-robin turn order, scoring on hits, and the clean-up at
    the end of a session.

    The functions here change only the game state and the members' user
    records; the notifications the source sends along the way (phase, ready,
    turn, points, timer ticks, game events) are not part of this model. Each
    lifecycle step reports `halted` when the source would throw an exception
    that none of the lifecycle methods catches; whatever the step changed
    before that point stays changed, as in the source. */
module GameRooms {
  import opened Results
  import opened Users
  import opened Members
  import Grids
  import Cells

  /** Ready members needed for a session to start. */
  const MinimumRequiredToStart: nat := 2
  /** The board generated at the start of each session is 5 x 5. */
  const BoardSize: int := 5
  /** Points at which an attack ends the session. */
  const WinningPoints: int := 6
  /** A round ending at or after this round number ends the session. */
  const LastRound: int := 3

  datatype Phase = Ready | Place | Attack | InProgress

  /** The ready timer: not created, counting down, or fired and still
      referenced (only `resetReadyTimer` clears the reference). */
  datatype ReadyTimer = NoTimer | Armed | Expired

  datatype Game = Game(
    phase: Phase,
    allowToggleReady: bool,
    readyTimer: ReadyTimer,
    turnTimer: bool,
    turnOrder: seq<int>,
    currentTurn: int,
    round: int,
    grid: Grids.Grid)

  /** Game state and members after a lifecycle step; `halted` when an
      exception escaped the step. */
  datatype Play = Play(members: Members, game: Game, halted: bool)

  /** Why a request from a client was refused; each is an exception that the
      handler catches, or the early `return` of a placement after all ships. */
  datatype Rejection =
    | NotInRoom | PhaseMismatch | NotReady | NotPlayersTurn | InvalidCoordinate | AllShipsPlaced

  /** `Aborted`: a runtime exception inside the handler was caught by its
      final `catch (Exception e)`. */
  datatype Outcome = Done | Rejected(reason: Rejection) | Aborted

  datatype Handled = Handled(members: Members, game: Game, outcome: Outcome)

  /** The errors of `getCurrentPlayer`/`getNextPlayer`; the last is the
      IndexOutOfBoundsException of `turnOrder.get(0)` on an empty order. */
  datatype TurnFailure = MissingCurrentPlayer | PlayerNotFound | IndexOutOfBounds

  /** A generated, well-formed 5 x 5 board. */
  predicate OnBoard(grid: Grids.Grid) {
    && grid.Generated? && Grids.Valid(grid)
    && Grids.Rows(grid) == BoardSize && Grids.Cols(grid) == BoardSize
  }

  /** What holds of every game state the room can reach: READY has no board,
      no order and no current player; PLACE and ATTACK play on a 5 x 5 board;
      PLACE is round 1 with no current player; the turn order has no repeats;
      IN_PROGRESS is never entered. */
  predicate GameInv(g: Game) {
    && Grids.Valid(g.grid)
    && Distinct(g.turnOrder)
    && g.phase != InProgress
    && (g.phase == Ready ==> g.grid == Grids.Ungenerated && g.turnOrder == [] && g.currentTurn == DefaultClientId)
    && (g.phase == Place ==> g.currentTurn == DefaultClientId && g.round == 1)
    && (g.phase == Attack ==> g.round >= 1)
    && (g.phase != Ready ==> OnBoard(g.grid))
  }

  /** A move on the board keeps its shape, and so the invariant. */
  lemma NewGridKeepsInv(g: Game, grid: Grids.Grid)
    requires Grids.Valid(grid) && grid.Generated?
    requires Grids.Rows(grid) == Grids.Rows(g.grid) && Grids.Cols(grid) == Grids.Cols(g.grid)
    ensures GameInv(g) && g.grid.Generated? ==> GameInv(g.(grid := grid))
  {
  }

  /** The lifecycle never changes a member's id, points or placed-ship count. */
  predicate TalliesKept(a: Members, b: Members) {
    && |a| == |b|
    && forall i :: 0 <= i < |a| ==>
         a[i].clientId == b[i].clientId && a[i].gamePoints == b[i].gamePoints && a[i].placedShips == b[i].placedShips
  }

  /** The state of a freshly created game room. */
  function NewGame(): (g: Game)
    ensures g.phase == Ready && !g.allowToggleReady && g.currentTurn == DefaultClientId
    ensures g.turnOrder == [] && g.round == 0 && g.grid == Grids.Ungenerated
    ensures g.readyTimer == NoTimer && !g.turnTimer
    ensures GameInv(g)
  {
    Game(Ready, false, NoTimer, false, [], DefaultClientId, 0, Grids.Ungenerated)
  }

  // ---------------------------------------------------------------------------
  // Turn-order helpers
  // ---------------------------------------------------------------------------

  predicate Distinct(s: seq<int>) {
    forall i, j :: 0 <= i < j < |s| ==> s[i] != s[j]
  }

  /** `List.indexOf`: the first position of `x`. */
  function Find(s: seq<int>, x: int): (r: Option<nat>)
    ensures r.None? <==> x !in s
    ensures r.Some? ==> r.value < |s| && s[r.value] == x
    ensures r.Some? ==> forall j :: 0 <= j < r.value ==> s[j] != x
  {
    if |s| == 0 then None
    else if s[0] == x then Some(0)
    else
      match Find(s[1..], x)
      case None => None
      case Some(k) =>
        assert forall j :: 0 < j <= k ==> s[j] == s[1..][j - 1];
        Some(k + 1)
  }

  /** `turnOrder.removeIf(p -> p.getClientId() == x)`. */
  function Without(s: seq<int>, x: int): (r: seq<int>)
    ensures forall y :: y in r <==> y in s && y != x
    ensures |r| <= |s|
    ensures x !in s ==> r == s
  {
    if |s| == 0 then []
    else
      assert s == [s[0]] + s[1..];
      if s[0] == x then Without(s[1..], x) else [s[0]] + Without(s[1..], x)
  }

  /** Removing an id from an order without repeats leaves none. */
  lemma {:induction false} WithoutDistinct(s: seq<int>, x: int)
    ensures Distinct(s) ==> Distinct(Without(s, x))
  {
    if |s| > 0 && Distinct(s) {
      assert Distinct(s[1..]) by {
        forall i, j | 0 <= i < j < |s[1..]| ensures s[1..][i] != s[1..][j] {
          assert s[1..][i] == s[i + 1] && s[1..][j] == s[j + 1];
        }
      }
      WithoutDistinct(s[1..], x);
      assert s[0] !in s[1..] by {
        forall k | 0 <= k < |s[1..]| ensures s[1..][k] != s[0] {
          assert s[1..][k] == s[k + 1];
        }
      }
    }
  }

  /** `order` is one of the orders `Collections.shuffle` can produce from the
      ready members. */
  predicate IsShuffleOf(order: seq<int>, ms: Members) {
    multiset(order) == multiset(ReadyIds(ms))
  }

  /** A sequence has no repeats exactly when no value occurs twice in its
      multiset. */
  lemma {:induction false} DistinctMultiset(s: seq<int>)
    ensures Distinct(s) <==> forall x :: multiset(s)[x] <= 1
  {
    if |s| > 0 {
      var t := s[1..];
      assert s == [s[0]] + t;
      DistinctMultiset(t);
      assert multiset(s) == multiset{s[0]} + multiset(t);
      if Distinct(s) {
        assert Distinct(t) by {
          forall i, j | 0 <= i < j < |t| ensures t[i] != t[j] {
            assert t[i] == s[i + 1] && t[j] == s[j + 1];
          }
        }
        assert s[0] !in t by {
          forall k | 0 <= k < |t| ensures t[k] != s[0] {
            assert t[k] == s[k + 1];
          }
        }
      }
      if forall x :: multiset(s)[x] <= 1 {
        assert multiset(t)[s[0]] == 0 by {
          assert multiset(s)[s[0]] == 1 + multiset(t)[s[0]];
        }
        forall x ensures multiset(t)[x] <= 1 {
          assert multiset(s)[x] >= multiset(t)[x];
        }
        forall i, j | 0 <= i < j < |s| ensures s[i] != s[j] {
          assert s[j] == t[j - 1];
          assert s[j] in t;
          if i > 0 {
            assert s[i] == t[i - 1];
          }
        }
      }
    }
  }

  /** A shuffle of the ready members of a room with distinct ids has no
      repeats. */
  lemma ShuffleDistinct(order: seq<int>, ms: Members)
    requires IsShuffleOf(order, ms)
    ensures UniqueIds(ms) ==> Distinct(order)
  {
    if UniqueIds(ms) {
      ReadyIdsDistinct(ms);
      DistinctMultiset(ReadyIds(ms));
      DistinctMultiset(order);
    }
  }

  // ---------------------------------------------------------------------------
  // BaseGameRoom helpers
  // ---------------------------------------------------------------------------

  /** `changePhase(phase)`: the phase is `p` afterwards, and the change is
      announced exactly when the phase was different. */
  function ChangePhase(g: Game, p: Phase): (r: (Game, bool))
    ensures r.0.phase == p
    ensures r.1 <==> g.phase != p
    ensures r.0.(phase := g.phase) == g
  {
    if g.phase != p then (g.(phase := p), true) else (g, false)
  }

  /** `resetReadyStatus()`: nobody is ready afterwards. */
  function ResetReadyStatus(ms: Members): (r: Members)
    ensures Ids(r) == Ids(ms)
    ensures forall i :: 0 <= i < |r| ==> !r[i].isReady
    ensures forall i :: 0 <= i < |r| ==> r[i].(isReady := ms[i].isReady) == ms[i]
    ensures CountReady(r) == 0
  {
    var r := SetAllReady(ms, false);
    NoneReady(r);
    r
  }

  /** `resetTurnStatus()`: nobody has taken a turn afterwards. */
  function ResetTurnStatus(ms: Members): (r: Members)
    ensures Ids(r) == Ids(ms)
    ensures forall i :: 0 <= i < |r| ==> !r[i].tookTurn
    ensures forall i :: 0 <= i < |r| ==> r[i].(tookTurn := ms[i].tookTurn) == ms[i]
  {
    SetAllTookTurn(ms, false)
  }

  /** `checkPlayerInRoom`. */
  function CheckPlayerInRoom(ms: Members, id: int): (r: Option<Rejection>)
    ensures r.None? <==> IsMember(ms, id)
    ensures r.Some? ==> r.value == NotInRoom
  {
    if IsMember(ms, id) then None else Some(NotInRoom)
  }

  /** `checkCurrentPhase(check)`. */
  function CheckCurrentPhase(g: Game, check: Phase): (r: Option<Rejection>)
    ensures r.None? <==> g.phase == check
    ensures r.Some? ==> r.value == PhaseMismatch
  {
    if g.phase != check then Some(PhaseMismatch) else None
  }

  /** `checkIsReady`: NotReady exactly when the client is not ready. */
  function CheckIsReady(u: User): (r: Option<Rejection>)
    ensures r.None? <==> u.isReady
    ensures r.Some? ==> r.value == NotReady
  {
    if !u.isReady then Some(NotReady) else None
  }

  /** `checkCurrentPlayer`. */
  function CheckCurrentPlayer(g: Game, id: int): (r: Option<Rejection>)
    ensures r.None? <==> g.currentTurn == id
    ensures r.Some? ==> r.value == NotPlayersTurn
  {
    if g.currentTurn != id then Some(NotPlayersTurn) else None
  }

  /** `checkTookTurn`. */
  function CheckTookTurn(u: User): (r: Option<Rejection>)
    ensures r.None? <==> !u.tookTurn
    ensures r.Some? ==> r.value == NotPlayersTurn
  {
    if u.tookTurn then Some(NotPlayersTurn) else None
  }

  // ---------------------------------------------------------------------------
  // Turn order
  // ---------------------------------------------------------------------------

  /** `getCurrentPlayer()`: the current player's id when it is set and still
      in the turn order. */
  function GetCurrentPlayer(g: Game): (r: Result<int, TurnFailure>)
    ensures r.Ok? <==> g.currentTurn != DefaultClientId && g.currentTurn in g.turnOrder
    ensures r.Ok? ==> r.value == g.currentTurn
    ensures r.Err? ==> (r.error == MissingCurrentPlayer <==> g.currentTurn == DefaultClientId)
    ensures r.Err? ==> r.error != IndexOutOfBounds
  {
    if g.currentTurn == DefaultClientId then Err(MissingCurrentPlayer)
    else if g.currentTurn in g.turnOrder then Ok(g.currentTurn)
    else Err(PlayerNotFound)
  }

  /** `getNextPlayer()`: with no current player the first of the order, else
      the one after the current player, wrapping after the last; the choice is
      recorded as the current turn and nothing else changes. */
  function GetNextPlayer(g: Game): (r: Result<Game, TurnFailure>)
    ensures r.Ok? ==> r.value == g.(currentTurn := r.value.currentTurn)
    ensures r.Ok? ==> r.value.currentTurn in g.turnOrder
    ensures g.currentTurn == DefaultClientId ==>
              (if |g.turnOrder| == 0 then r == Err(IndexOutOfBounds)
               else r.Ok? && r.value.currentTurn == g.turnOrder[0])
    ensures g.currentTurn != DefaultClientId ==>
              (r.Ok? <==> g.currentTurn in g.turnOrder)
    ensures g.currentTurn != DefaultClientId && r.Ok? ==>
              var k := Find(g.turnOrder, g.currentTurn).value;
              r.value.currentTurn == g.turnOrder[if k + 1 < |g.turnOrder| then k + 1 else 0]
    ensures r.Err? && g.currentTurn != DefaultClientId ==> r.error == PlayerNotFound
  {
    if g.currentTurn == DefaultClientId then
      if |g.turnOrder| == 0 then Err(IndexOutOfBounds)
      else Ok(g.(currentTurn := g.turnOrder[0]))
    else
      match GetCurrentPlayer(g)
      case Err(e) => Err(e)
      case Ok(cur) =>
        var k := Find(g.turnOrder, cur).value;
        var index := if k + 1 >= |g.turnOrder| then 0 else k + 1;
        Ok(g.(currentTurn := g.turnOrder[index]))
  }

  /** `isLastPlayer()`: the current player sits at the end of the order. */
  function IsLastPlayer(g: Game): (r: Result<bool, TurnFailure>)
    ensures r.Ok? <==> GetCurrentPlayer(g).Ok?
    ensures r.Ok? ==> (r.value <==> Find(g.turnOrder, g.currentTurn).value == |g.turnOrder| - 1)
    ensures r.Err? ==> r.error == GetCurrentPlayer(g).error
  {
    match GetCurrentPlayer(g)
    case Err(e) => Err(e)
    case Ok(cur) => Ok(Find(g.turnOrder, cur).value == |g.turnOrder| - 1)
  }

  // ---------------------------------------------------------------------------
  // Lifecycle
  // ---------------------------------------------------------------------------

  /** `onTurnStart()`: the turn timer restarts; in ATTACK the next player
      becomes current. A missing or vanished current player is caught and
      changes nothing; an empty order with no current player throws out of the
      step before the timer restarts. */
  function OnTurnStart(ms: Members, g: Game): (r: Play)
    ensures r.members == ms
    ensures r.game.turnOrder == g.turnOrder && r.game.phase == g.phase && r.game.round == g.round
    ensures r.game.grid == g.grid && r.game.readyTimer == g.readyTimer
    ensures r.game.allowToggleReady == g.allowToggleReady
    ensures r.halted <==> g.phase == Attack && g.currentTurn == DefaultClientId && |g.turnOrder| == 0
    ensures !r.halted <==> r.game.turnTimer
    ensures g.phase != Attack ==> r.game.currentTurn == g.currentTurn
    ensures g.phase == Attack && GetNextPlayer(g).Ok? ==> r.game.currentTurn == GetNextPlayer(g).value.currentTurn
    ensures GetNextPlayer(g).Err? ==> r.game.currentTurn == g.currentTurn
    ensures GameInv(g) ==> GameInv(r.game)
  {
    var g1 := g.(turnTimer := false);
    if g1.phase == Attack then
      match GetNextPlayer(g1)
      case Ok(g2) => Play(ms, g2.(turnTimer := true), false)
      case Err(IndexOutOfBounds) => Play(ms, g1, true)
      case Err(_) => Play(ms, g1.(turnTimer := true), false)
    else
      Play(ms, g1.(turnTimer := true), false)
  }

  /** `onRoundStart()`: every member's turn flag is cleared; a PLACE phase
      that already had its round moves to ATTACK, otherwise the round number
      goes up; then a turn starts. */
  function OnRoundStart(ms: Members, g: Game): (r: Play)
    ensures Ids(r.members) == Ids(ms)
    ensures forall i :: 0 <= i < |r.members| ==> !r.members[i].tookTurn
    ensures forall i :: 0 <= i < |r.members| ==> r.members[i].(tookTurn := ms[i].tookTurn) == ms[i]
    ensures g.phase == Place && g.round >= 1 ==> r.game.phase == Attack && r.game.round == g.round
    ensures !(g.phase == Place && g.round >= 1) ==> r.game.phase == g.phase && r.game.round == g.round + 1
    ensures r.game.turnOrder == g.turnOrder && r.game.grid == g.grid && r.game.readyTimer == g.readyTimer
    ensures r.game.allowToggleReady == g.allowToggleReady
    ensures r.game.phase != Attack ==> r.game.currentTurn == g.currentTurn
    ensures !r.halted <==> r.game.turnTimer
    ensures TalliesKept(r.members, ms)
    ensures GameInv(g) ==> GameInv(r.game)
  {
    var ms1 := ResetTurnStatus(ms);
    var g1 := if g.phase == Place && g.round >= 1 then ChangePhase(g, Attack).0 else g.(round := g.round + 1);
    OnTurnStart(ms1, g1)
  }

  /** `onSessionEnd()`: the turn order is emptied, no player is current,
      nobody is ready or has taken a turn, the board is discarded and the
      phase is READY. Points, placed-ship counters and the round number are
      kept. */
  function OnSessionEnd(ms: Members, g: Game): (r: Play)
    ensures !r.halted
    ensures r.game.phase == Ready && r.game.turnOrder == [] && r.game.currentTurn == DefaultClientId
    ensures r.game.grid == Grids.Ungenerated && !r.game.turnTimer
    ensures r.game.round == g.round && r.game.readyTimer == g.readyTimer
    ensures r.game.allowToggleReady == g.allowToggleReady
    ensures Ids(r.members) == Ids(ms)
    ensures forall i :: 0 <= i < |r.members| ==> !r.members[i].isReady && !r.members[i].tookTurn
    ensures forall i :: 0 <= i < |r.members| ==>
              r.members[i].gamePoints == ms[i].gamePoints && r.members[i].placedShips == ms[i].placedShips
              && r.members[i].clientName == ms[i].clientName
    ensures CountReady(r.members) == 0
    ensures TalliesKept(r.members, ms)
    ensures GameInv(r.game)
  {
    var g1 := g.(turnOrder := [], currentTurn := DefaultClientId, turnTimer := false,
                 grid := Grids.Reset(g.grid));
    var ms1 := ResetTurnStatus(ResetReadyStatus(ms));
    NoneReady(ms1);
    Play(ms1, ChangePhase(g1, Ready).0, false)
  }

  /** `onRoundEnd()`: from round 3 on the session ends, otherwise a round
      starts; then, in either case, one more round starts (the source calls
      `onRoundStart` a second time after the if/else). */
  function OnRoundEnd(ms: Members, g: Game): (r: Play)
    ensures r.game.allowToggleReady == g.allowToggleReady
    ensures Ids(r.members) == Ids(ms) && TalliesKept(r.members, ms)
    ensures g.round < LastRound ==> r.game.grid == g.grid && r.game.turnOrder == g.turnOrder
    ensures GameInv(g) ==> GameInv(r.game)
  {
    var p := if g.round >= LastRound then OnSessionEnd(ms, g) else OnRoundStart(ms, g);
    if p.halted then p else OnRoundStart(p.members, p.game)
  }

  /** `onTurnEnd()`: the turn timer stops. In ATTACK the round ends after the
      last player of the order, otherwise the next turn starts; a missing
      current player is caught and nothing more happens. Outside ATTACK the
      round ends. */
  function OnTurnEnd(ms: Members, g: Game): (r: Play)
    ensures r.game.allowToggleReady == g.allowToggleReady
    ensures Ids(r.members) == Ids(ms) && TalliesKept(r.members, ms)
    ensures GameInv(g) ==> GameInv(r.game)
    ensures g.phase == Attack && IsLastPlayer(g).Err? ==> r == Play(ms, g.(turnTimer := false), false)
    ensures g.phase == Attack && IsLastPlayer(g) == Ok(false) ==> r == OnTurnStart(ms, g.(turnTimer := false))
    ensures g.phase == Attack && IsLastPlayer(g) == Ok(true) ==> r == OnRoundEnd(ms, g.(turnTimer := false))
    ensures g.phase != Attack ==> r == OnRoundEnd(ms, g.(turnTimer := false))
  {
    var g1 := g.(turnTimer := false);
    var last := IsLastPlayer(g);
    if g.phase != Attack || last == Ok(true) then OnRoundEnd(ms, g1)
    else if last.Err? then Play(ms, g1, false)
    else OnTurnStart(ms, g1)
  }

  /** `onSessionStart()`: PLACE phase, no current player, the shuffled ready
      members as the turn order, round 0, a fresh 5 x 5 board; then the first
      round starts, which makes it round 1 of PLACE. */
  function OnSessionStart(ms: Members, g: Game, order: seq<int>): (r: Play)
    requires IsShuffleOf(order, ms)
    ensures !r.halted
    ensures r.game.phase == Place && r.game.round == 1 && r.game.currentTurn == DefaultClientId
    ensures r.game.turnOrder == order && r.game.turnTimer
    ensures Grids.Generate(BoardSize, BoardSize) == Ok(r.game.grid)
    ensures Ids(r.members) == Ids(ms)
    ensures forall i :: 0 <= i < |r.members| ==> r.members[i] == SetTookTurn(ms[i], false)
    ensures r.game.readyTimer == g.readyTimer && r.game.allowToggleReady == g.allowToggleReady
    ensures TalliesKept(r.members, ms)
    ensures UniqueIds(ms) ==> GameInv(r.game)
  {
    var g1 := ChangePhase(g, Place).0;
    var g2 := g1.(currentTurn := DefaultClientId, turnOrder := order, round := 0,
                  grid := Grids.Generate(BoardSize, BoardSize).value);
    ShuffleDistinct(order, ms);
    OnRoundStart(ms, g2)
  }

  /** `checkReadyStatus()`: with at least two ready members the ready timer
      is cleared and the session starts; otherwise the session ends. */
  function CheckReadyStatus(ms: Members, g: Game, order: seq<int>): (r: Play)
    requires IsShuffleOf(order, ms)
    ensures !r.halted
    ensures CountReady(ms) >= MinimumRequiredToStart ==>
              r.game.phase == Place && r.game.turnOrder == order && r.game.readyTimer == NoTimer
    ensures CountReady(ms) < MinimumRequiredToStart ==>
              r == OnSessionEnd(ms, g) && r.game.phase == Ready && r.game.readyTimer == g.readyTimer
    ensures r.game.phase == Place <==> CountReady(ms) >= MinimumRequiredToStart
    ensures Ids(r.members) == Ids(ms) && TalliesKept(r.members, ms)
    ensures UniqueIds(ms) ==> GameInv(r.game)
  {
    if CountReady(ms) >= MinimumRequiredToStart then
      OnSessionStart(ms, g.(readyTimer := NoTimer), order)
    else
      OnSessionEnd(ms, g)
  }

  /** The ready timer fires: it stays referenced as expired and the ready
      check runs. */
  function ReadyTimerExpires(ms: Members, g: Game, order: seq<int>): (r: Play)
    requires g.readyTimer == Armed
    requires IsShuffleOf(order, ms)
    ensures !r.halted
    ensures r.game.readyTimer == (if CountReady(ms) >= MinimumRequiredToStart then NoTimer else Expired)
    ensures Ids(r.members) == Ids(ms) && TalliesKept(r.members, ms)
    ensures UniqueIds(ms) ==> GameInv(r.game)
  {
    CheckReadyStatus(ms, g.(readyTimer := Expired), order)
  }

  /** The turn timer fires: the turn ends. */
  function TurnTimerExpires(ms: Members, g: Game): (r: Play)
    requires g.turnTimer
    ensures r == OnTurnEnd(ms, g)
    ensures Ids(r.members) == Ids(ms) && TalliesKept(r.members, ms)
    ensures GameInv(g) ==> GameInv(r.game)
  {
    OnTurnEnd(ms, g)
  }

  /** `onClientRemoved(sp)`. The turn order holds connections, and the filter
      compares their ids at the time of the call; `key` is the id `sp` held
      in the room and `liveId` the one it holds now (-1 once its connection
      was reset). The model drops only `key`; a reset `sp` also matches any
      other reset entry in the source, and those are evicted, each under its
      own key, as the room resets them.
      An empty room stops the timers and ends the session; otherwise, when
      `liveId` is the current player's id, a new turn starts. */
  function OnClientRemoved(ms: Members, g: Game, key: int, liveId: int): (r: Play)
    ensures key !in r.game.turnOrder
    ensures forall x :: x in r.game.turnOrder ==> x in g.turnOrder
    ensures |ms| == 0 ==> !r.halted && r.game.phase == Ready && r.game.readyTimer == NoTimer && !r.game.turnTimer
    ensures |ms| > 0 && liveId != g.currentTurn ==>
              r == Play(ms, g.(turnOrder := Without(g.turnOrder, key)), false)
    ensures |ms| > 0 && key == liveId ==> r.game.currentTurn == g.currentTurn || g.currentTurn == DefaultClientId
    ensures r.game.allowToggleReady == g.allowToggleReady
    ensures Ids(r.members) == Ids(ms) && TalliesKept(r.members, ms)
    ensures GameInv(g) ==> GameInv(r.game)
  {
    var g1 := g.(turnOrder := Without(g.turnOrder, key));
    WithoutDistinct(g.turnOrder, key);
    if |ms| == 0 then
      OnSessionEnd(ms, g1.(readyTimer := NoTimer, turnTimer := false))
    else if liveId == g.currentTurn then
      OnTurnStart(ms, g1)
    else
      Play(ms, g1, false)
  }

  // ---------------------------------------------------------------------------
  // Requests from clients
  // ---------------------------------------------------------------------------

  /** `handleReady(sender)`: a member in the READY phase becomes ready (or,
      with toggling allowed, flips its flag) and the ready timer is created if
      there is none; anything else is refused and changes nothing. */
  function HandleReady(ms: Members, g: Game, id: int): (r: Handled)
    requires UniqueIds(ms)
    ensures !IsMember(ms, id) ==> r == Handled(ms, g, Rejected(NotInRoom))
    ensures IsMember(ms, id) && g.phase != Ready ==> r == Handled(ms, g, Rejected(PhaseMismatch))
    ensures r.outcome == Done <==> IsMember(ms, id) && g.phase == Ready
    ensures r.outcome == Done ==>
              && UniqueIds(r.members) && Ids(r.members) == Ids(ms)
              && Get(r.members, id).isReady == (if g.allowToggleReady then !Get(ms, id).isReady else true)
              && Get(r.members, id).(isReady := Get(ms, id).isReady) == Get(ms, id)
              && (forall i :: 0 <= i < |ms| && ms[i].clientId != id ==> r.members[i] == ms[i])
              && r.game == (if g.readyTimer == NoTimer then g.(readyTimer := Armed) else g)
    ensures Ids(r.members) == Ids(ms)
    ensures GameInv(g) ==> GameInv(r.game)
  {
    match CheckPlayerInRoom(ms, id)
    case Some(e) => Handled(ms, g, Rejected(e))
    case None =>
      match CheckCurrentPhase(g, Ready)
      case Some(e) => Handled(ms, g, Rejected(e))
      case None =>
        var u := Get(ms, id);
        var u1 := if !g.allowToggleReady then SetReady(u, true) else SetReady(u, !u.isReady);
        var ms1 := Replace(ms, u1);
        ReplaceFacts(ms, u1);
        var g1 := if g.readyTimer == NoTimer then g.(readyTimer := Armed) else g;
        Handled(ms1, g1, Done)
  }

  /** `checkAllTookTurn()`: when every ready member took its turn the round
      ends. */
  function CheckAllTookTurn(ms: Members, g: Game): (r: Play)
    ensures (forall i :: 0 <= i < |ms| && ms[i].isReady ==> ms[i].tookTurn) ==> r == OnRoundEnd(ms, g)
    ensures !(forall i :: 0 <= i < |ms| && ms[i].isReady ==> ms[i].tookTurn) ==> r == Play(ms, g, false)
    ensures Ids(r.members) == Ids(ms) && TalliesKept(r.members, ms)
    ensures GameInv(g) ==> GameInv(r.game)
  {
    AllTookTurnCounts(ms);
    if CountReady(ms) == CountReadyTookTurn(ms) then OnRoundEnd(ms, g) else Play(ms, g, false)
  }

  /** A handler's result after a lifecycle step: a caught exception becomes
      `Aborted`. */
  function Finish(p: Play): (r: Handled)
    ensures r.members == p.members && r.game == p.game
    ensures r.outcome == (if p.halted then Aborted else Done)
  {
    Handled(p.members, p.game, if p.halted then Aborted else Done)
  }

  /** `handlePlaceAction(sender, x, y)`. A ready member in PLACE first has its
      placed-ship counter raised, whatever follows. A member that took its
      turn and placed all its ships is refused; an off-board coordinate is
      refused by the grid. Otherwise one ship is placed at (x, y) under the
      current-turn id; with all ships placed the member's turn is taken, and
      when every ready member took its turn the round ends. */
  function HandlePlace(ms: Members, g: Game, id: int, x: int, y: int): (r: Handled)
    requires UniqueIds(ms) && Grids.Valid(g.grid)
    ensures !IsMember(ms, id) ==> r == Handled(ms, g, Rejected(NotInRoom))
    ensures IsMember(ms, id) && g.phase != Place ==> r == Handled(ms, g, Rejected(PhaseMismatch))
    ensures IsMember(ms, id) && g.phase == Place && !Get(ms, id).isReady ==> r == Handled(ms, g, Rejected(NotReady))
    ensures IsMember(ms, id) && g.phase == Place && Get(ms, id).isReady ==>
              var u1 := SetPlacedShip(Get(ms, id));
              && (u1.tookTurn && PlacedAllShips(u1) ==>
                    r == Handled(Replace(ms, u1), g, Rejected(AllShipsPlaced)))
              && (!(u1.tookTurn && PlacedAllShips(u1)) && !Grids.IsValidCoordinate(g.grid, x, y) ==>
                    r == Handled(Replace(ms, u1), g, Rejected(InvalidCoordinate)))
    ensures r.outcome.Rejected? ==> r.game == g
    ensures Ids(r.members) == Ids(ms)
    ensures GameInv(g) ==> GameInv(r.game)
  {
    match CheckPlayerInRoom(ms, id)
    case Some(e) => Handled(ms, g, Rejected(e))
    case None =>
      match CheckCurrentPhase(g, Place)
      case Some(e) => Handled(ms, g, Rejected(e))
      case None =>
        match CheckIsReady(Get(ms, id))
        case Some(e) => Handled(ms, g, Rejected(e))
        case None =>
          var u1 := SetPlacedShip(Get(ms, id));
          ReplaceFacts(ms, u1);
          var ms1 := Replace(ms, u1);
          if u1.tookTurn && PlacedAllShips(u1) then
            Handled(ms1, g, Rejected(AllShipsPlaced))
          else
            PlaceOnBoard(ms1, g, u1, x, y)
  }

  /** The placement of a member whose counter was raised: an off-board
      coordinate is refused by the grid; otherwise the ship is placed. */
  function PlaceOnBoard(ms: Members, g: Game, u: User, x: int, y: int): (r: Handled)
    requires UniqueIds(ms) && Grids.Valid(g.grid) && IsMember(ms, u.clientId)
    ensures !Grids.IsValidCoordinate(g.grid, x, y) ==> r == Handled(ms, g, Rejected(InvalidCoordinate))
    ensures r.outcome.Rejected? ==> r.game == g
    ensures Ids(r.members) == Ids(ms)
    ensures GameInv(g) ==> GameInv(r.game)
  {
    match Grids.PlaceShip(g.grid, x, y, g.currentTurn)
    case Err(_) => Handled(ms, g, Rejected(InvalidCoordinate))
    case Ok(grid1) =>
      var u2 := if PlacedAllShips(u) then SetTookTurn(u, true) else u;
      NewGridKeepsInv(g, grid1);
      ReplaceFacts(ms, u2);
      Finish(CheckAllTookTurn(Replace(ms, u2), g.(grid := grid1)))
  }

  /** `handleAttackAction(sender, x, y)`. Only the current player, ready, in
      ATTACK and not yet done this turn may attack, and only on the board; any
      other request changes nothing. A hit adds the number of ships it removed
      to the attacker's points; at 6 points or more the session ends. Either
      way the attacker's turn is then marked taken and the turn ends. */
  function HandleAttack(ms: Members, g: Game, id: int, x: int, y: int): (r: Handled)
    requires UniqueIds(ms) && Grids.Valid(g.grid)
    ensures !IsMember(ms, id) ==> r == Handled(ms, g, Rejected(NotInRoom))
    ensures IsMember(ms, id) && g.phase != Attack ==> r == Handled(ms, g, Rejected(PhaseMismatch))
    ensures IsMember(ms, id) && g.phase == Attack && !Get(ms, id).isReady ==> r == Handled(ms, g, Rejected(NotReady))
    ensures IsMember(ms, id) && g.phase == Attack && Get(ms, id).isReady && g.currentTurn != id ==>
              r == Handled(ms, g, Rejected(NotPlayersTurn))
    ensures IsMember(ms, id) && g.phase == Attack && Get(ms, id).isReady && g.currentTurn == id && Get(ms, id).tookTurn ==>
              r == Handled(ms, g, Rejected(NotPlayersTurn))
    ensures r.outcome.Rejected? ==> r.members == ms && r.game == g
    ensures r.outcome.Rejected? <==>
              !(IsMember(ms, id) && g.phase == Attack && Get(ms, id).isReady && g.currentTurn == id
                && !Get(ms, id).tookTurn && Grids.IsValidCoordinate(g.grid, x, y))
    ensures Ids(r.members) == Ids(ms)
    ensures GameInv(g) ==> GameInv(r.game)
  {
    match CheckPlayerInRoom(ms, id)
    case Some(e) => Handled(ms, g, Rejected(e))
    case None =>
      match CheckCurrentPhase(g, Attack)
      case Some(e) => Handled(ms, g, Rejected(e))
      case None => AttackByMember(ms, g, Get(ms, id), x, y)
  }

  /** The checks of `handleAttackAction` that follow membership and phase,
      for the member `u`, and the attack itself. */
  function AttackByMember(ms: Members, g: Game, u: User, x: int, y: int): (r: Handled)
    requires UniqueIds(ms) && Grids.Valid(g.grid) && IsMember(ms, u.clientId)
    ensures r.outcome.Rejected? ==> r.members == ms && r.game == g
    ensures !u.isReady ==> r == Handled(ms, g, Rejected(NotReady))
    ensures u.isReady && (g.currentTurn != u.clientId || u.tookTurn) ==> r == Handled(ms, g, Rejected(NotPlayersTurn))
    ensures r.outcome.Rejected? <==>
              !(u.isReady && g.currentTurn == u.clientId && !u.tookTurn && Grids.IsValidCoordinate(g.grid, x, y))
    ensures Ids(r.members) == Ids(ms)
    ensures GameInv(g) ==> GameInv(r.game)
  {
    match CheckIsReady(u)
    case Some(e) => Handled(ms, g, Rejected(e))
    case None =>
      match CheckCurrentPlayer(g, u.clientId)
      case Some(e) => Handled(ms, g, Rejected(e))
      case None =>
        match CheckTookTurn(u)
        case Some(e) => Handled(ms, g, Rejected(e))
        case None =>
          AttackOnBoard(ms, g, u, x, y)
  }

  /** The attack of a member allowed to attack: an off-board coordinate is
      refused by the grid and changes nothing. */
  function AttackOnBoard(ms: Members, g: Game, u: User, x: int, y: int): (r: Handled)
    requires UniqueIds(ms) && Grids.Valid(g.grid) && IsMember(ms, u.clientId)
    ensures r.outcome.Rejected? <==> !Grids.IsValidCoordinate(g.grid, x, y)
    ensures r.outcome.Rejected? ==> r == Handled(ms, g, Rejected(InvalidCoordinate))
    ensures Ids(r.members) == Ids(ms)
    ensures GameInv(g) ==> GameInv(r.game)
  {
    match Grids.AttackShip(g.grid, x, y)
    case Err(_) => Handled(ms, g, Rejected(InvalidCoordinate))
    case Ok((grid1, hit)) =>
      NewGridKeepsInv(g, grid1);
      Finish(AttackScored(ms, g.(grid := grid1), u, x, y, hit))
  }

  /** What `handleAttackAction` does after a legal attack on (x, y): scoring,
      the points check, the turn flag and the end of the turn. */
  function AttackScored(ms: Members, g: Game, u: User, x: int, y: int, hit: bool): (r: Play)
    requires UniqueIds(ms) && IsMember(ms, u.clientId) && Grids.Valid(g.grid)
    ensures Ids(r.members) == Ids(ms)
    ensures GameInv(g) ==> GameInv(r.game)
  {
    var scored := hit && Grids.CellStatus(g.grid, x, y) == Ok(1);
    var u1 := if scored then AddGamePoints(u, Grids.GetLastShips(g.grid, x, y).value) else u;
    ReplaceFacts(ms, u1);
    var ms1 := Replace(ms, u1);
    var p := if u1.gamePoints >= WinningPoints then OnSessionEnd(ms1, g) else Play(ms1, g, false);
    assert Ids(p.members) == Ids(ms1);
    assert IsMember(p.members, u.clientId) by {
      var i :| 0 <= i < |ms1| && ms1[i].clientId == u.clientId;
      assert p.members[i].clientId == u.clientId;
    }
    var u2 := SetTookTurn(Get(p.members, u.clientId), true);
    OnTurnEnd(Replace(p.members, u2), p.game)
  }

  /** `handleSkipAction(sender)`: a ready member in ATTACK that has not taken
      its turn marks it taken and ends the turn. The source does not check
      that the sender is the current player. */
  function HandleSkip(ms: Members, g: Game, id: int): (r: Handled)
    requires UniqueIds(ms)
    ensures !IsMember(ms, id) ==> r == Handled(ms, g, Rejected(NotInRoom))
    ensures IsMember(ms, id) && g.phase != Attack ==> r == Handled(ms, g, Rejected(PhaseMismatch))
    ensures IsMember(ms, id) && g.phase == Attack && !Get(ms, id).isReady ==> r == Handled(ms, g, Rejected(NotReady))
    ensures IsMember(ms, id) && g.phase == Attack && Get(ms, id).isReady && Get(ms, id).tookTurn ==>
              r == Handled(ms, g, Rejected(NotPlayersTurn))
    ensures r.outcome.Rejected? <==>
              !(IsMember(ms, id) && g.phase == Attack && Get(ms, id).isReady && !Get(ms, id).tookTurn)
    ensures !r.outcome.Rejected? ==>
              r == Finish(OnTurnEnd(Replace(ms, SetTookTurn(Get(ms, id), true)), g))
    ensures Ids(r.members) == Ids(ms)
    ensures GameInv(g) ==> GameInv(r.game)
  {
    match CheckPlayerInRoom(ms, id)
    case Some(e) => Handled(ms, g, Rejected(e))
    case None =>
      match CheckCurrentPhase(g, Attack)
      case Some(e) => Handled(ms, g, Rejected(e))
      case None =>
        var u := Get(ms, id);
        match CheckIsReady(u)
        case Some(e) => Handled(ms, g, Rejected(e))
        case None =>
          match CheckTookTurn(u)
          case Some(e) => Handled(ms, g, Rejected(e))
          case None =>
            Finish(OnTurnEnd(Replace(ms, SetTookTurn(u, true)), g))
  }
}

=== FILE: grids.dfy ===
/** The Battleship board (Project/Common/Grid.java): a rectangular array of
    cells that exists only between `generate` and `reset`. */
module Grids {
  import opened Results
  import Cells

  /** `generate` with a negative size throws; every coordinate operation
      throws on a coordinate outside the board. */
  datatype GridError = NegativeSize | InvalidCoordinate

  /** `cells == null` before `generate` and after `reset`. */
  datatype Grid = Ungenerated | Generated(cells: seq<seq<Cells.Cell>>)

  function Rows(g: Grid): nat {
    if g.Generated? then |g.cells| else 0
  }

  /** `cells[0].length`; a board without rows has no columns. */
  function Cols(g: Grid): nat {
    if g.Generated? && |g.cells| > 0 then |g.cells[0]| else 0
  }

  /** Every row has the same length, every cell is well formed and knows its
      own coordinates. */
  predicate Valid(g: Grid) {
    g.Generated? ==>
      && (forall i :: 0 <= i < |g.cells| ==> |g.cells[i]| == Cols(g))
      && (forall i, j :: 0 <= i < |g.cells| && 0 <= j < |g.cells[i]| ==>
            Cells.Valid(g.cells[i][j]) && g.cells[i][j].row == i && g.cells[i][j].col == j)
  }

  /** `isValidCoordinate`: the board exists and (row, col) lies on it. The
      source checks the column against the first row only; on a well formed
      board that is every row, so a valid coordinate names a cell. */
  function IsValidCoordinate(g: Grid, row: int, col: int): (r: bool)
    ensures Valid(g) ==> (r <==> 0 <= row < Rows(g) && 0 <= col < Cols(g))
    ensures Valid(g) && r ==> g.Generated? && row < |g.cells| && col < |g.cells[row]|
  {
    g.Generated? && 0 <= row && 0 <= col && row < |g.cells| && col < |g.cells[0]|
  }

  /** The cell at a valid coordinate. */
  function At(g: Grid, row: int, col: int): (c: Cells.Cell)
    requires Valid(g) && IsValidCoordinate(g, row, col)
    ensures Cells.Valid(c) && c.row == row && c.col == col
  {
    g.cells[row][col]
  }

  function FreshRow(i: int, cols: nat): (r: seq<Cells.Cell>)
    ensures |r| == cols
    ensures forall j :: 0 <= j < cols ==> r[j] == Cells.NewCell(i, j)
  {
    seq(cols, j requires 0 <= j < cols => Cells.NewCell(i, j))
  }

  /** `generate(rows, cols)`: a fresh board of untouched, empty cells; a
      negative size is the NegativeArraySizeException of the array allocation. */
  function Generate(rows: int, cols: int): (r: Result<Grid, GridError>)
    ensures r.Err? <==> rows < 0 || cols < 0
    ensures r.Err? ==> r.error == NegativeSize
    ensures r.Ok? ==> Valid(r.value) && Rows(r.value) == rows
    ensures r.Ok? && rows > 0 ==> Cols(r.value) == cols
    ensures r.Ok? ==> forall i, j :: IsValidCoordinate(r.value, i, j) <==> 0 <= i < rows && 0 <= j < cols
    ensures r.Ok? ==> forall i, j :: IsValidCoordinate(r.value, i, j) ==>
      var c := At(r.value, i, j);
      c.status == Cells.Untouched && Cells.GetShip(c) == 0 && Cells.GetLastShips(c) == 0
  {
    if rows < 0 || cols < 0 then Err(NegativeSize)
    else Ok(Generated(seq(rows, i requires 0 <= i < rows => FreshRow(i, cols))))
  }

  /** The board with the cell at a valid coordinate replaced. */
  function Put(g: Grid, row: int, col: int, c: Cells.Cell): (r: Grid)
    requires Valid(g) && IsValidCoordinate(g, row, col)
    requires Cells.Valid(c) && c.row == row && c.col == col
    ensures Valid(r) && r.Generated? && Rows(r) == Rows(g) && Cols(r) == Cols(g)
    ensures forall i, j :: IsValidCoordinate(r, i, j) <==> IsValidCoordinate(g, i, j)
    ensures At(r, row, col) == c
    ensures forall i, j :: IsValidCoordinate(g, i, j) && (i, j) != (row, col) ==> At(r, i, j) == At(g, i, j)
  {
    Generated(g.cells[row := g.cells[row][col := c]])
  }

  /** `placeShip(x, y, clientId)`: one more ship of the owner at (x, y),
      nothing else on the board changes. */
  function PlaceShip(g: Grid, x: int, y: int, owner: int): (r: Result<Grid, GridError>)
    requires Valid(g)
    ensures r.Err? <==> !IsValidCoordinate(g, x, y)
    ensures r.Err? ==> r.error == InvalidCoordinate
    ensures r.Ok? ==> Valid(r.value) && r.value.Generated? && Rows(r.value) == Rows(g) && Cols(r.value) == Cols(g)
    ensures r.Ok? ==> forall i, j :: IsValidCoordinate(r.value, i, j) <==> IsValidCoordinate(g, i, j)
    ensures r.Ok? ==> Cells.GetShip(At(r.value, x, y)) == Cells.GetShip(At(g, x, y)) + 1
    ensures r.Ok? ==> Cells.CountOf(At(r.value, x, y).ships, owner) == Cells.CountOf(At(g, x, y).ships, owner) + 1
    ensures r.Ok? ==> At(r.value, x, y).status == At(g, x, y).status
    ensures r.Ok? ==> forall i, j :: IsValidCoordinate(g, i, j) && (i, j) != (x, y) ==> At(r.value, i, j) == At(g, i, j)
  {
    if !IsValidCoordinate(g, x, y) then Err(InvalidCoordinate)
    else Ok(Put(g, x, y, Cells.PlaceShip(At(g, x, y), owner)))
  }

  /** `attackShip(x, y)`: true exactly when the cell was untouched and held
      ships; the cell is marked either way and nothing else changes. */
  function AttackShip(g: Grid, x: int, y: int): (r: Result<(Grid, bool), GridError>)
    requires Valid(g)
    ensures r.Err? <==> !IsValidCoordinate(g, x, y)
    ensures r.Err? ==> r.error == InvalidCoordinate
    ensures r.Ok? ==> Valid(r.value.0) && r.value.0.Generated? && Rows(r.value.0) == Rows(g) && Cols(r.value.0) == Cols(g)
    ensures r.Ok? ==> forall i, j :: IsValidCoordinate(r.value.0, i, j) <==> IsValidCoordinate(g, i, j)
    ensures r.Ok? ==> (r.value.1 <==> At(g, x, y).status == Cells.Untouched && Cells.GetShip(At(g, x, y)) > 0)
    ensures r.Ok? ==> At(r.value.0, x, y).status == Cells.Hit
    ensures r.Ok? && r.value.1 ==> Cells.GetShip(At(r.value.0, x, y)) == 0
    ensures r.Ok? && r.value.1 ==> Cells.GetLastShips(At(r.value.0, x, y)) == Cells.GetShip(At(g, x, y))
    ensures r.Ok? && !r.value.1 ==> Cells.GetShip(At(r.value.0, x, y)) == Cells.GetShip(At(g, x, y))
    ensures r.Ok? ==> forall i, j :: IsValidCoordinate(g, i, j) && (i, j) != (x, y) ==> At(r.value.0, i, j) == At(g, i, j)
  {
    if !IsValidCoordinate(g, x, y) then Err(InvalidCoordinate)
    else
      var (c, hit) := Cells.AttackShip(At(g, x, y));
      Ok((Put(g, x, y, c), hit))
  }

  /** `getShip(x, y)`: the total ship count of the cell. */
  function GetShip(g: Grid, x: int, y: int): (r: Result<int, GridError>)
    requires Valid(g)
    ensures r.Err? <==> !IsValidCoordinate(g, x, y)
    ensures r.Ok? ==> r.value == Cells.GetShip(At(g, x, y)) >= 0
    ensures r.Ok? ==> (r.value > 0 <==> exists k :: 0 <= k < |At(g, x, y).ships| && At(g, x, y).ships[k].count > 0)
  {
    if !IsValidCoordinate(g, x, y) then Err(InvalidCoordinate)
    else
      Cells.GetShipPositive(At(g, x, y));
      Ok(Cells.GetShip(At(g, x, y)))
  }

  /** `getLastShips(x, y)`: ships removed by the last hit on the cell. */
  function GetLastShips(g: Grid, x: int, y: int): (r: Result<int, GridError>)
    requires Valid(g)
    ensures r.Err? <==> !IsValidCoordinate(g, x, y)
    ensures r.Ok? ==> r.value == At(g, x, y).lastShips
  {
    if !IsValidCoordinate(g, x, y) then Err(InvalidCoordinate)
    else Ok(Cells.GetLastShips(At(g, x, y)))
  }

  /** `cellStatus(x, y)`: 0 untouched, 1 hit, 2 miss. */
  function CellStatus(g: Grid, x: int, y: int): (r: Result<int, GridError>)
    requires Valid(g)
    ensures r.Err? <==> !IsValidCoordinate(g, x, y)
    ensures r.Ok? ==> 0 <= r.value <= 2
    ensures r.Ok? ==> (r.value == 0 <==> At(g, x, y).status == Cells.Untouched)
    ensures r.Ok? ==> (r.value == 1 <==> At(g, x, y).status == Cells.Hit)
    ensures r.Ok? ==> (r.value == 2 <==> At(g, x, y).status == Cells.Miss)
  {
    if !IsValidCoordinate(g, x, y) then Err(InvalidCoordinate)
    else Ok(Cells.CellStatus(At(g, x, y)))
  }

  /** `reset()`: the board is discarded; no coordinate is valid afterwards. */
  function Reset(g: Grid): (r: Grid)
    ensures Valid(r)
    ensures forall i, j :: !IsValidCoordinate(r, i, j)
  {
    Ungenerated
  }

  // ---------------------------------------------------------------------------
  // Properties
  // ---------------------------------------------------------------------------

  /** Resetting a reset board changes nothing, and every coordinate operation
      on it fails with the invalid-coordinate error. */
  lemma ResetIdempotent(g: Grid, x: int, y: int, owner: int)
    ensures Reset(Reset(g)) == Reset(g)
    ensures PlaceShip(Reset(g), x, y, owner) == Err(InvalidCoordinate)
    ensures AttackShip(Reset(g), x, y) == Err(InvalidCoordinate)
  {
  }

  /** A square hit once can never be hit again: a second attack on the same
      coordinate reports no hit and leaves the board as it was. */
  lemma AttackTwiceNoSecondHit(g: Grid, x: int, y: int)
    requires Valid(g) && IsValidCoordinate(g, x, y)
    ensures AttackShip(g, x, y).Ok?
    ensures var g1 := AttackShip(g, x, y).value.0;
            AttackShip(g1, x, y) == Ok((g1, false))
  {
    var g1 := AttackShip(g, x, y).value.0;
    Cells.SecondAttackHasNoEffect(At(g, x, y));
    assert g1.cells[x][y] == At(g1, x, y);
    assert g1.cells[x] == g1.cells[x][y := At(g1, x, y)];
    assert g1.cells == g1.cells[x := g1.cells[x]];
  }

  /** The count `getShip` reports follows the board: a placement adds one
      ship at its square, and a scoring attack empties its square and moves
      the count it had into `getLastShips`. */
  lemma CountFollowsBoard(g: Grid, x: int, y: int, owner: int)
    requires Valid(g) && IsValidCoordinate(g, x, y)
    ensures GetShip(PlaceShip(g, x, y, owner).value, x, y) == Ok(GetShip(g, x, y).value + 1)
    ensures AttackShip(g, x, y).value.1 ==>
              GetShip(AttackShip(g, x, y).value.0, x, y) == Ok(0)
              && GetLastShips(AttackShip(g, x, y).value.0, x, y) == GetShip(g, x, y)
  {
    var p := PlaceShip(g, x, y, owner).value;
    assert At(p, x, y) == Cells.PlaceShip(At(g, x, y), owner);
    var a := AttackShip(g, x, y).value.0;
    assert At(a, x, y) == Cells.AttackShip(At(g, x, y)).0;
  }

  /** Placing ships never changes the attack status of any square. */
  lemma PlaceKeepsStatus(g: Grid, x: int, y: int, owner: int, i: int, j: int)
    requires Valid(g) && IsValidCoordinate(g, i, j)
    ensures PlaceShip(g, x, y, owner).Ok? ==>
      At(PlaceShip(g, x, y, owner).value, i, j).status == At(g, i, j).status
  {
  }
}

=== FILE: members.dfy ===
/** The members of a room: `clientsInRoom`, a map from client id to the
    connection, kept here as a sequence of user records keyed by their id. The
    sequence order stands for the map's iteration order. */
module Members {
  import opened Results
  import opened Users

  type Members = seq<User>

  /** Each id is a key of the map, so it occurs at most once. */
  predicate UniqueIds(ms: Members) {
    forall i, j :: 0 <= i < j < |ms| ==> ms[i].clientId != ms[j].clientId
  }

  /** `clientsInRoom.containsKey(id)`. */
  predicate IsMember(ms: Members, id: int) {
    exists u :: u in ms && u.clientId == id
  }

  /** Position of the member with this id. */
  function IndexOf(ms: Members, id: int): (r: Option<nat>)
    ensures r.None? <==> !IsMember(ms, id)
    ensures r.Some? ==> r.value < |ms| && ms[r.value].clientId == id
    ensures r.Some? ==> forall j :: 0 <= j < r.value ==> ms[j].clientId != id
  {
    if |ms| == 0 then None
    else if ms[0].clientId == id then Some(0)
    else
      match IndexOf(ms[1..], id)
      case None =>
        assert forall i :: 0 < i < |ms| ==> ms[i] == ms[1..][i - 1];
        None
      case Some(k) =>
        assert forall j :: 0 < j <= k ==> ms[j] == ms[1..][j - 1];
        Some(k + 1)
  }

  /** `clientsInRoom.get(id)` for a member. */
  function Get(ms: Members, id: int): (u: User)
    requires IsMember(ms, id)
    ensures u in ms && u.clientId == id
  {
    ms[IndexOf(ms, id).value]
  }

  /** The members with `u` in place of the record that has its id (the
      connection objects are shared, so a change to one user shows in the map). */
  function Replace(ms: Members, u: User): (r: Members)
    ensures |r| == |ms|
    ensures forall i :: 0 <= i < |ms| ==> r[i] == (if ms[i].clientId == u.clientId then u else ms[i])
    ensures Ids(r) == Ids(ms)
  {
    seq(|ms|, i requires 0 <= i < |ms| => if ms[i].clientId == u.clientId then u else ms[i])
  }

  /** `clientsInRoom.remove(id)`: every other member stays, in order. */
  function Remove(ms: Members, id: int): (r: Members)
    ensures forall u :: u in r <==> u in ms && u.clientId != id
    ensures !IsMember(r, id)
    ensures |r| <= |ms|
    ensures IsMember(ms, id) ==> |r| < |ms|
    ensures !IsMember(ms, id) ==> r == ms
  {
    if |ms| == 0 then []
    else
      var rest := Remove(ms[1..], id);
      assert ms == [ms[0]] + ms[1..];
      if ms[0].clientId == id then rest else [ms[0]] + rest
  }

  /** The ids in the room, as a set (the map's key set). */
  function Keys(ms: Members): (r: set<int>)
    ensures forall k :: k in r <==> IsMember(ms, k)
    ensures forall k :: k in r <==> k in Ids(ms)
  {
    set u | u in ms :: u.clientId
  }

  /** Removing an id takes exactly that key out of the key set. */
  lemma KeysRemove(ms: Members, id: int)
    ensures Keys(Remove(ms, id)) == Keys(ms) - {id}
  {
  }

  /** Adding a record adds its id to the key set; when the id was new, the
      ids stay distinct. */
  lemma KeysAppend(ms: Members, u: User)
    ensures Keys(ms + [u]) == Keys(ms) + {u.clientId}
    ensures UniqueIds(ms) && u.clientId !in Keys(ms) ==> UniqueIds(ms + [u])
  {
    var r := ms + [u];
    assert forall v :: v in r <==> v in ms || v == u;
    if UniqueIds(ms) && u.clientId !in Keys(ms) {
      forall i, j | 0 <= i < j < |r| ensures r[i].clientId != r[j].clientId {
        if j == |ms| {
          assert r[i] == ms[i] && ms[i] in ms;
        } else {
          assert r[i] == ms[i] && r[j] == ms[j];
        }
      }
    }
  }

  /** The members after the first have distinct ids, none of them the
      first's. */
  lemma TailUnique(ms: Members)
    requires UniqueIds(ms) && |ms| > 0
    ensures UniqueIds(ms[1..]) && !IsMember(ms[1..], ms[0].clientId)
  {
    var t := ms[1..];
    forall i, j | 0 <= i < j < |t| ensures t[i].clientId != t[j].clientId {
      assert t[i] == ms[i + 1] && t[j] == ms[j + 1];
    }
    forall u | u in t ensures u.clientId != ms[0].clientId {
      var k :| 0 <= k < |t| && t[k] == u;
      assert ms[k + 1] == u;
    }
  }

  /** A record put in front of members with distinct ids other than its own
      keeps the ids distinct. */
  lemma ConsUnique(u: User, rest: Members)
    requires UniqueIds(rest) && !IsMember(rest, u.clientId)
    ensures UniqueIds([u] + rest)
  {
    var r := [u] + rest;
    forall i, j | 0 <= i < j < |r| ensures r[i].clientId != r[j].clientId {
      if i == 0 {
        assert r[j] == rest[j - 1];
        assert rest[j - 1] in rest;
      } else {
        assert r[i] == rest[i - 1] && r[j] == rest[j - 1];
      }
    }
  }

  /** Removing a member keeps the ids distinct and shrinks the room by one. */
  lemma {:induction false} RemoveUnique(ms: Members, id: int)
    ensures UniqueIds(ms) ==> UniqueIds(Remove(ms, id))
    ensures UniqueIds(ms) && IsMember(ms, id) ==> |Remove(ms, id)| == |ms| - 1
  {
    if UniqueIds(ms) && |ms| > 0 {
      var t := ms[1..];
      assert ms == [ms[0]] + t;
      TailUnique(ms);
      RemoveUnique(t, id);
      var rest := Remove(t, id);
      if ms[0].clientId == id {
        assert Remove(ms, id) == rest;
      } else {
        assert Remove(ms, id) == [ms[0]] + rest;
        ConsUnique(ms[0], rest);
        if IsMember(ms, id) {
          var u :| u in ms && u.clientId == id;
          assert u in t;
        }
      }
    }
  }

  /** The ids of the members, in order. */
  function Ids(ms: Members): (r: seq<int>)
    ensures |r| == |ms|
    ensures forall i :: 0 <= i < |ms| ==> r[i] == ms[i].clientId
  {
    seq(|ms|, i requires 0 <= i < |ms| => ms[i].clientId)
  }

  /** Member `id` is present and ready. */
  predicate IsReadyMember(ms: Members, id: int) {
    exists u :: u in ms && u.isReady && u.clientId == id
  }

  /** Ids of the ready members in member order (the `isReady` filter). */
  function ReadyIds(ms: Members): (r: seq<int>)
    ensures |r| <= |ms|
    ensures forall id :: id in r <==> IsReadyMember(ms, id)
  {
    if |ms| == 0 then []
    else
      var rest := ReadyIds(ms[1..]);
      assert ms == [ms[0]] + ms[1..];
      if ms[0].isReady then [ms[0].clientId] + rest else rest
  }

  /** Number of ready members (`filter(isReady).count()`). */
  function CountReady(ms: Members): (n: nat)
    ensures n <= |ms|
    ensures n == |ReadyIds(ms)|
  {
    if |ms| == 0 then 0 else (if ms[0].isReady then 1 else 0) + CountReady(ms[1..])
  }

  /** Number of members that are both ready and took their turn. */
  function CountReadyTookTurn(ms: Members): (n: nat)
    ensures n <= CountReady(ms)
  {
    if |ms| == 0 then 0
    else (if ms[0].isReady && ms[0].tookTurn then 1 else 0) + CountReadyTookTurn(ms[1..])
  }

  /** Every ready member has taken its turn exactly when the two counts of
      `checkAllTookTurn` agree. */
  lemma {:induction false} AllTookTurnCounts(ms: Members)
    ensures CountReadyTookTurn(ms) == CountReady(ms) <==>
            forall i :: 0 <= i < |ms| && ms[i].isReady ==> ms[i].tookTurn
  {
    if |ms| > 0 {
      AllTookTurnCounts(ms[1..]);
      assert forall i :: 0 < i < |ms| ==> ms[i] == ms[1..][i - 1];
      if forall i :: 0 <= i < |ms| && ms[i].isReady ==> ms[i].tookTurn {
        forall i | 0 <= i < |ms[1..]| && ms[1..][i].isReady ensures ms[1..][i].tookTurn {
          assert ms[1..][i] == ms[i + 1];
        }
      }
    }
  }

  /** `setReady(ready)` on every member (`resetReadyStatus` uses false). */
  function SetAllReady(ms: Members, ready: bool): (r: Members)
    ensures |r| == |ms|
    ensures forall i :: 0 <= i < |ms| ==> r[i] == SetReady(ms[i], ready)
    ensures Ids(r) == Ids(ms)
  {
    seq(|ms|, i requires 0 <= i < |ms| => SetReady(ms[i], ready))
  }

  /** `setTookTurn(took)` on every member (`resetTurnStatus` uses false). */
  function SetAllTookTurn(ms: Members, took: bool): (r: Members)
    ensures |r| == |ms|
    ensures forall i :: 0 <= i < |ms| ==> r[i] == SetTookTurn(ms[i], took)
    ensures Ids(r) == Ids(ms)
  {
    seq(|ms|, i requires 0 <= i < |ms| => SetTookTurn(ms[i], took))
  }

  /** Nobody ready means nobody counted. */
  lemma {:induction false} NoneReady(ms: Members)
    requires forall i :: 0 <= i < |ms| ==> !ms[i].isReady
    ensures CountReady(ms) == 0 && ReadyIds(ms) == []
  {
    if |ms| > 0 {
      assert forall i :: 0 <= i < |ms[1..]| ==> ms[1..][i] == ms[i + 1];
      NoneReady(ms[1..]);
    }
  }

  /** With distinct ids, looking a member's id up finds that very member. */
  lemma GetAt(ms: Members, i: int)
    requires UniqueIds(ms) && 0 <= i < |ms|
    ensures IsMember(ms, ms[i].clientId) && Get(ms, ms[i].clientId) == ms[i]
  {
    assert ms[i] in ms;
    var j := IndexOf(ms, ms[i].clientId).value;
    assert !(j < i) && !(i < j);
  }

  /** Two member lists with the same ids, in the same order, agree on
      membership and on distinctness. */
  lemma SameIds(a: Members, b: Members)
    requires Ids(a) == Ids(b)
    ensures UniqueIds(a) <==> UniqueIds(b)
    ensures forall k :: IsMember(a, k) <==> IsMember(b, k)
    ensures Keys(a) == Keys(b) && |a| == |b|
  {
    assert |a| == |Ids(a)| == |Ids(b)| == |b|;
    assert forall i :: 0 <= i < |a| ==> a[i].clientId == Ids(a)[i] == b[i].clientId;
    forall k ensures IsMember(a, k) <==> IsMember(b, k) {
      if IsMember(a, k) {
        var v :| v in a && v.clientId == k;
        var i :| 0 <= i < |a| && a[i] == v;
        assert b[i] in b;
      }
      if IsMember(b, k) {
        var v :| v in b && v.clientId == k;
        var i :| 0 <= i < |b| && b[i] == v;
        assert a[i] in a;
      }
    }
  }

  /** With distinct member ids, the ready ids are distinct too. */
  lemma {:induction false} ReadyIdsDistinct(ms: Members)
    requires UniqueIds(ms)
    ensures forall i, j :: 0 <= i < j < |ReadyIds(ms)| ==> ReadyIds(ms)[i] != ReadyIds(ms)[j]
  {
    if |ms| > 0 {
      var t := ms[1..];
      assert UniqueIds(t) by {
        forall i, j | 0 <= i < j < |t| ensures t[i].clientId != t[j].clientId {
          assert t[i] == ms[i + 1] && t[j] == ms[j + 1];
        }
      }
      ReadyIdsDistinct(t);
      var rest := ReadyIds(t);
      if ms[0].isReady {
        assert ms[0].clientId !in rest by {
          forall u | u in t ensures u.clientId != ms[0].clientId {
            var k :| 0 <= k < |t| && t[k] == u;
            assert ms[k + 1] == u;
          }
        }
        var r := [ms[0].clientId] + rest;
        assert ReadyIds(ms) == r;
        forall i, j | 0 <= i < j < |r| ensures r[i] != r[j] {
          assert r[j] == rest[j - 1];
          if i > 0 {
            assert r[i] == rest[i - 1];
          }
        }
      }
    }
  }

  /** Replacing a record keeps the set of ids and their distinctness, and the
      replaced member reads back as the new record. */
  lemma ReplaceFacts(ms: Members, u: User)
    requires UniqueIds(ms)
    ensures UniqueIds(Replace(ms, u))
    ensures forall k :: IsMember(Replace(ms, u), k) <==> IsMember(ms, k)
    ensures IsMember(ms, u.clientId) ==> Get(Replace(ms, u), u.clientId) == u
  {
    var r := Replace(ms, u);
    assert forall i :: 0 <= i < |ms| ==> r[i].clientId == ms[i].clientId;
    forall k ensures IsMember(r, k) <==> IsMember(ms, k) {
      if IsMember(ms, k) {
        var v :| v in ms && v.clientId == k;
        var i :| 0 <= i < |ms| && ms[i] == v;
        assert r[i].clientId == k;
      }
      if IsMember(r, k) {
        var v :| v in r && v.clientId == k;
        var i :| 0 <= i < |r| && r[i] == v;
        assert ms[i].clientId == k;
      }
    }
  }
}

=== FILE: protocol.dfy ===
/** What the server thread puts on the wire and how it dispatches what it
    reads (Project/Common/PayloadType.java, Project/Common/Payload.java and
    its subclasses, Project/Server/ServerThread.java). */
module Protocol {
  import opened Results
  import Text

  datatype PayloadType =
    | ClientConnect | ClientId | SyncClient | Disconnect
    | RoomCreate | RoomJoin | RoomLeave | Reverse | Message | RoomList
    | Ready | SyncReady | ResetReady | Phase | Turn | SyncTurn | ResetTurn

  /** Whether a client-info update announces a join or a leave. */
  datatype RoomAction = Join | Leave

  /** `Payload` (type, sender id, message), `ConnectionPayload` (adds the
      client name) and `RoomResultPayload` (adds the room names). A type that
      was never set is `null`; the id defaults to 0. */
  datatype Payload =
    | Plain(ptype: Option<PayloadType>, clientId: int, message: Option<string>)
    | Connection(ptype: Option<PayloadType>, clientId: int, message: Option<string>, clientName: Option<string>)
    | RoomResult(ptype: Option<PayloadType>, clientId: int, message: Option<string>, rooms: seq<string>)

  // ---------------------------------------------------------------------------
  // Outbound payloads
  // ---------------------------------------------------------------------------

  /** The tag of a client-info update: ROOM_JOIN or ROOM_LEAVE by the action,
      overridden by SYNC_CLIENT for a silent sync. */
  function ClientInfoType(action: RoomAction, isSync: bool): (t: PayloadType)
    ensures isSync <==> t == SyncClient
    ensures !isSync ==> (t == RoomJoin <==> action == Join)
    ensures t in {SyncClient, RoomJoin, RoomLeave}
  {
    if isSync then SyncClient
    else match action
      case Join => RoomJoin
      case Leave => RoomLeave
  }

  /** `sendClientInfo(clientId, clientName, action, isSync)`. */
  function ClientInfo(clientId: int, clientName: Option<string>, action: RoomAction, isSync: bool): (p: Payload)
    ensures p.Connection? && p.ptype == Some(ClientInfoType(action, isSync))
    ensures p.clientId == clientId && p.clientName == clientName && p.message == None
  {
    Connection(Some(ClientInfoType(action, isSync)), clientId, None, clientName)
  }

  /** `sendResetUserList()`: a join update for the placeholder id -1 with no
      name, which tells the client to clear its user list. */
  function ResetUserList(): (p: Payload)
    ensures p == ClientInfo(-1, None, Join, false)
    ensures p.ptype == Some(RoomJoin) && p.clientId == -1 && p.clientName == None
  {
    ClientInfo(-1, None, Join, false)
  }

  /** `sendClientId()`: the connection's own id and name. */
  function ClientIdPayload(clientId: int, clientName: Option<string>): (p: Payload)
    ensures p.Connection? && p.ptype == Some(ClientId)
    ensures p.clientId == clientId && p.clientName == clientName
  {
    Connection(Some(ClientId), clientId, None, clientName)
  }

  /** `sendMessage(clientId, message)`: a chat line from `from`. */
  function MessagePayload(from: int, text: string): (p: Payload)
    ensures p.Plain? && p.ptype == Some(Message) && p.clientId == from && p.message == Some(text)
  {
    Plain(Some(Message), from, Some(text))
  }

  /** `sendRooms(rooms)`: a ROOM_LIST result; the id keeps its default 0. */
  function RoomsPayload(rooms: seq<string>): (p: Payload)
    ensures p.RoomResult? && p.ptype == Some(RoomList) && p.rooms == rooms && p.clientId == 0
  {
    RoomResult(Some(RoomList), 0, None, rooms)
  }

  /** The sync flag alone decides whether an update is silent, whatever the
      action; without it the two actions are told apart. */
  lemma ClientInfoTags(id: int, name: Option<string>)
    ensures ClientInfo(id, name, Join, true).ptype == ClientInfo(id, name, Leave, true).ptype == Some(SyncClient)
    ensures ClientInfo(id, name, Join, false).ptype != ClientInfo(id, name, Leave, false).ptype
  {
  }

  // ---------------------------------------------------------------------------
  // Inbound dispatch
  // ---------------------------------------------------------------------------

  /** What `processPayload` does with one payload read from the client. */
  datatype Action =
    | SetName(name: string)
    | HandleDisconnect
    | HandleMessage(message: Option<string>)
    | HandleReverse(text: string)
    | HandleCreateRoom(name: string)
    | HandleJoinRoom(name: string)
    | HandleListRooms(query: string)
    | Skip      // an unknown type (only logged), or a cast that fails and is caught by the read loop
    | Crash     // a null dereference that ends the read loop and the connection

  /** The room name that ROOM_LEAVE joins. */
  const Lobby: string := "lobby"

  /** The types dispatched to the current room. */
  predicate ToRoom(t: PayloadType) {
    t in {Disconnect, Message, Reverse, RoomCreate, RoomJoin, RoomLeave, RoomList}
  }

  /** `processPayload(incoming)`: `inRoom` says whether the connection has a
      current room. Each dereference that the source makes without a check
      becomes a crash when its target is null: the type itself, the name of a
      CLIENT_CONNECT, the current room, and the message of the types that
      use it as text (a null chat message is formatted, not dereferenced). */
  function Dispatch(p: Payload, inRoom: bool): (a: Action)
    ensures p.ptype.None? ==> a == Crash
    ensures p.ptype.Some? && !ToRoom(p.ptype.value) && p.ptype.value != ClientConnect ==> a == Skip
    ensures p.ptype.Some? && ToRoom(p.ptype.value) && !inRoom ==> a == Crash
    ensures p.ptype == Some(ClientConnect) ==>
              a == (if !p.Connection? then Skip
                    else if p.clientName.None? then Crash
                    else SetName(Text.Trim(p.clientName.value)))
    ensures a.SetName? ==> a.name == Text.Trim(a.name)
    ensures inRoom && p.ptype == Some(RoomLeave) ==> a == HandleJoinRoom(Lobby)
    ensures inRoom && p.ptype == Some(Message) ==> a == HandleMessage(p.message)
    ensures inRoom && p.ptype == Some(Disconnect) ==> a == HandleDisconnect
    ensures a.HandleReverse? || a.HandleCreateRoom? || a.HandleListRooms? ==> p.message.Some?
    ensures a.HandleJoinRoom? && p.ptype != Some(RoomLeave) ==> p.message == Some(a.name)
  {
    if p.ptype.None? then Crash
    else
      var t := p.ptype.value;
      if t == ClientConnect then
        if !p.Connection? then Skip
        else if p.clientName.None? then Crash
        else (Text.TrimIdempotent(p.clientName.value); SetName(Text.Trim(p.clientName.value)))
      else if !ToRoom(t) then Skip
      else if !inRoom then Crash
      else if t == Disconnect then HandleDisconnect
      else if t == Message then HandleMessage(p.message)
      else if t == RoomLeave then HandleJoinRoom(Lobby)
      else if p.message.None? then Crash
      else
        var m := p.message.value;
        match t
        case Reverse => HandleReverse(m)
        case RoomCreate => HandleCreateRoom(m)
        case RoomJoin => HandleJoinRoom(m)
        case _ => HandleListRooms(m)
  }

  /** None of the game requests (READY and the rest) reaches a room through
      this dispatch: each is skipped like an unknown type. */
  lemma GameRequestsSkipped(p: Payload, inRoom: bool)
    requires p.ptype.Some? && p.ptype.value in {Ready, SyncReady, ResetReady, Phase, Turn, SyncTurn, ResetTurn}
    ensures Dispatch(p, inRoom) == Skip
  {
  }

  /** Sending a name with blanks around it registers the same name as
      sending it trimmed. */
  lemma ConnectTrims(id: int, name: string)
    ensures Dispatch(Connection(Some(ClientConnect), id, None, Some(name)), false)
         == Dispatch(Connection(Some(ClientConnect), id, None, Some(Text.Trim(name))), false)
  {
    Text.TrimIdempotent(name);
  }
}

=== FILE: registry.dfy ===
/** The room registry and id allocator of the server
    (Project/Server/Server.java), the room handlers that call into it
    (Project/Server/Room.java) and the request loop of one connection
    (Project/Server/ServerThread.java, Project/Server/BaseServerThread.java).

    Only the acting connection is tracked beyond its room entries: its user
    record and the key of its current room. Every other connection exists
    here only as a member of a room. */
module Registry {
  import opened Results
  import opened Users
  import opened Members
  import Text
  import opened Protocol
  import opened Rooms
  import GameRooms

  /** The largest value of a Java `long`. */
  const MaxLong: int := 0x7FFF_FFFF_FFFF_FFFF

  /** `rooms`, keyed by the lower-cased room name, and `nextClientId`, the
      last id handed out. */
  datatype Server = Server(rooms: map<string, Room>, nextClientId: int)

  /** The exceptions an operation can end with: the two checked ones of the
      registry, the null room of a move into a room that closed on the way,
      any other null dereference of the request loop, and an unchecked
      exception from game code. */
  datatype Fault = DuplicateRoom(name: string) | RoomNotFound(name: string) | NullRoom | NullDeref | Halted

  /** A connection as the server sees it: its user record and the key of its
      current room (`null` before its first join and after its cleanup). */
  datatype Conn = Conn(user: User, room: Option<string>)

  /** What an operation leaves behind: the registry, the acting connection,
      the payloads written in order, and the exception it ended with. */
  datatype Outcome = Outcome(server: Server, conn: Conn, sent: seq<Delivery>, fault: Option<Fault>)

  /** What holds of the registry between operations: each key is the folded
      name of its room; only running rooms are registered; the lobby is; the
      lobby is the one plain room; members have distinct ids; every game
      keeps its invariant; the id counter is a `long` that has started. */
  predicate Valid(sv: Server) {
    && Lobby in sv.rooms
    && 0 <= sv.nextClientId <= MaxLong
    && forall k :: k in sv.rooms ==> RoomValid(k, sv.rooms[k])
  }

  predicate RoomValid(k: string, room: Room) {
    && Text.Lower(room.name) == k
    && room.isRunning
    && (room.game.Some? <==> !IsLobby(room.name))
    && (room.game.Some? ==> GameRooms.GameInv(room.game.value))
    && UniqueIds(room.members)
  }

  // ---------------------------------------------------------------------------
  // Client ids
  // ---------------------------------------------------------------------------

  /** `nextClientId = Math.max(++nextClientId, 1)` on a `long`: the increment
      wraps around at the top of the range, and the maximum with 1 turns the
      wrapped value back into 1. */
  function NextClientId(n: int): (r: int)
    requires -MaxLong - 1 <= n <= MaxLong
    ensures 1 <= r <= MaxLong
    ensures 0 <= n < MaxLong ==> r == n + 1 && r > n
    ensures n < 0 || n == MaxLong ==> r == 1
  {
    var inc := if n == MaxLong then -MaxLong - 1 else n + 1;
    if inc > 1 then inc else 1
  }

  /** The counter after `count` allocations from `n`. */
  function AllocateMany(n: int, count: nat): (r: int)
    requires 0 <= n <= MaxLong
    ensures 0 <= r <= MaxLong
  {
    if count == 0 then n else NextClientId(AllocateMany(n, count - 1))
  }

  /** From the initial counter 0, the `count`-th id handed out is `count`
      itself for as long as the `long` range lasts: the first id is 1 and
      each later one is the previous plus one. */
  lemma {:induction false} IdsCountUp(count: nat)
    requires count <= MaxLong
    ensures AllocateMany(0, count) == count
  {
    if count > 0 {
      IdsCountUp(count - 1);
    }
  }

  /** Ids handed out from the initial counter strictly increase while the
      range lasts. */
  lemma IdsIncrease(i: nat, j: nat)
    requires i < j <= MaxLong
    ensures AllocateMany(0, i) < AllocateMany(0, j)
  {
    IdsCountUp(i);
    IdsCountUp(j);
  }

  // ---------------------------------------------------------------------------
  // The registry
  // ---------------------------------------------------------------------------

  /** `start` creates the lobby before it accepts anyone; the counter starts
      at 0. */
  function Start(): (sv: Server)
    ensures Valid(sv) && sv.rooms.Keys == {Lobby} && sv.nextClientId == 0
    ensures sv.rooms[Lobby].game.None? && sv.rooms[Lobby].members == []
  {
    assert Text.Lower(Lobby) == Lobby;
    Server(map[Lobby := NewRoom(Lobby)], 0)
  }

  /** `createRoom(name)`: a name already present ignoring case is a duplicate
      and changes nothing; otherwise a new room keeps the name as given under
      the folded key, a plain room for the lobby and a game room for any other
      name. */
  function CreateRoom(sv: Server, name: string): (r: Result<Server, Fault>)
    ensures Text.Lower(name) in sv.rooms <==> r == Err(DuplicateRoom(name))
    ensures r.Ok? ==> Text.Lower(name) in r.value.rooms &&
                      r.value.rooms == sv.rooms[Text.Lower(name) := r.value.rooms[Text.Lower(name)]]
    ensures r.Ok? ==> r.value.nextClientId == sv.nextClientId
    ensures r.Ok? ==> var room := r.value.rooms[Text.Lower(name)];
                      room.name == name && room.isRunning && room.members == [] && (room.game.None? <==> IsLobby(name))
    ensures r.Ok? && Valid(sv) ==> Valid(r.value)
  {
    var key := Text.Lower(name);
    if key in sv.rooms then Err(DuplicateRoom(name))
    else
      Text.LowerIdempotent(name);
      Ok(sv.(rooms := sv.rooms[key := NewRoom(name)]))
  }

  /** `removeRoom(room)`: the room's folded name leaves the registry. */
  function RemoveRoom(sv: Server, room: Room): (r: Server)
    ensures r.rooms.Keys == sv.rooms.Keys - {Text.Lower(room.name)}
    ensures forall k :: k in r.rooms ==> r.rooms[k] == sv.rooms[k]
    ensures r.nextClientId == sv.nextClientId
  {
    sv.(rooms := sv.rooms - {Text.Lower(room.name)})
  }

  /** Creating a room and removing it again gives the registry back. */
  lemma CreateThenRemove(sv: Server, name: string)
    requires CreateRoom(sv, name).Ok?
    ensures var sv1 := CreateRoom(sv, name).value;
            RemoveRoom(sv1, sv1.rooms[Text.Lower(name)]) == sv
  {
    var sv1 := CreateRoom(sv, name).value;
    Text.LowerIdempotent(name);
    assert RemoveRoom(sv1, sv1.rooms[Text.Lower(name)]).rooms == sv.rooms;
  }

  /** A room after an operation on it: still registered while it runs; a room
      that closed has called `removeRoom` on itself. */
  function Store(sv: Server, k: string, room: Room): (r: Server)
    requires Text.Lower(room.name) == k
    ensures room.isRunning ==> r.rooms == sv.rooms[k := room]
    ensures !room.isRunning ==> r == RemoveRoom(sv, room)
    ensures r.nextClientId == sv.nextClientId
    ensures k in r.rooms <==> room.isRunning
    ensures forall j :: j in r.rooms && j != k ==> j in sv.rooms && r.rooms[j] == sv.rooms[j]
    ensures forall j :: j in sv.rooms && j != k ==> j in r.rooms
  {
    if room.isRunning then sv.(rooms := sv.rooms[k := room]) else RemoveRoom(sv, room)
  }

  /** What every room operation keeps of a room, whether or not it adds a
      member: the name and kind; a room never reopens; the lobby never
      closes; ids stay distinct; the game keeps its invariant. */
  predicate Evolves(a: Room, b: Room) {
    && b.name == a.name && b.game.Some? == a.game.Some?
    && (b.isRunning ==> a.isRunning)
    && (IsLobby(a.name) && a.isRunning ==> b.isRunning)
    && (UniqueIds(a.members) ==> UniqueIds(b.members))
    && (a.game.Some? && GameRooms.GameInv(a.game.value) ==> GameRooms.GameInv(b.game.value))
  }

  lemma FollowsEvolves(s: Step, r: Step, fails: Fails)
    requires Follows(s, r, fails)
    ensures Evolves(s.room, r.room)
  {
  }

  lemma AddClientEvolves(s: Step, u: User, fails: Fails)
    requires !s.halted && (fails(u.clientId) ==> u == Reset(u))
    ensures Evolves(s.room, AddClient(s, u, fails).room)
  {
  }

  /** A room that evolved from a registered one is registered validly again,
      or has closed and left; the lobby never leaves. */
  lemma StoreValid(sv: Server, k: string, room: Room)
    requires Valid(sv) && k in sv.rooms && Evolves(sv.rooms[k], room)
    ensures Valid(Store(sv, k, room))
    ensures k != Lobby ==> Lobby in Store(sv, k, room).rooms && Store(sv, k, room).rooms[Lobby] == sv.rooms[Lobby]
  {
    if k == Lobby {
      Text.LowerIdempotent(Lobby);
      assert IsLobby(room.name);
    }
  }

  // ---------------------------------------------------------------------------
  // Listing rooms
  // ---------------------------------------------------------------------------

  /** The names among `names` whose folded form contains `q`, in order. */
  function Matching(names: seq<string>, q: string): (r: seq<string>)
    ensures |r| <= |names|
    ensures forall x :: x in r <==> x in names && Text.Contains(Text.Lower(x), q)
  {
    if |names| == 0 then []
    else
      var rest := Matching(names[1..], q);
      assert names == [names[0]] + names[1..];
      if Text.Contains(Text.Lower(names[0]), q) then [names[0]] + rest else rest
  }

  /** `order` lists every key once: the iteration order of the map's values,
      which the map does not fix. */
  predicate Enumerates(order: seq<string>, sv: Server) {
    && (forall k :: k in order ==> k in sv.rooms)
    && (forall k :: k in sv.rooms ==> k in order)
    && (forall i, j :: 0 <= i < j < |order| ==> order[i] != order[j])
  }

  function Names(sv: Server, order: seq<string>): (r: seq<string>)
    requires forall k :: k in order ==> k in sv.rooms
    ensures |r| == |order|
    ensures forall x :: x in r <==> exists k :: k in order && sv.rooms[k].name == x
  {
    var r := seq(|order|, i requires 0 <= i < |order| => sv.rooms[order[i]].name);
    assert forall k :: k in order ==> sv.rooms[k].name in r by {
      forall k | k in order ensures sv.rooms[k].name in r {
        var i :| 0 <= i < |order| && order[i] == k;
        assert r[i] == sv.rooms[k].name;
      }
    }
    r
  }

  /** `listRooms(query)`: the names of the rooms whose folded name contains the
      folded query, at most ten, in ascending order. The cap of ten applies
      to the iteration order, before the sort. */
  function ListRooms(sv: Server, query: string, order: seq<string>): (r: seq<string>)
    requires Enumerates(order, sv)
    ensures |r| <= 10
    ensures Text.SortedStrings(r)
    ensures forall x :: x in r ==>
              Text.Contains(Text.Lower(x), Text.Lower(query)) && exists k :: k in sv.rooms && sv.rooms[k].name == x
    ensures |sv.rooms| <= 10 ==>
              forall k :: k in sv.rooms && Text.Contains(Text.Lower(sv.rooms[k].name), Text.Lower(query)) ==>
                sv.rooms[k].name in r
  {
    var m := Matching(Names(sv, order), Text.Lower(query));
    var capped := if |m| <= 10 then m else m[..10];
    var r := Text.SortStrings(capped);
    assert forall x :: x in r <==> x in capped by {
      forall x ensures x in r <==> x in capped {
        assert x in r <==> x in multiset(r);
        assert x in capped <==> x in multiset(capped);
      }
    }
    assert |sv.rooms| <= 10 ==> capped == m by {
      if |sv.rooms| <= 10 {
        OrderSize(order, sv);
      }
    }
    r
  }

  /** An order that lists every key once is as long as the map is large. */
  lemma OrderSize(order: seq<string>, sv: Server)
    requires Enumerates(order, sv)
    ensures |order| == |sv.rooms|
  {
    DistinctCard(order, sv.rooms.Keys);
  }

  lemma {:induction false} DistinctCard(s: seq<string>, keys: set<string>)
    requires forall i, j :: 0 <= i < j < |s| ==> s[i] != s[j]
    requires forall k :: k in s <==> k in keys
    ensures |s| == |keys|
  {
    if |s| > 0 {
      assert s == [s[0]] + s[1..];
      assert forall k :: k in s[1..] <==> k in keys - {s[0]} by {
        forall k ensures k in s[1..] <==> k in keys - {s[0]} {
          if k in s[1..] {
            var i :| 0 <= i < |s[1..]| && s[1..][i] == k;
            assert s[i + 1] == k;
          }
        }
      }
      DistinctCard(s[1..], keys - {s[0]});
    } else {
      assert forall k :: k !in keys;
      assert keys == {};
    }
  }

  // ---------------------------------------------------------------------------
  // Moving between rooms
  // ---------------------------------------------------------------------------

  /** The delivery oracle the registry hands to its rooms. Ids handed out
      start at 1, so only a connection whose cleanup ran reads as id -1, and
      cleanup closed its stream: every write to -1 throws. */
  function Closed(fails: Fails): (f: Fails)
    ensures forall x :: f(x) <==> x == DefaultClientId || fails(x)
  {
    x => x == DefaultClientId || fails(x)
  }

  /** The connection once a room operation ran: a connection whose send
      failed was cleaned up, which resets its record and forgets its room. */
  function After(c: Conn, s: Step): (r: Conn)
    ensures c.user.clientId in s.reset ==> r == Conn(Reset(c.user), None)
    ensures c.user.clientId !in s.reset ==> r == c
  {
    if c.user.clientId in s.reset then Conn(Reset(c.user), None) else c
  }

  function HaltFault(s: Step): (f: Option<Fault>)
    ensures f.Some? <==> s.halted
    ensures f.Some? ==> f.value == Halted
  {
    if s.halted then Some(Halted) else None
  }

  /** The `removeClient` from the current room that starts a move; a room that
      closed since is not running, so that does nothing. */
  function LeaveCurrent(sv: Server, c: Conn, fails: Fails): (o: Outcome)
    requires Valid(sv)
    ensures Valid(o.server) && o.server.nextClientId == sv.nextClientId
    ensures o.fault.Some? ==> o.fault == Some(Halted)
    ensures c.room.None? || c.room.value !in sv.rooms ==> o == Outcome(sv, c, [], None)
    ensures forall k :: k in o.server.rooms && Some(k) != c.room ==> k in sv.rooms && o.server.rooms[k] == sv.rooms[k]
    ensures forall k :: k in sv.rooms && Some(k) != c.room ==> k in o.server.rooms
    ensures o.conn == c || o.conn == Conn(Reset(c.user), None)
    ensures c.room.Some? && c.room.value in sv.rooms ==>
              var st := RemoveClient(Begin(sv.rooms[c.room.value]), c.user, Closed(fails));
              o.sent == st.sent && o.fault == HaltFault(st) && o.conn == After(c, st) &&
              (c.room.value in o.server.rooms <==> st.room.isRunning) &&
              (st.room.isRunning ==> o.server.rooms[c.room.value] == st.room)
  {
    match c.room
    case None => Outcome(sv, c, [], None)
    case Some(k) =>
      if k !in sv.rooms then Outcome(sv, c, [], None)
      else
        var s := Begin(sv.rooms[k]);
        var st := RemoveClient(s, c.user, Closed(fails));
        FollowsEvolves(s, st, Closed(fails));
        StoreValid(sv, k, st.room);
        Outcome(Store(sv, k, st.room), After(c, st), st.sent, HaltFault(st))
  }

  /** The `addClient` that ends a move. A record whose sends fail enters reset:
      the first write to it fails before it joins. That includes a connection
      whose cleanup already ran earlier in the request (it reads as -1, and
      its stream is closed). When the client was added, its current room
      becomes the target, unless its cleanup ran. */
  function Enter(o: Outcome, key: string, fails: Fails): (r: Outcome)
    requires Valid(o.server) && key in o.server.rooms
    ensures Valid(r.server) && r.server.nextClientId == o.server.nextClientId
    ensures r.fault.Some? ==> r.fault == Some(Halted)
    ensures forall k :: k in r.server.rooms && k != key ==> k in o.server.rooms && r.server.rooms[k] == o.server.rooms[k]
    ensures forall k :: k in o.server.rooms && k != key ==> k in r.server.rooms
    ensures o.sent <= r.sent
    ensures o.conn.user.clientId == DefaultClientId || fails(o.conn.user.clientId) ==>
              r.conn == Conn(Reset(o.conn.user), None)
  {
    var c := o.conn;
    var f := Closed(fails);
    var u := if f(c.user.clientId) then Reset(c.user) else c.user;
    ResetIdempotent(c.user);
    var s := Begin(o.server.rooms[key]);
    var added := u.clientId !in Keys(s.room.members);
    var st := AddClient(s, u, f);
    AddClientEvolves(s, u, f);
    StoreValid(o.server, key, st.room);
    var room :=
      if f(c.user.clientId) then None
      else if added then Some(key)
      else c.room;
    Outcome(Store(o.server, key, st.room), Conn(Live(st, u.clientId, u), room), o.sent + st.sent, HaltFault(st))
  }

  /** A client whose sends succeed and whose id the target does not hold
      becomes a member of the target, which becomes its current room. */
  lemma EnterJoins(o: Outcome, key: string, fails: Fails)
    requires Valid(o.server) && key in o.server.rooms
    requires !fails(o.conn.user.clientId) && o.conn.user.clientId != DefaultClientId
    requires o.conn.user.clientId !in Keys(o.server.rooms[key].members)
    ensures var r := Enter(o, key, fails);
            && r.conn == Conn(o.conn.user, Some(key))
            && (r.fault.None? ==> key in r.server.rooms && o.conn.user.clientId in Keys(r.server.rooms[key].members))
  {
    var s := Begin(o.server.rooms[key]);
    AddClientWelcomes(s, o.conn.user, Closed(fails));
    var st := AddClient(s, o.conn.user, Closed(fails));
    assert o.conn.user.clientId !in st.reset;
  }

  /** `joinRoom(name, client)`: an unknown name is `RoomNotFound` and changes
      nothing. Otherwise the client leaves its current room, then the target
      is looked up again: when the move emptied and so closed the target
      itself, the lookup finds nothing and the move ends on a null room.
      Otherwise the client enters the target. */
  function JoinRoom(sv: Server, name: string, c: Conn, fails: Fails): (o: Outcome)
    requires Valid(sv)
    ensures Valid(o.server) && o.server.nextClientId == sv.nextClientId
    ensures Text.Lower(name) !in sv.rooms <==> o == Outcome(sv, c, [], Some(RoomNotFound(name)))
    ensures o.fault.Some? ==> o.fault.value in {RoomNotFound(name), NullRoom, Halted}
    ensures o.fault == Some(RoomNotFound(name)) ==> Text.Lower(name) !in sv.rooms
    ensures Text.Lower(name) in o.server.rooms ==> o.server.rooms[Text.Lower(name)].name == sv.rooms[Text.Lower(name)].name
    ensures forall k :: k in o.server.rooms && Some(k) != c.room && k != Text.Lower(name) ==>
              k in sv.rooms && o.server.rooms[k] == sv.rooms[k]
  {
    var key := Text.Lower(name);
    if key !in sv.rooms then Outcome(sv, c, [], Some(RoomNotFound(name)))
    else
      var o1 := LeaveCurrent(sv, c, fails);
      if o1.fault.Some? then o1
      else if key !in o1.server.rooms then o1.(fault := Some(NullRoom))
      else Enter(o1, key, fails)
  }

  /** A client whose sends succeed, in a room it is a member of, moving to a
      different room that exists: it leaves its room, it is a member of the
      target, and the target is its current room. */
  lemma JoinMoves(sv: Server, name: string, c: Conn, fails: Fails)
    requires Valid(sv)
    requires c.room.Some? ==> c.room.value in sv.rooms && c.user.clientId in Keys(sv.rooms[c.room.value].members)
    requires Text.Lower(name) in sv.rooms && Some(Text.Lower(name)) != c.room
    requires c.user.clientId !in Keys(sv.rooms[Text.Lower(name)].members)
    requires !fails(c.user.clientId) && c.user.clientId != DefaultClientId
    ensures var o := JoinRoom(sv, name, c, fails);
            o.fault.None? ==>
              && o.conn == Conn(c.user, Some(Text.Lower(name)))
              && (c.room.Some? && c.room.value in o.server.rooms ==>
                    c.user.clientId !in Keys(o.server.rooms[c.room.value].members))
              && Text.Lower(name) in o.server.rooms
              && c.user.clientId in Keys(o.server.rooms[Text.Lower(name)].members)
  {
    var key := Text.Lower(name);
    var o1 := LeaveCurrent(sv, c, fails);
    LeaveCurrentLeaves(sv, c, fails);
    if o1.fault.None? {
      assert key in o1.server.rooms && o1.server.rooms[key] == sv.rooms[key];
      EnterJoins(o1, key, fails);
    }
  }

  /** A member whose sends succeed leaves its current room and keeps its
      record and its room reference. */
  lemma LeaveCurrentLeaves(sv: Server, c: Conn, fails: Fails)
    requires Valid(sv)
    requires c.room.Some? ==> c.room.value in sv.rooms && c.user.clientId in Keys(sv.rooms[c.room.value].members)
    requires !fails(c.user.clientId) && c.user.clientId != DefaultClientId
    ensures var o := LeaveCurrent(sv, c, fails);
            && o.conn == c
            && (o.fault.None? && c.room.Some? && c.room.value in o.server.rooms ==>
                  c.user.clientId !in Keys(o.server.rooms[c.room.value].members))
  {
    if c.room.Some? {
      var st := RemoveClient(Begin(sv.rooms[c.room.value]), c.user, Closed(fails));
      assert c.user.clientId !in st.reset;
    }
  }

  /** A member re-joining the room it is in, when it is the only member and the
      room is not the lobby: leaving empties and closes the room, so the second
      lookup finds nothing and the move ends on a null room. */
  lemma RejoinSoleRoomIsNull(sv: Server, c: Conn, fails: Fails)
    requires Valid(sv)
    requires c.room.Some? && c.room.value in sv.rooms && c.room.value != Lobby
    requires sv.rooms[c.room.value].members == [c.user]
    requires !fails(c.user.clientId) && c.user.clientId != DefaultClientId
    ensures var o := JoinRoom(sv, sv.rooms[c.room.value].name, c, fails);
            o.fault == Some(NullRoom) && c.room.value !in o.server.rooms
  {
    var k := c.room.value;
    assert Text.Lower(sv.rooms[k].name) == k;
    SoleLeaveRemoves(sv, c, fails);
  }

  lemma SoleLeaveRemoves(sv: Server, c: Conn, fails: Fails)
    requires Valid(sv)
    requires c.room.Some? && c.room.value in sv.rooms && c.room.value != Lobby
    requires sv.rooms[c.room.value].members == [c.user]
    requires !fails(c.user.clientId) && c.user.clientId != DefaultClientId
    ensures var o := LeaveCurrent(sv, c, fails);
            o.fault.None? && c.room.value !in o.server.rooms
  {
    var s := Begin(sv.rooms[c.room.value]);
    SoleLeaveCloses(s, c.user, Closed(fails));
  }

  /** The only member leaving a room other than the lobby, when its sends
      succeed, closes the room. */
  lemma SoleLeaveCloses(s: Step, u: User, fails: Fails)
    requires !s.halted && s.room.isRunning && s.room.members == [u] && !IsLobby(s.room.name)
    requires !fails(u.clientId) && u.clientId != DefaultClientId && s.reset == {}
    ensures var r := RemoveClient(s, u, fails);
            !r.halted && !r.room.isRunning && r.room.members == []
  {
    assert u.clientId in Keys(s.room.members);
    assert Get(s.room.members, u.clientId) == u;
    var s2 := JoinPass(s, u.clientId, u, false, Ids(s.room.members), fails);
    var p := Ids(s.room.members);
    assert p[0] == u.clientId && p[1..] == [];
    var j := JoinStep(s, u.clientId, u, false, u.clientId, fails);
    assert s2 == JoinPass(j, u.clientId, u, false, [], fails) == j;
    assert j.room == s.room && j.reset == {} && !j.halted;
    var l := RemoveLive(s2, u.clientId, u, fails);
    assert Remove(s.room.members, u.clientId) == [];
    assert !l.room.isRunning && l.room.members == [];
    assert LeaveAndRemove(s, u.clientId, fails) == l;
    var g := RemovedThen(s, l, u.clientId, u, fails);
    assert g.room.members == [];
  }

  // ---------------------------------------------------------------------------
  // Requests of one connection
  // ---------------------------------------------------------------------------

  /** One write to the acting connection; when it fails, the connection's
      cleanup resets its record and forgets its room (its entry stays in the
      room's map until a pass over that room evicts it). */
  function Tell(sv: Server, c: Conn, p: Payload, fails: Fails): (o: Outcome)
    ensures o.server == sv && o.fault.None?
    ensures !fails(c.user.clientId) ==> o.conn == c && o.sent == [Delivery(c.user.clientId, p)]
    ensures fails(c.user.clientId) ==> o.conn == Conn(Reset(c.user), None) && o.sent == []
  {
    if fails(c.user.clientId) then Outcome(sv, Conn(Reset(c.user), None), [], None)
    else Outcome(sv, c, [Delivery(c.user.clientId, p)], None)
  }

  /** `onServerThreadInitialized`, once the client sent its name: the next id
      is allocated and sent to the client, and the client joins the lobby. A
      missing lobby is only logged. */
  function Initialize(sv: Server, c: Conn, fails: Fails): (o: Outcome)
    requires Valid(sv)
    ensures Valid(o.server) && o.server.nextClientId == NextClientId(sv.nextClientId)
    ensures o.fault.Some? ==> o.fault.value in {NullRoom, Halted}
    ensures var n := NextClientId(sv.nextClientId);
            !fails(n) ==> |o.sent| > 0 && o.sent[0] == Delivery(n, ClientIdPayload(n, c.user.clientName))
    ensures fails(NextClientId(sv.nextClientId)) ==> o.conn == Conn(Reset(c.user), None)
  {
    var n := NextClientId(sv.nextClientId);
    var u := c.user.(clientId := n);
    var sv1 := sv.(nextClientId := n);
    var t := Tell(sv1, Conn(u, c.room), ClientIdPayload(n, u.clientName), fails);
    var o := JoinRoom(sv1, Lobby, t.conn, fails);
    Outcome(o.server, o.conn, t.sent + o.sent, if o.fault == Some(RoomNotFound(Lobby)) then None else o.fault)
  }

  /** A connection that is in no room yet and whose sends succeed ends its
      initialization in the lobby under the id just allocated, when that id
      is not already taken there. */
  lemma InitializeJoinsLobby(sv: Server, c: Conn, fails: Fails)
    requires Valid(sv) && c.room.None?
    requires var n := NextClientId(sv.nextClientId);
             !fails(n) && n !in Keys(sv.rooms[Lobby].members)
    ensures var o := Initialize(sv, c, fails);
            var n := NextClientId(sv.nextClientId);
            o.fault.None? ==> o.conn == Conn(c.user.(clientId := n), Some(Lobby)) && n in Keys(o.server.rooms[Lobby].members)
  {
    var n := NextClientId(sv.nextClientId);
    var u := c.user.(clientId := n);
    var sv1 := sv.(nextClientId := n);
    Text.LowerIdempotent(Lobby);
    assert Text.Lower(Lobby) == Lobby;
    var o1 := LeaveCurrent(sv1, Conn(u, None), fails);
    assert o1 == Outcome(sv1, Conn(u, None), [], None);
    EnterJoins(o1, Lobby, fails);
  }

  /** `handleCreateRoom(sender, name)`: a duplicate name is answered with
      "Room <name> already exists" from id -1; otherwise the room is created
      and the sender moves into it. */
  function HandleCreateRoom(sv: Server, c: Conn, name: string, fails: Fails): (o: Outcome)
    requires Valid(sv)
    ensures Valid(o.server) && o.server.nextClientId == sv.nextClientId
    ensures Text.Lower(name) in sv.rooms ==>
              o == Tell(sv, c, MessagePayload(DefaultClientId, "Room " + name + " already exists"), fails)
    ensures o.fault.Some? ==> o.fault.value in {NullRoom, Halted}
  {
    match CreateRoom(sv, name)
    case Err(_) => Tell(sv, c, MessagePayload(DefaultClientId, "Room " + name + " already exists"), fails)
    case Ok(sv1) =>
      var o := JoinRoom(sv1, name, c, fails);
      if o.fault == Some(RoomNotFound(name)) then o.(fault := None) else o
  }

  /** A new name, asked for by a client whose sends succeed: the room is
      created and the client ends in it, having left the room it was in. */
  lemma CreateEnters(sv: Server, c: Conn, name: string, fails: Fails)
    requires Valid(sv) && Text.Lower(name) !in sv.rooms
    requires c.room.Some? ==> c.room.value in sv.rooms && c.user.clientId in Keys(sv.rooms[c.room.value].members)
    requires !fails(c.user.clientId) && c.user.clientId != DefaultClientId
    ensures var o := HandleCreateRoom(sv, c, name, fails);
            o.fault.None? ==>
              && o.conn == Conn(c.user, Some(Text.Lower(name)))
              && Text.Lower(name) in o.server.rooms
              && c.user.clientId in Keys(o.server.rooms[Text.Lower(name)].members)
              && o.server.rooms[Text.Lower(name)].name == name
  {
    var sv1 := CreateRoom(sv, name).value;
    JoinMoves(sv1, name, c, fails);
    assert HandleCreateRoom(sv, c, name, fails) == JoinRoom(sv1, name, c, fails);
  }

  /** `handleJoinRoom(sender, name)`: an unknown room is answered with
      "Room <name> doesn't exist" from id -1 and changes nothing else. */
  function HandleJoinRoom(sv: Server, c: Conn, name: string, fails: Fails): (o: Outcome)
    requires Valid(sv)
    ensures Valid(o.server) && o.server.nextClientId == sv.nextClientId
    ensures Text.Lower(name) !in sv.rooms ==>
              o == Tell(sv, c, MessagePayload(DefaultClientId, "Room " + name + " doesn't exist"), fails)
    ensures Text.Lower(name) in sv.rooms ==> o == JoinRoom(sv, name, c, fails)
    ensures o.fault.Some? ==> o.fault.value in {NullRoom, Halted}
  {
    var o := JoinRoom(sv, name, c, fails);
    if o.fault == Some(RoomNotFound(name)) then
      Tell(sv, c, MessagePayload(DefaultClientId, "Room " + name + " doesn't exist"), fails)
    else o
  }

  /** `handleListRooms(sender, query)`: the matching names go back to the
      sender. */
  function HandleListRooms(sv: Server, c: Conn, query: string, order: seq<string>, fails: Fails): (o: Outcome)
    requires Enumerates(order, sv)
    ensures o.server == sv && o.fault.None?
    ensures !fails(c.user.clientId) ==>
              o.sent == [Delivery(c.user.clientId, RoomsPayload(ListRooms(sv, query, order)))]
  {
    Tell(sv, c, RoomsPayload(ListRooms(sv, query, order)), fails)
  }

  /** A room handler's step applied back to the registry. */
  function InRoom(sv: Server, c: Conn, k: string, st: Step): (o: Outcome)
    requires Valid(sv) && k in sv.rooms && Evolves(sv.rooms[k], st.room)
    ensures Valid(o.server) && o.server.nextClientId == sv.nextClientId
    ensures o.fault.Some? ==> o.fault == Some(Halted)
  {
    StoreValid(sv, k, st.room);
    Outcome(Store(sv, k, st.room), After(c, st), st.sent, HaltFault(st))
  }

  /** The end of the read loop after an exception: the current room, if any,
      disconnects the connection, and the connection stops with its record
      reset. */
  function Abort(o: Outcome, fails: Fails): (r: Outcome)
    requires Valid(o.server)
    ensures Valid(r.server) && r.server.nextClientId == o.server.nextClientId
    ensures o.sent <= r.sent
    ensures r.fault.Some?
    ensures o.conn.room.None? || o.conn.room.value !in o.server.rooms ==>
              r.server == o.server && r.sent == o.sent
    ensures r.conn.room.None? && r.conn.user.clientId == DefaultClientId
  {
    var f := if o.fault.Some? then o.fault else Some(NullDeref);
    var c := o.conn;
    match c.room
    case None => Outcome(o.server, Conn(Reset(c.user), None), o.sent, f)
    case Some(k) =>
      if k !in o.server.rooms then Outcome(o.server, Conn(Reset(c.user), None), o.sent, f)
      else
        var st := Rooms.Disconnect(Begin(o.server.rooms[k]), c.user, Closed(fails));
        var d := InRoom(o.server, c, k, st);
        Outcome(d.server, Conn(Reset(c.user), None), o.sent + d.sent, f)
  }

  /** `processPayload` with the read loop around it: the dispatched handler
      runs against the current room and the registry; an unknown type is
      dropped; a null dereference or an exception escaping a handler ends the
      connection. */
  function Process(sv: Server, c: Conn, p: Payload, order: seq<string>, fails: Fails): (o: Outcome)
    requires Valid(sv) && Enumerates(order, sv)
    requires c.room.Some? ==> c.room.value in sv.rooms
    ensures Valid(o.server)
    ensures Dispatch(p, c.room.Some?) == Skip ==> o == Outcome(sv, c, [], None)
    ensures Dispatch(p, c.room.Some?) == Crash ==> o == Abort(Outcome(sv, c, [], None), fails)
    ensures o.fault.Some? ==> o.conn.room.None? && o.conn.user.clientId == DefaultClientId
  {
    var a := Dispatch(p, c.room.Some?);
    var o :=
      match a
      case Skip => Outcome(sv, c, [], Some(Halted))
      case Crash => Outcome(sv, c, [], Some(NullDeref))
      case SetName(n) => Initialize(sv, c.(user := c.user.(clientName := Some(n))), fails)
      case HandleCreateRoom(name) => HandleCreateRoom(sv, c, name, fails)
      case HandleJoinRoom(name) => HandleJoinRoom(sv, c, name, fails)
      case HandleListRooms(query) => HandleListRooms(sv, c, query, order, fails)
      case HandleDisconnect =>
        var k := c.room.value;
        InRoom(sv, c, k, Rooms.Disconnect(Begin(sv.rooms[k]), c.user, Closed(fails)))
      case HandleMessage(m) =>
        var k := c.room.value;
        InRoom(sv, c, k, Rooms.HandleMessage(Begin(sv.rooms[k]), c.user, m, Closed(fails)))
      case HandleReverse(t) =>
        var k := c.room.value;
        InRoom(sv, c, k, Rooms.HandleReverseText(Begin(sv.rooms[k]), c.user, t, Closed(fails)));
    if a == Skip then Outcome(sv, c, [], None)
    else if o.fault.Some? then Abort(o, fails)
    else o
  }
}

=== FILE: results.dfy ===
/** Optional values (the source's `null`) and results (the source's checked and
    unchecked exceptions). */
module Results {

  datatype Option<+T> = None | Some(value: T)

  datatype Result<+T, +E> = Ok(value: T) | Err(error: E)
}

=== FILE: rooms.dfy ===
/** A room and its membership (Project/Server/Room.java) with the game-room
    overrides of `addClient`, `removeClient` and `disconnect`
    (Project/Server/BaseGameRoom.java).

    Delivery is an oracle: `fails(k)` says whether a send to the connection
    held under id `k` fails, and it stays the same for one operation. A send
    that fails runs the connection's cleanup, which resets its user record
    (its id becomes -1), so the room's nested `disconnect` of that connection
    looks up id -1: it finds nothing, or the one member held under -1 (a
    connection that had failed before it joined), which it then disconnects
    in full. A connection that the server stopped (`disconnect()` on the
    thread) accepts every later send without writing. */
module Rooms {
  import opened Results
  import opened Users
  import opened Members
  import Text
  import opened Protocol
  import GameRooms

  /** `game` is present for a game room, absent for the lobby's plain room. */
  datatype Room = Room(name: string, isRunning: bool, members: Members, game: Option<GameRooms.Game>)

  /** One payload written to the connection held under id `to`. */
  datatype Delivery = Delivery(to: int, payload: Payload)

  /** A room operation in progress: the room, what was written so far, the
      connections whose cleanup ran (their records are reset), and whether an
      exception escaped, which ends the operation where it stands. */
  datatype Step = Step(room: Room, sent: seq<Delivery>, reset: set<int>, halted: bool)

  type Fails = int -> bool

  function Begin(room: Room): (s: Step)
    ensures s.room == room && s.sent == [] && s.reset == {} && !s.halted
  {
    Step(room, [], {}, false)
  }

  /** `Room.LOBBY.equalsIgnoreCase(name)`: the name folds to "lobby", so it
      is the name the registry files the lobby under. */
  function IsLobby(name: string): (r: bool)
    ensures r <==> Text.Lower(name) == Lobby
  {
    assert Text.Lower(Lobby) == Lobby;
    Text.EqualsIgnoreCase(Lobby, name)
  }

  /** The constructors: a room starts running and empty; every room but the
      lobby is a game room with a fresh game. */
  function NewRoom(name: string): (r: Room)
    ensures r.name == name && r.isRunning && r.members == []
    ensures r.game.Some? <==> !IsLobby(name)
    ensures r.game.Some? ==> GameRooms.GameInv(r.game.value)
  {
    Room(name, true, [], if IsLobby(name) then None else Some(GameRooms.NewGame()))
  }

  function Send(s: Step, to: int, p: Payload): (r: Step)
    ensures r.sent == s.sent + [Delivery(to, p)] && r.(sent := s.sent) == s
  {
    s.(sent := s.sent + [Delivery(to, p)])
  }

  /** The record of the connection held under `key`: reset once its cleanup
      ran. */
  function Live(s: Step, key: int, u: User): (r: User)
    ensures key in s.reset ==> r == Reset(u)
    ensures key !in s.reset ==> r == u
  {
    if key in s.reset then Reset(u) else u
  }

  /** No member left whose sends fail. */
  predicate Clean(ms: Members, fails: Fails) {
    forall k :: k in Keys(ms) ==> !fails(k)
  }

  /** What every step of a room operation keeps: the name and the kind of
      room; a room never reopens, and one that closes is empty; members only
      leave, and the ids stay distinct; what was written stays written, and
      nothing is written to a connection whose sends fail; the lobby never
      closes; the game's invariant holds on. */
  predicate Follows(s: Step, r: Step, fails: Fails) {
    && r.room.name == s.room.name
    && r.room.game.Some? == s.room.game.Some?
    && (r.room.isRunning ==> s.room.isRunning)
    && (s.room.isRunning && !r.room.isRunning ==> r.room.members == [])
    && Keys(r.room.members) <= Keys(s.room.members)
    && |r.room.members| <= |s.room.members|
    && (UniqueIds(s.room.members) ==> UniqueIds(r.room.members))
    && s.sent <= r.sent
    && (forall i :: |s.sent| <= i < |r.sent| ==> !fails(r.sent[i].to))
    && s.reset <= r.reset
    && (IsLobby(s.room.name) && s.room.isRunning ==> r.room.isRunning)
    && (s.room.game.Some? && GameRooms.GameInv(s.room.game.value) ==> GameRooms.GameInv(r.room.game.value))
  }

  /** Every member with a real id whose sends succeed stays, except `gone`;
      and only connections whose sends fail are cleaned up, again except
      `gone` and the placeholder id. */
  predicate Keeps(s: Step, r: Step, fails: Fails, gone: int) {
    && (forall k :: k in Keys(s.room.members) && k != DefaultClientId && k != gone && !fails(k) ==> k in Keys(r.room.members))
    && (forall k :: k in r.reset && k !in s.reset && k != DefaultClientId && k != gone ==> fails(k))
  }

  /** `autoCleanup()`: a room other than the lobby closes once it is empty.
      `close()` skips its migration for an empty room, deregisters the room
      (the registry drops rooms that stopped running) and stops it. */
  function AutoCleanup(s: Step): (r: Step)
    ensures r.room.isRunning <==> s.room.isRunning && (IsLobby(s.room.name) || |s.room.members| > 0)
    ensures r == s.(room := s.room.(isRunning := r.room.isRunning))
  {
    if !IsLobby(s.room.name) && |s.room.members| == 0 then s.(room := s.room.(isRunning := false)) else s
  }

  /** `onClientRemoved` of a game room, for the connection held under `key`
      whose id is now `liveId`; nothing for the lobby. */
  function GameRemoved(s: Step, key: int, liveId: int): (r: Step)
    ensures r.sent == s.sent && r.reset == s.reset
    ensures r.room.name == s.room.name && r.room.isRunning == s.room.isRunning
    ensures Ids(r.room.members) == Ids(s.room.members) && Keys(r.room.members) == Keys(s.room.members)
    ensures |r.room.members| == |s.room.members| && (UniqueIds(r.room.members) <==> UniqueIds(s.room.members))
    ensures r.room.game.Some? == s.room.game.Some?
    ensures s.room.game.Some? && GameRooms.GameInv(s.room.game.value) ==> GameRooms.GameInv(r.room.game.value)
    ensures s.room.game.Some? ==> key !in r.room.game.value.turnOrder
    ensures s.room.game.None? ==> r == s
    ensures !s.halted && |s.room.members| == 0 ==> !r.halted
  {
    match s.room.game
    case None => s
    case Some(g) =>
      var p := GameRooms.OnClientRemoved(s.room.members, g, key, liveId);
      SameIds(p.members, s.room.members);
      s.(room := s.room.(members := p.members, game := Some(p.game)), halted := p.halted)
  }

  /** The chat line of `relay(sender, message)`: the sender's display name,
      or `Room[name]` for the server, then ": " and the message; the sender
      id is -1 for the server. */
  function RelayPayload(name: string, sender: Option<User>, message: string): (p: Payload)
    ensures p.ptype == Some(Message) && p.message.Some?
    ensures sender.None? ==> p == MessagePayload(DefaultClientId, "Room[" + name + "]" + ": " + message)
    ensures sender.Some? ==> p == MessagePayload(sender.value.clientId, DisplayName(sender.value) + ": " + message)
  {
    var from := if sender.Some? then DisplayName(sender.value) else "Room[" + name + "]";
    var senderId := if sender.Some? then sender.value.clientId else DefaultClientId;
    MessagePayload(senderId, from + ": " + message)
  }

  lemma FollowsTrans(a: Step, b: Step, c: Step, fails: Fails)
    requires Follows(a, b, fails) && Follows(b, c, fails)
    ensures Follows(a, c, fails)
  {
    forall i | |a.sent| <= i < |c.sent| ensures !fails(c.sent[i].to) {
      if i < |b.sent| {
        assert c.sent[i] == b.sent[i];
      }
    }
  }

  /** Two steps that each keep everyone but at most one common member keep
      everyone but that member. */
  lemma KeepsTrans(a: Step, b: Step, c: Step, fails: Fails, gone: int, gone2: int)
    requires Keeps(a, b, fails, gone) && Keeps(b, c, fails, gone2) && a.reset <= b.reset
    requires gone2 == gone || gone2 == DefaultClientId || gone == DefaultClientId
    ensures Keeps(a, c, fails, if gone == DefaultClientId then gone2 else gone)
  {
  }

  /** What was written before a step is still among what was written after. */
  lemma SentKept(a: Step, b: Step, x: Delivery)
    ensures a.sent <= b.sent && x in a.sent ==> x in b.sent
  {
    if a.sent <= b.sent && x in a.sent {
      var i :| 0 <= i < |a.sent| && a.sent[i] == x;
      assert b.sent[i] == x;
    }
  }

  // ---------------------------------------------------------------------------
  // Passes over the members
  // ---------------------------------------------------------------------------

  /** The connection held under `k` failed a send. Its cleanup resets it and
      the room's `disconnect` of it follows (`NestedDisconnect`); in a game
      room `onClientRemoved` comes next; then the pass drops `k`'s entry. */
  function Evict(s: Step, k: int, fails: Fails): (r: Step)
    requires !s.halted && k in Keys(s.room.members) && fails(k)
    ensures Follows(s, r, fails) && Keeps(s, r, fails, k)
    ensures !r.halted ==> k !in Keys(r.room.members)
    ensures k in r.reset
    decreases |s.room.members|, 0, 2
  {
    var s0 := s.(reset := s.reset + {k});
    assert Follows(s, s0, fails) && Keeps(s, s0, fails, k);
    var s1 := NestedDisconnect(s0, k, fails);
    FollowsTrans(s, s0, s1, fails);
    KeepsTrans(s, s0, s1, fails, k, k);
    if s1.halted then s1
    else
      var s2 := GameRemoved(s1, k, DefaultClientId);
      assert Follows(s1, s2, fails);
      KeysRemove(s2.room.members, k);
      RemoveUnique(s2.room.members, k);
      var r := if s2.halted then s2 else s2.(room := s2.room.(members := Remove(s2.room.members, k)));
      assert Follows(s1, r, fails);
      FollowsTrans(s, s1, r, fails);
      r
  }

  /** The room's `disconnect` of a connection whose cleanup reset it: the
      lookup is under id -1. It finds nothing, or the member held under -1 (a
      connection that failed before it joined), which is then disconnected in
      full. When that member is not `k` itself, `k`'s own entry leaves first:
      `k` has been reset as well, so the full disconnect's pass drops it on
      the id match (both read -1) without writing to it. */
  function NestedDisconnect(s: Step, k: int, fails: Fails): (r: Step)
    requires !s.halted && k in Keys(s.room.members) && fails(k)
    ensures Follows(s, r, fails) && Keeps(s, r, fails, k)
    decreases |s.room.members|, 0, 1
  {
    var ms := s.room.members;
    if !s.room.isRunning || DefaultClientId !in Keys(ms) then s
    else if k == DefaultClientId then FullDisconnect(s, k, fails)
    else
      KeysRemove(ms, k);
      RemoveUnique(ms, k);
      var s1 := s.(room := s.room.(members := Remove(ms, k)));
      assert Follows(s, s1, fails) && Keeps(s, s1, fails, k);
      var r := FullDisconnect(s1, DefaultClientId, fails);
      FollowsTrans(s, s1, r, fails);
      KeepsTrans(s, s1, r, fails, k, DefaultClientId);
      r
  }

  /** The body of `disconnect` once `clientsInRoom.remove` found the member
      `d`: every other member is told that `d` left (members whose send fails
      are evicted), the room announces "<d> disconnected", `d`'s connection
      is stopped and cleaned up, and an empty room other than the lobby
      closes. */
  function FullDisconnect(s: Step, d: int, fails: Fails): (r: Step)
    requires !s.halted && s.room.isRunning && d in Keys(s.room.members)
    ensures Follows(s, r, fails) && Keeps(s, r, fails, d)
    ensures d !in Keys(r.room.members)
    ensures !r.halted ==> d in r.reset && Clean(r.room.members, fails)
    ensures !r.halted ==> (r.room.isRunning <==> IsLobby(s.room.name) || |r.room.members| > 0)
    ensures !r.halted ==>
              var du := Get(s.room.members, d);
              forall k :: k in Keys(s.room.members) && k != d && k != DefaultClientId && !fails(k) ==>
                && Delivery(k, ClientInfo(d, du.clientName, Leave, false)) in r.sent
                && Delivery(k, RelayPayload(s.room.name, None, DisplayName(du) + " disconnected")) in r.sent
    decreases |s.room.members|, 0, 0
  {
    var ms := s.room.members;
    var du := Get(ms, d);
    KeysRemove(ms, d);
    RemoveUnique(ms, d);
    var s1 := s.(room := s.room.(members := Remove(ms, d)));
    assert Follows(s, s1, fails) && Keeps(s, s1, fails, d);
    var s2 := Broadcast(s1, ClientInfo(du.clientId, du.clientName, Leave, false), Ids(s1.room.members), fails);
    FollowsTrans(s, s1, s2, fails);
    KeepsTrans(s, s1, s2, fails, d, DefaultClientId);
    if s2.halted then s2
    else
      LeaveThenNotice(s, s1, s2, d, du, fails)
  }

  /** The rest of `disconnect` once the leave notices went out. */
  function LeaveThenNotice(s: Step, s1: Step, s2: Step, d: int, du: User, fails: Fails): (r: Step)
    requires !s.halted && s.room.isRunning && d in Keys(s.room.members) && !s2.halted
    requires du == Get(s.room.members, d)
    requires s1 == s.(room := s.room.(members := Remove(s.room.members, d)))
    requires Follows(s, s2, fails) && Keeps(s, s2, fails, d) && Follows(s1, s2, fails)
    requires Clean(s2.room.members, fails) && d !in Keys(s2.room.members)
    requires forall k :: k in Keys(s1.room.members) && k != DefaultClientId && !fails(k) ==>
               Delivery(k, ClientInfo(du.clientId, du.clientName, Leave, false)) in s2.sent
    ensures Follows(s, r, fails) && Keeps(s, r, fails, d)
    ensures d !in Keys(r.room.members)
    ensures !r.halted ==> d in r.reset && Clean(r.room.members, fails)
    ensures !r.halted ==> (r.room.isRunning <==> IsLobby(s.room.name) || |r.room.members| > 0)
    ensures !r.halted ==>
              forall k :: k in Keys(s.room.members) && k != d && k != DefaultClientId && !fails(k) ==>
                && Delivery(k, ClientInfo(d, du.clientName, Leave, false)) in r.sent
                && Delivery(k, RelayPayload(s.room.name, None, DisplayName(du) + " disconnected")) in r.sent
    decreases |s1.room.members|, 3, 0
  {
    KeysRemove(s.room.members, d);
    var s3 := Relay(s2, None, DisplayName(du) + " disconnected", fails);
    FollowsTrans(s, s2, s3, fails);
    KeepsTrans(s, s2, s3, fails, d, DefaultClientId);
    if s3.halted then s3
    else
      var r := AutoCleanup(s3.(reset := s3.reset + {d}));
      assert s3.room.isRunning || (|s3.room.members| == 0 && !IsLobby(s.room.name));
      assert Follows(s3, r, fails);
      FollowsTrans(s, s3, r, fails);
      assert forall k :: k in Keys(s.room.members) && k != d && k != DefaultClientId && !fails(k) ==>
               Delivery(k, ClientInfo(d, du.clientName, Leave, false)) in r.sent by {
        forall k | k in Keys(s.room.members) && k != d && k != DefaultClientId && !fails(k)
          ensures Delivery(k, ClientInfo(d, du.clientName, Leave, false)) in r.sent
        {
          SentKept(s2, r, Delivery(k, ClientInfo(d, du.clientName, Leave, false)));
        }
      }
      r
  }

  /** `relay(sender, message)`: nothing once the room stopped; otherwise the
      chat line goes to every member, and a member whose send fails is
      evicted. */
  function Relay(s: Step, sender: Option<User>, message: string, fails: Fails): (r: Step)
    ensures Follows(s, r, fails) && Keeps(s, r, fails, DefaultClientId)
    ensures s.halted || !s.room.isRunning ==> r == s
    ensures s.room.isRunning && !r.halted ==> Clean(r.room.members, fails)
    ensures s.room.isRunning && !r.halted ==>
              forall k :: k != DefaultClientId ==>
                (k in Keys(r.room.members) <==> k in Keys(s.room.members) && !fails(k))
    ensures s.room.isRunning && !r.halted ==>
              forall k :: k in Keys(s.room.members) && k != DefaultClientId && !fails(k) ==>
                Delivery(k, RelayPayload(s.room.name, sender, message)) in r.sent
    decreases |s.room.members|, 2, 0
  {
    if s.halted || !s.room.isRunning then s
    else Broadcast(s, RelayPayload(s.room.name, sender, message), Ids(s.room.members), fails)
  }

  /** The `removeIf` pass shared by `relay` and `disconnect`: `p` goes to each
      id of `pending` that is still a member, in order; a member whose send
      fails is evicted instead. */
  function Broadcast(s: Step, p: Payload, pending: seq<int>, fails: Fails): (r: Step)
    ensures Follows(s, r, fails) && Keeps(s, r, fails, DefaultClientId)
    ensures s.halted ==> r == s
    ensures !r.halted && (forall k :: k in Keys(s.room.members) && fails(k) ==> k in pending) ==>
              Clean(r.room.members, fails)
    ensures !r.halted ==>
              forall k :: k in pending && k in Keys(s.room.members) && k != DefaultClientId && !fails(k) ==>
                Delivery(k, p) in r.sent
    decreases |s.room.members|, 1, |pending|
  {
    if s.halted || |pending| == 0 then s
    else
      var k := pending[0];
      assert forall j :: j in pending && j != k ==> j in pending[1..];
      var s1 :=
        if k !in Keys(s.room.members) then s
        else if fails(k) then Evict(s, k, fails)
        else Send(s, k, p);
      assert Follows(s, s1, fails) && Keeps(s, s1, fails, DefaultClientId);
      assert !fails(k) && k in Keys(s.room.members) ==> Delivery(k, p) in s1.sent;
      var r := Broadcast(s1, p, pending[1..], fails);
      FollowsTrans(s, s1, r, fails);
      KeepsTrans(s, s1, r, fails, DefaultClientId, DefaultClientId);
      SentKept(s1, r, Delivery(k, p));
      r
  }

  // ---------------------------------------------------------------------------
  // Joining and leaving
  // ---------------------------------------------------------------------------

  function ActionOf(didJoin: bool): (a: RoomAction)
    ensures a == Join <==> didJoin
  {
    if didJoin then Join else Leave
  }

  /** "Room[name] <who> joined|left the room", where <who> is "You" when the
      reader is the client itself (the ids compare equal) and the client's
      display name otherwise. */
  function JoinText(name: string, client: User, reader: int, didJoin: bool): (r: string)
    ensures |r| > |"Room[" + name + "] "| && r[..|"Room[" + name + "] "|] == "Room[" + name + "] "
    ensures client.clientId == reader ==> Text.OccursAt(r, "You", |"Room[" + name + "] "|)
    ensures client.clientId != reader ==> Text.OccursAt(r, DisplayName(client), |"Room[" + name + "] "|)
    ensures |r| >= 9 && r[|r| - 9..] == " the room"
  {
    "Room[" + name + "] " + (if client.clientId == reader then "You" else DisplayName(client))
      + " " + (if didJoin then "joined" else "left") + " the room"
  }

  /** The `removeIf` pass of `joinStatusRelay(client, didJoin)` for the client
      held under `key`: each id of `pending` still present gets the client's
      join or leave update and the line of `JoinText`, both read from the
      client's record as it is at that moment (reset once the client's own
      sends failed). A member whose sends fail is evicted. */
  function JoinPass(s: Step, key: int, client: User, didJoin: bool, pending: seq<int>, fails: Fails): (r: Step)
    ensures Follows(s, r, fails) && Keeps(s, r, fails, DefaultClientId)
    ensures s.halted ==> r == s
    ensures !r.halted && (forall k :: k in Keys(s.room.members) && fails(k) ==> k in pending) ==>
              Clean(r.room.members, fails)
    ensures !r.halted && (key in s.reset || (key != DefaultClientId && !fails(key))) ==>
              var live := Live(s, key, client);
              forall k :: k in pending && k in Keys(s.room.members) && k != DefaultClientId && !fails(k) ==>
                && Delivery(k, ClientInfo(live.clientId, live.clientName, ActionOf(didJoin), false)) in r.sent
                && Delivery(k, MessagePayload(live.clientId, JoinText(s.room.name, live, k, didJoin))) in r.sent
    decreases |pending|
  {
    if s.halted || |pending| == 0 then s
    else
      var k := pending[0];
      assert forall j :: j in pending && j != k ==> j in pending[1..];
      var live := Live(s, key, client);
      var info := Delivery(k, ClientInfo(live.clientId, live.clientName, ActionOf(didJoin), false));
      var line := Delivery(k, MessagePayload(live.clientId, JoinText(s.room.name, live, k, didJoin)));
      var s1 := JoinStep(s, key, client, didJoin, k, fails);
      var r := JoinPass(s1, key, client, didJoin, pending[1..], fails);
      FollowsTrans(s, s1, r, fails);
      KeepsTrans(s, s1, r, fails, DefaultClientId, DefaultClientId);
      SentKept(s1, r, info);
      SentKept(s1, r, line);
      r
  }

  /** One member's turn in `JoinPass`. */
  function JoinStep(s: Step, key: int, client: User, didJoin: bool, k: int, fails: Fails): (r: Step)
    requires !s.halted
    ensures Follows(s, r, fails) && Keeps(s, r, fails, DefaultClientId)
    ensures k !in Keys(s.room.members) ==> r == s
    ensures fails(k) && !r.halted ==> k !in Keys(r.room.members)
    ensures key in s.reset || (key != DefaultClientId && !fails(key)) ==> Live(r, key, client) == Live(s, key, client)
    ensures k in Keys(s.room.members) && !fails(k) ==>
              var live := Live(s, key, client);
              && Delivery(k, ClientInfo(live.clientId, live.clientName, ActionOf(didJoin), false)) in r.sent
              && Delivery(k, MessagePayload(live.clientId, JoinText(s.room.name, live, k, didJoin))) in r.sent
  {
    var live := Live(s, key, client);
    if k !in Keys(s.room.members) then s
    else if fails(k) then Evict(s, k, fails)
    else
      var r := Send(Send(s, k, ClientInfo(live.clientId, live.clientName, ActionOf(didJoin), false)), k,
                    MessagePayload(live.clientId, JoinText(s.room.name, live, k, didJoin)));
      assert Follows(s, r, fails) by {
        assert forall i :: |s.sent| <= i < |r.sent| ==> r.sent[i].to == k;
      }
      r
  }

  /** `syncExistingClients(incoming)` for the newcomer held under `key`: for
      each member still present other than the newcomer, the newcomer gets a
      silent join update about it. When that send fails the room disconnects
      the existing member, not the newcomer. Once the newcomer's own entry is
      gone its connection has been stopped, and sends to it succeed without
      writing anything. */
  function Sync(s: Step, key: int, pending: seq<int>, fails: Fails): (r: Step)
    ensures Follows(s, r, fails)
    ensures s.halted || key !in Keys(s.room.members) ==> r == s
    ensures !fails(key) ==> r.room == s.room && r.reset == s.reset && r.halted == s.halted
    ensures !fails(key) && !s.halted && key in Keys(s.room.members) ==>
              forall k :: k in pending && k in Keys(s.room.members) && k != key ==>
                Delivery(key, ClientInfo(k, Get(s.room.members, k).clientName, Join, true)) in r.sent
    decreases |pending|
  {
    if s.halted || |pending| == 0 then s
    else
      var k := pending[0];
      var ms := s.room.members;
      assert forall j :: j in pending && j != k ==> j in pending[1..];
      if k !in Keys(ms) || k == key || key !in Keys(ms) then Sync(s, key, pending[1..], fails)
      else
        var u := Get(ms, k);
        var sync := Delivery(key, ClientInfo(k, u.clientName, Join, true));
        var s1 := if fails(key) then Disconnect(s, u, fails) else Send(s, key, sync.payload);
        assert Follows(s, s1, fails);
        var r := Sync(s1, key, pending[1..], fails);
        FollowsTrans(s, s1, r, fails);
        SentKept(s1, r, sync);
        r
  }

  /** `addClient(client)`: nothing when the room stopped or already holds the
      id. Otherwise the client is put in the map; its user list is reset; the
      existing members are synced to it; everyone present hears that it
      joined. A connection whose sends fail reaches this point already reset
      (id -1), because the operation that brings it here wrote to it first. */
  function AddClient(s: Step, c: User, fails: Fails): (r: Step)
    requires !s.halted
    requires fails(c.clientId) ==> c == Reset(c)
    ensures r.room.name == s.room.name && r.room.game.Some? == s.room.game.Some?
    ensures r.room.isRunning ==> s.room.isRunning
    ensures IsLobby(s.room.name) && s.room.isRunning ==> r.room.isRunning
    ensures Keys(r.room.members) <= Keys(s.room.members) + {c.clientId}
    ensures UniqueIds(s.room.members) ==> UniqueIds(r.room.members)
    ensures s.sent <= r.sent && forall i :: |s.sent| <= i < |r.sent| ==> !fails(r.sent[i].to)
    ensures s.reset <= r.reset
    ensures s.room.game.Some? && GameRooms.GameInv(s.room.game.value) ==> GameRooms.GameInv(r.room.game.value)
    ensures !s.room.isRunning || c.clientId in Keys(s.room.members) ==> r == s
  {
    var key := c.clientId;
    var ms := s.room.members;
    if !s.room.isRunning || key in Keys(ms) then s
    else
      var s1 := Admit(s, c, fails);
      var s3 := Sync(s1, key, Ids(ms), fails);
      AdmittedThen(s, s1, s3, c, fails);
      if s3.halted then s3
      else
        var r := JoinPass(s3, key, c, true, Ids(s3.room.members), fails);
        FollowsTrans(s1, s3, r, fails);
        AdmittedThen(s, s1, r, c, fails);
        r
  }

  /** What follows an admission keeps the room as `addClient` promises. */
  lemma AdmittedThen(s: Step, s1: Step, r: Step, c: User, fails: Fails)
    requires !s.halted && s.room.isRunning && c.clientId !in Keys(s.room.members)
    requires s1 == Admit(s, c, fails) && Follows(s1, r, fails)
    ensures r.room.name == s.room.name && r.room.game.Some? == s.room.game.Some?
    ensures IsLobby(s.room.name) ==> r.room.isRunning
    ensures Keys(r.room.members) <= Keys(s.room.members) + {c.clientId}
    ensures UniqueIds(s.room.members) ==> UniqueIds(r.room.members)
    ensures s.sent <= r.sent && forall i :: |s.sent| <= i < |r.sent| ==> !fails(r.sent[i].to)
    ensures s.reset <= r.reset
    ensures s.room.game.Some? && GameRooms.GameInv(s.room.game.value) ==> GameRooms.GameInv(r.room.game.value)
  {
    forall i | |s.sent| <= i < |r.sent| ensures !fails(r.sent[i].to) {
      if i < |s1.sent| {
        assert r.sent[i] == s1.sent[i];
      }
    }
  }

  /** The first half of `addClient` for a new id: the entry goes in and the
      client's user list is reset (a client whose sends fail is cleaned up
      instead). */
  function Admit(s: Step, c: User, fails: Fails): (r: Step)
    requires !s.halted && s.room.isRunning && c.clientId !in Keys(s.room.members)
    ensures r.room == s.room.(members := s.room.members + [c]) && !r.halted
    ensures Keys(r.room.members) == Keys(s.room.members) + {c.clientId}
    ensures UniqueIds(s.room.members) ==> UniqueIds(r.room.members)
    ensures s.sent <= r.sent && forall i :: |s.sent| <= i < |r.sent| ==> !fails(r.sent[i].to)
    ensures !fails(c.clientId) ==> r.sent == s.sent + [Delivery(c.clientId, ResetUserList())] && r.reset == s.reset
    ensures fails(c.clientId) ==> r.sent == s.sent && r.reset == s.reset + {c.clientId}
  {
    KeysAppend(s.room.members, c);
    var s1 := s.(room := s.room.(members := s.room.members + [c]));
    if fails(c.clientId) then s1.(reset := s1.reset + {c.clientId}) else Send(s1, c.clientId, ResetUserList())
  }

  /** A client whose sends succeed joins a running room that does not hold its
      id: it stays a member, and only members whose sends fail are dropped. */
  lemma AddClientWelcomes(s: Step, c: User, fails: Fails)
    requires !s.halted && s.room.isRunning && c.clientId !in Keys(s.room.members) && !fails(c.clientId)
    requires c.clientId != DefaultClientId && c.clientId !in s.reset
    ensures var r := AddClient(s, c, fails);
            !r.halted ==>
              && c.clientId in Keys(r.room.members)
              && Clean(r.room.members, fails)
              && Keeps(s, r, fails, DefaultClientId)
  {
    var key := c.clientId;
    var s1 := Admit(s, c, fails);
    var s3 := Sync(s1, key, Ids(s.room.members), fails);
    if !s3.halted {
      var r := JoinPass(s3, key, c, true, Ids(s3.room.members), fails);
      assert Keeps(s, s1, fails, DefaultClientId);
      KeepsTrans(s, s1, r, fails, DefaultClientId, DefaultClientId);
    }
  }

  /** The first thing a joining client whose sends succeed is told is to
      reset its user list. */
  lemma AddClientResetsFirst(s: Step, c: User, fails: Fails)
    requires !s.halted && s.room.isRunning && c.clientId !in Keys(s.room.members) && !fails(c.clientId)
    ensures var r := AddClient(s, c, fails);
            |r.sent| > |s.sent| && r.sent[|s.sent|] == Delivery(c.clientId, ResetUserList())
  {
    var key := c.clientId;
    var s1 := Admit(s, c, fails);
    var s3 := Sync(s1, key, Ids(s.room.members), fails);
    var r := AddClient(s, c, fails);
    assert s1.sent[|s.sent|] == Delivery(key, ResetUserList());
    assert s1.sent <= s3.sent <= r.sent;
    assert r.sent[..|s1.sent|] == s1.sent;
  }

  /** The newcomer whose sends succeed is synced every member that was
      there, with that member's id and name. */
  lemma AddClientSyncs(s: Step, c: User, fails: Fails)
    requires !s.halted && s.room.isRunning && c.clientId !in Keys(s.room.members) && !fails(c.clientId)
    requires c.clientId != DefaultClientId && c.clientId !in s.reset
    ensures var r := AddClient(s, c, fails);
            !r.halted ==>
              forall k :: k in Keys(s.room.members) ==>
                Delivery(c.clientId, ClientInfo(k, Get(s.room.members, k).clientName, Join, true)) in r.sent
  {
    var key := c.clientId;
    var ms := s.room.members;
    var s1 := Admit(s, c, fails);
    var s3 := Sync(s1, key, Ids(ms), fails);
    if !s3.halted {
      var r := JoinPass(s3, key, c, true, Ids(s3.room.members), fails);
      forall k | k in Keys(ms)
        ensures Delivery(key, ClientInfo(k, Get(ms, k).clientName, Join, true)) in r.sent
      {
        GetPrefix(ms, c, k);
        SentKept(s3, r, Delivery(key, ClientInfo(k, Get(ms, k).clientName, Join, true)));
      }
    }
  }

  /** The newcomer whose sends succeed and every member that stays hear that
      it joined: the join update and the "joined the room" line. */
  lemma AddClientAnnounces(s: Step, c: User, fails: Fails)
    requires !s.halted && s.room.isRunning && c.clientId !in Keys(s.room.members) && !fails(c.clientId)
    requires c.clientId != DefaultClientId && c.clientId !in s.reset
    ensures var r := AddClient(s, c, fails);
            !r.halted ==>
              forall k :: k in Keys(s.room.members) + {c.clientId} && k != DefaultClientId && !fails(k) ==>
                && Delivery(k, ClientInfo(c.clientId, c.clientName, Join, false)) in r.sent
                && Delivery(k, MessagePayload(c.clientId, JoinText(s.room.name, c, k, true))) in r.sent
  {
    var key := c.clientId;
    var s1 := Admit(s, c, fails);
    var s3 := Sync(s1, key, Ids(s.room.members), fails);
    if !s3.halted {
      assert Live(s3, key, c) == c;
    }
  }

  /** Looking an id up after a record was appended finds the same position
      as before. */
  /** Appending a record leaves the earlier members' records in place. */
  lemma GetPrefix(ms: Members, c: User, k: int)
    requires IsMember(ms, k)
    ensures IsMember(ms + [c], k) && Get(ms + [c], k) == Get(ms, k)
  {
    var i := IndexOf(ms, k).value;
    assert (ms + [c])[i] == ms[i];
    IndexOfPrefix(ms, c, k);
  }

  lemma {:induction false} IndexOfPrefix(ms: Members, c: User, k: int)
    requires IsMember(ms, k)
    ensures IndexOf(ms + [c], k) == IndexOf(ms, k)
  {
    if ms[0].clientId != k {
      assert (ms + [c])[1..] == ms[1..] + [c];
      var u :| u in ms && u.clientId == k;
      assert u in ms[1..];
      IndexOfPrefix(ms[1..], c, k);
    }
  }

  /** `removeClient(client)` (with `onClientRemoved` in a game room): nothing
      when the room stopped. A member first hears, with everyone else, that it
      left; then its entry is removed under its id at that moment (-1 if its
      own sends failed), and an empty room other than the lobby closes. */
  function RemoveClient(s: Step, c: User, fails: Fails): (r: Step)
    requires !s.halted
    ensures Follows(s, r, fails) && Keeps(s, r, fails, c.clientId)
    ensures !s.room.isRunning ==> r == s
    ensures s.room.isRunning && c.clientId !in Keys(s.room.members) ==>
              r.sent == s.sent && Keys(r.room.members) == Keys(s.room.members)
    ensures s.room.isRunning && c.clientId in Keys(s.room.members) && !r.halted ==> Clean(r.room.members, fails)
    ensures s.room.isRunning && c.clientId in Keys(s.room.members) && !r.halted && c.clientId !in s.reset ==>
              c.clientId !in Keys(r.room.members)
  {
    var id := c.clientId;
    if !s.room.isRunning then s
    else
      var s1 := if id !in Keys(s.room.members) then s else LeaveAndRemove(s, id, fails);
      RemovedThen(s, s1, id, c, fails)
  }

  /** The body of `removeClient` for a member: the leave notices, then the
      removal under the member's id at that moment, then `autoCleanup`. */
  function LeaveAndRemove(s: Step, id: int, fails: Fails): (r: Step)
    requires !s.halted && s.room.isRunning && id in Keys(s.room.members)
    ensures Follows(s, r, fails) && Keeps(s, r, fails, id)
    ensures !r.halted ==> Clean(r.room.members, fails)
    ensures !r.halted && id !in s.reset ==> id !in Keys(r.room.members)
  {
    var ms := s.room.members;
    var u := Get(ms, id);
    var s2 := JoinPass(s, id, u, false, Ids(ms), fails);
    if s2.halted then s2
    else
      var r := RemoveLive(s2, id, u, fails);
      FollowsTrans(s, s2, r, fails);
      KeepsTrans(s, s2, r, fails, DefaultClientId, id);
      r
  }

  /** A member whose sends succeed leaves: every member whose sends succeed,
      the leaver included, gets its leave update and "left the room" line. */
  lemma RemoveClientNotifies(s: Step, c: User, fails: Fails)
    requires !s.halted && s.room.isRunning && c.clientId in Keys(s.room.members)
    requires c.clientId != DefaultClientId && c.clientId !in s.reset && !fails(c.clientId)
    ensures var r := RemoveClient(s, c, fails);
            var u := Get(s.room.members, c.clientId);
            !r.halted ==>
              forall k :: k in Keys(s.room.members) && k != DefaultClientId && !fails(k) ==>
                && Delivery(k, ClientInfo(u.clientId, u.clientName, Leave, false)) in r.sent
                && Delivery(k, MessagePayload(u.clientId, JoinText(s.room.name, u, k, false))) in r.sent
  {
    var id := c.clientId;
    var ms := s.room.members;
    var u := Get(ms, id);
    var s2 := JoinPass(s, id, u, false, Ids(ms), fails);
    if !s2.halted {
      var r := RemoveLive(s2, id, u, fails);
      assert Live(s, id, u) == u;
      forall k | k in Keys(ms) && k != DefaultClientId && !fails(k)
        ensures Delivery(k, ClientInfo(u.clientId, u.clientName, Leave, false)) in r.sent
        ensures Delivery(k, MessagePayload(u.clientId, JoinText(s.room.name, u, k, false))) in r.sent
      {
        SentKept(s2, r, Delivery(k, ClientInfo(u.clientId, u.clientName, Leave, false)));
        SentKept(s2, r, Delivery(k, MessagePayload(u.clientId, JoinText(s.room.name, u, k, false))));
      }
    }
  }

  /** `clientsInRoom.remove(client.getClientId())` with the id the member
      has after the notices, then `autoCleanup`. */
  function RemoveLive(s: Step, id: int, u: User, fails: Fails): (r: Step)
    requires !s.halted && u.clientId == id
    ensures Follows(s, r, fails) && Keeps(s, r, fails, id)
    ensures Keys(r.room.members) == Keys(s.room.members) - {Live(s, id, u).clientId}
    ensures r.sent == s.sent && r.reset == s.reset && !r.halted
  {
    var live := Live(s, id, u).clientId;
    assert live == id || live == DefaultClientId;
    KeysRemove(s.room.members, live);
    RemoveUnique(s.room.members, live);
    var s3 := s.(room := s.room.(members := Remove(s.room.members, live)));
    assert Follows(s, s3, fails);
    var r := AutoCleanup(s3);
    FollowsTrans(s, s3, r, fails);
    r
  }

  /** The game room's `onClientRemoved` after the base removal. */
  function RemovedThen(s: Step, s1: Step, id: int, c: User, fails: Fails): (r: Step)
    requires Follows(s, s1, fails)
    ensures Follows(s, r, fails)
    ensures s1.halted ==> r == s1
    ensures Keys(r.room.members) == Keys(s1.room.members) && r.sent == s1.sent && r.reset == s1.reset
  {
    if s1.halted then s1
    else
      var r := GameRemoved(s1, id, Live(s1, id, c).clientId);
      assert Follows(s1, r, fails);
      FollowsTrans(s, s1, r, fails);
      r
  }

  /** `disconnect(client)` (with `onClientRemoved` in a game room): when the
      room runs and holds the client's id, the full disconnect of
      `FullDisconnect`; an empty room other than the lobby closes either
      way. */
  function Disconnect(s: Step, c: User, fails: Fails): (r: Step)
    requires !s.halted
    ensures Follows(s, r, fails) && Keeps(s, r, fails, c.clientId)
    ensures s.room.isRunning ==> c.clientId !in Keys(r.room.members)
    ensures !s.room.isRunning ==> r.sent == s.sent && r.reset == s.reset && Keys(r.room.members) == Keys(s.room.members)
    ensures s.room.isRunning && c.clientId !in Keys(s.room.members) ==>
              r.sent == s.sent && Keys(r.room.members) == Keys(s.room.members)
    ensures s.room.isRunning && c.clientId in Keys(s.room.members) && !r.halted ==>
              var u := Get(s.room.members, c.clientId);
              && c.clientId in r.reset
              && Clean(r.room.members, fails)
              && forall k :: k in Keys(s.room.members) && k != c.clientId && k != DefaultClientId && !fails(k) ==>
                   && Delivery(k, ClientInfo(c.clientId, u.clientName, Leave, false)) in r.sent
                   && Delivery(k, RelayPayload(s.room.name, None, DisplayName(u) + " disconnected")) in r.sent
  {
    var id := c.clientId;
    var s1 :=
      if !s.room.isRunning then s
      else if id in Keys(s.room.members) then FullDisconnect(s, id, fails)
      else AutoCleanup(s);
    assert Follows(s, s1, fails);
    if s1.halted then s1
    else
      var r := GameRemoved(s1, id, Live(s1, id, c).clientId);
      assert Follows(s1, r, fails);
      FollowsTrans(s, s1, r, fails);
      r
  }

  // ---------------------------------------------------------------------------
  // Requests handled by the room
  // ---------------------------------------------------------------------------

  /** `handleMessage(sender, text)`: the text is relayed as it is; a missing
      text is formatted as "null". */
  function HandleMessage(s: Step, sender: User, text: Option<string>, fails: Fails): (r: Step)
    ensures r == Relay(s, Some(sender), NameText(text), fails)
    ensures s.room.isRunning && !s.halted && !r.halted ==>
              forall k :: k in Keys(s.room.members) && k != DefaultClientId && !fails(k) ==>
                Delivery(k, MessagePayload(sender.clientId, DisplayName(sender) + ": " + NameText(text))) in r.sent
  {
    Relay(s, Some(sender), NameText(text), fails)
  }

  /** `handleReverseText(sender, text)`: the text is relayed reversed. */
  function HandleReverseText(s: Step, sender: User, text: string, fails: Fails): (r: Step)
    ensures r == Relay(s, Some(sender), Text.Reverse(text), fails)
    ensures s.room.isRunning && !s.halted && !r.halted ==>
              forall k :: k in Keys(s.room.members) && k != DefaultClientId && !fails(k) ==>
                Delivery(k, MessagePayload(sender.clientId, DisplayName(sender) + ": " + Text.Reverse(text))) in r.sent
  {
    Relay(s, Some(sender), Text.Reverse(text), fails)
  }

  /** Reversing a text and reversing it again relays the text itself. */
  lemma ReverseTwice(s: Step, sender: User, text: string, fails: Fails)
    ensures HandleReverseText(s, sender, Text.Reverse(text), fails) == HandleMessage(s, sender, Some(text), fails)
  {
    Text.ReverseInvolution(text);
  }

  // ---------------------------------------------------------------------------
  // A newcomer whose connection already failed
  // ---------------------------------------------------------------------------

  /** A connection whose sends fail (so its record is reset to id -1) joins a
      running room that holds members whose sends succeed. The first sync
      write to it fails, and the room disconnects the first existing member
      instead; the full disconnect also evicts the newcomer's entry. Every
      other member stays, and each hears that `null#-1` joined. */
  lemma DeadNewcomerDisconnectsFirst(s: Step, c: User, fails: Fails)
    requires !s.halted && s.room.isRunning && |s.room.members| > 0
    requires UniqueIds(s.room.members) && Clean(s.room.members, fails)
    requires DefaultClientId !in Keys(s.room.members)
    requires c == Reset(c) && fails(DefaultClientId)
    ensures var r := AddClient(s, c, fails);
            var first := s.room.members[0].clientId;
            !r.halted ==>
              && first in r.reset && first !in Keys(r.room.members)
              && DefaultClientId !in Keys(r.room.members)
              && (forall k :: k in Keys(s.room.members) && k != first ==> k in Keys(r.room.members))
              && (forall k :: k in Keys(s.room.members) && k != first ==>
                    Delivery(k, MessagePayload(DefaultClientId, JoinText(s.room.name, c, k, true))) in r.sent)
  {
    var ms := s.room.members;
    var key := c.clientId;
    assert key == DefaultClientId;
    var first := ms[0].clientId;
    assert first in Keys(ms);
    var s1 := Admit(s, c, fails);
    assert Get(s1.room.members, first) == ms[0] by {
      assert (ms + [c])[0] == ms[0];
    }
    var pending := Ids(ms);
    assert pending[0] == first;
    var d := Disconnect(s1, ms[0], fails);
    assert Sync(s1, key, pending, fails) == Sync(d, key, pending[1..], fails);
    if !d.halted {
      assert key !in Keys(d.room.members);
      var s3 := Sync(d, key, pending[1..], fails);
      assert s3 == d;
      var r := JoinPass(s3, key, c, true, Ids(s3.room.members), fails);
      assert r == AddClient(s, c, fails);
      KeepsTrans(s1, s3, r, fails, first, DefaultClientId);
      assert Live(s3, key, c) == c;
      forall k | k in Keys(ms) && k != first
        ensures k in Keys(s3.room.members) && k in Keys(r.room.members)
      {
        assert k != DefaultClientId && !fails(k);
      }
    }
  }

  /** The same newcomer joining an empty room other than the lobby: its own
      join notice fails, its eviction finds it under -1 and disconnects it in
      full, and the room, empty again, closes. */
  lemma DeadNewcomerClosesEmptyRoom(s: Step, c: User, fails: Fails)
    requires !s.halted && s.room.isRunning && s.room.members == [] && !IsLobby(s.room.name)
    requires c == Reset(c) && fails(DefaultClientId)
    ensures var r := AddClient(s, c, fails);
            !r.room.isRunning && r.room.members == []
  {
    var key := c.clientId;
    var s1 := Admit(s, c, fails);
    AddClientToEmpty(s, c, fails);
    SoleFailingMemberCloses(s1, key, fails);
    JoinPassOne(s1, key, c, fails);
  }

  /** `addClient` on an empty room passes the join notice to the newcomer
      alone. */
  lemma AddClientToEmpty(s: Step, c: User, fails: Fails)
    requires !s.halted && s.room.isRunning && s.room.members == []
    requires fails(c.clientId) ==> c == Reset(c)
    ensures var s1 := Admit(s, c, fails);
            s1.room.members == [c] &&
            AddClient(s, c, fails) == JoinPass(s1, c.clientId, c, true, [c.clientId], fails)
  {
    var s1 := Admit(s, c, fails);
    assert c.clientId !in Keys(s.room.members);
    assert Ids(s.room.members) == [];
    assert Sync(s1, c.clientId, [], fails) == s1;
    assert !s1.halted && Ids(s1.room.members) == [c.clientId];
  }

  /** A join pass over one failing member is its eviction. */
  lemma JoinPassOne(s: Step, key: int, c: User, fails: Fails)
    requires !s.halted && key in Keys(s.room.members) && fails(key)
    ensures JoinPass(s, key, c, true, [key], fails) == Evict(s, key, fails)
  {
    var e := Evict(s, key, fails);
    assert JoinPass(s, key, c, true, [key], fails) == JoinPass(e, key, c, true, [], fails);
  }

  /** Evicting the only member of a room other than the lobby when it is
      held under -1: the nested lookup finds it, and the room closes. */
  lemma SoleFailingMemberCloses(s: Step, k: int, fails: Fails)
    requires !s.halted && s.room.isRunning && !IsLobby(s.room.name) && fails(k) && k == DefaultClientId
    requires |s.room.members| == 1 && s.room.members[0].clientId == k
    ensures var e := Evict(s, k, fails);
            !e.room.isRunning && e.room.members == []
  {
    assert k in Keys(s.room.members);
    var s0 := s.(reset := s.reset + {k});
    SoleMemberDisconnectCloses(s0, k, fails);
    var f := FullDisconnect(s0, k, fails);
    assert NestedDisconnect(s0, k, fails) == f;
  }

  /** Evicting the only member of a room other than the lobby when it is
      held under a real id: the nested lookup under -1 finds nothing, and
      `autoCleanup` runs while the member is still in the map, so the room
      is left running and empty. It never closes, and so never leaves the
      registry. */
  lemma SoleFailingMemberStaysOpen(s: Step, k: int, fails: Fails)
    requires !s.halted && s.room.isRunning && !IsLobby(s.room.name) && fails(k) && k != DefaultClientId
    requires |s.room.members| == 1 && s.room.members[0].clientId == k
    ensures var e := Evict(s, k, fails);
            e.room.isRunning && e.sent == s.sent && (!e.halted ==> e.room.members == [])
  {
    assert Keys(s.room.members) == {k};
    var s0 := s.(reset := s.reset + {k});
    assert NestedDisconnect(s0, k, fails) == s0;
    var s2 := GameRemoved(s0, k, DefaultClientId);
    assert Remove(s2.room.members, k) == [] by {
      assert Keys(s2.room.members) == {k};
      assert |s2.room.members| == 1;
    }
  }

  /** The full disconnect of the only member of a room other than the lobby
      writes nothing and closes the room. */
  lemma SoleMemberDisconnectCloses(s: Step, d: int, fails: Fails)
    requires !s.halted && s.room.isRunning && !IsLobby(s.room.name)
    requires |s.room.members| == 1 && s.room.members[0].clientId == d
    ensures var f := FullDisconnect(s, d, fails);
            !f.halted && !f.room.isRunning && f.room.members == [] && f.sent == s.sent
  {
    assert d in Keys(s.room.members);
    var m1 := s.(room := s.room.(members := Remove(s.room.members, d)));
    assert m1.room.members == [];
    var du := Get(s.room.members, d);
    var b := Broadcast(m1, ClientInfo(du.clientId, du.clientName, Leave, false), Ids(m1.room.members), fails);
    assert b == m1;
    assert Relay(b, None, DisplayName(du) + " disconnected", fails) == b;
    assert FullDisconnect(s, d, fails) == LeaveThenNotice(s, m1, b, d, du, fails);
  }
}

=== FILE: text.dfy ===
/** The string operations of the Java library that the server relies on:
    case folding of room names, substring search, reversal, `trim`, decimal
    formatting of ids and the natural ordering of strings used by `sorted()`. */
module Text {

  // ---------------------------------------------------------------------------
  // Case folding (ASCII letters only)
  // ---------------------------------------------------------------------------

  function LowerChar(c: char): char {
    if 'A' <= c <= 'Z' then (c as int + 32) as char else c
  }

  /** `toLowerCase`: every upper-case letter becomes its lower-case form and
      every other character is kept, so no upper-case letter is left. */
  function Lower(s: string): (r: string)
    ensures |r| == |s|
    ensures forall i :: 0 <= i < |r| ==> !('A' <= r[i] <= 'Z')
    ensures forall i :: 0 <= i < |s| && !('A' <= s[i] <= 'Z') ==> r[i] == s[i]
    ensures forall i :: 0 <= i < |s| && 'A' <= s[i] <= 'Z' ==> r[i] as int == s[i] as int + 32
  {
    seq(|s|, i requires 0 <= i < |s| => LowerChar(s[i]))
  }

  /** Folding twice is folding once, so a folded name is its own key. */
  lemma LowerIdempotent(s: string)
    ensures Lower(Lower(s)) == Lower(s)
  {
  }

  /** `equalsIgnoreCase`: the two names have the same length and agree at
      every position once each character is folded. */
  function EqualsIgnoreCase(a: string, b: string): (r: bool)
    ensures r <==> |a| == |b| && forall i :: 0 <= i < |a| ==> LowerChar(a[i]) == LowerChar(b[i])
  {
    var la, lb := Lower(a), Lower(b);
    assert (|a| == |b| && forall i :: 0 <= i < |a| ==> LowerChar(a[i]) == LowerChar(b[i])) ==> la == lb by {
      if |a| == |b| && forall i :: 0 <= i < |a| ==> LowerChar(a[i]) == LowerChar(b[i]) {
        assert forall i :: 0 <= i < |la| ==> la[i] == lb[i];
      }
    }
    assert la == lb ==> forall i :: 0 <= i < |a| ==> LowerChar(a[i]) == LowerChar(b[i]) by {
      if la == lb {
        assert forall i :: 0 <= i < |a| ==> LowerChar(a[i]) == la[i] == lb[i] == LowerChar(b[i]);
      }
    }
    la == lb
  }

  // ---------------------------------------------------------------------------
  // Substring search (String.contains)
  // ---------------------------------------------------------------------------

  predicate OccursAt(s: string, q: string, i: int) {
    0 <= i <= |s| - |q| && s[i..i + |q|] == q
  }

  function Contains(s: string, q: string): (r: bool)
    ensures r <==> exists i :: OccursAt(s, q, i)
    decreases |s|
  {
    if |q| <= |s| && s[..|q|] == q then
      assert OccursAt(s, q, 0);
      true
    else if |s| == 0 then
      false
    else
      var r := Contains(s[1..], q);
      assert r ==> exists i :: OccursAt(s, q, i) by {
        if r {
          var i :| OccursAt(s[1..], q, i);
          assert s[i + 1..i + 1 + |q|] == s[1..][i..i + |q|];
          assert OccursAt(s, q, i + 1);
        }
      }
      assert (exists i :: OccursAt(s, q, i)) ==> r by {
        if exists i :: OccursAt(s, q, i) {
          var i :| OccursAt(s, q, i);
          assert i != 0;
          assert s[1..][i - 1..i - 1 + |q|] == s[i..i + |q|];
          assert OccursAt(s[1..], q, i - 1);
        }
      }
      r
  }

  // ---------------------------------------------------------------------------
  // Reversal (StringBuilder.reverse)
  // ---------------------------------------------------------------------------

  function Reverse(s: string): (r: string)
    ensures |r| == |s|
    ensures forall i :: 0 <= i < |s| ==> r[i] == s[|s| - 1 - i]
  {
    if |s| == 0 then [] else Reverse(s[1..]) + [s[0]]
  }

  /** Reversing twice gives the original text back. */
  lemma ReverseInvolution(s: string)
    ensures Reverse(Reverse(s)) == s
  {
  }

  // ---------------------------------------------------------------------------
  // String.trim: drop leading and trailing characters at or below U+0020
  // ---------------------------------------------------------------------------

  predicate IsBlankChar(c: char) {
    c <= ' '
  }

  /** First index at or after `i` holding a non-blank character (or `|s|`). */
  function SkipBlanks(s: string, i: nat): (k: nat)
    requires i <= |s|
    ensures i <= k <= |s|
    ensures forall j :: i <= j < k ==> IsBlankChar(s[j])
    ensures k < |s| ==> !IsBlankChar(s[k])
    decreases |s| - i
  {
    if i < |s| && IsBlankChar(s[i]) then SkipBlanks(s, i + 1) else i
  }

  /** Smallest end `k >= lo` such that `s[k..j]` is all blank. */
  function SkipBlanksBack(s: string, lo: nat, j: nat): (k: nat)
    requires lo <= j <= |s|
    ensures lo <= k <= j
    ensures forall m :: k <= m < j ==> IsBlankChar(s[m])
    ensures k > lo ==> !IsBlankChar(s[k - 1])
    decreases j - lo
  {
    if j > lo && IsBlankChar(s[j - 1]) then SkipBlanksBack(s, lo, j - 1) else j
  }

  /** `r` is `s[a..b]` and everything outside that slice is blank. */
  predicate BlankOutside(s: string, r: string, a: int, b: int) {
    && 0 <= a <= b <= |s| && r == s[a..b]
    && (forall i :: 0 <= i < a ==> IsBlankChar(s[i]))
    && (forall i :: b <= i < |s| ==> IsBlankChar(s[i]))
  }

  /** The trimmed text is a contiguous slice of the input, everything cut off
      is blank, and the result neither starts nor ends with a blank. */
  function Trim(s: string): (r: string)
    ensures exists a, b :: BlankOutside(s, r, a, b)
    ensures |r| > 0 ==> !IsBlankChar(r[0]) && !IsBlankChar(r[|r| - 1])
  {
    var a := SkipBlanks(s, 0);
    var b := SkipBlanksBack(s, a, |s|);
    assert BlankOutside(s, s[a..b], a, b);
    s[a..b]
  }

  /** Trimming an already trimmed text changes nothing. */
  lemma TrimIdempotent(s: string)
    ensures Trim(Trim(s)) == Trim(s)
  {
    var t := Trim(s);
    if |t| > 0 {
      assert SkipBlanks(t, 0) == 0;
      assert SkipBlanksBack(t, 0, |t|) == |t|;
      assert t[0..|t|] == t;
    }
  }

  // ---------------------------------------------------------------------------
  // Decimal formatting of ids ("%s" of a long) and its inverse
  // ---------------------------------------------------------------------------

  predicate IsDigit(c: char) {
    '0' <= c <= '9'
  }

  predicate AllDigits(s: string) {
    forall i :: 0 <= i < |s| ==> IsDigit(s[i])
  }

  function DigitChar(d: nat): (c: char)
    requires d < 10
    ensures IsDigit(c)
  {
    ('0' as int + d) as char
  }

  function DigitValue(c: char): nat
    requires IsDigit(c)
  {
    c as int - '0' as int
  }

  function NatToString(n: nat): (r: string)
    ensures |r| >= 1 && AllDigits(r)
    decreases n
  {
    if n < 10 then [DigitChar(n)] else NatToString(n / 10) + [DigitChar(n % 10)]
  }

  function ParseNat(s: string): nat
    requires AllDigits(s)
  {
    if |s| == 0 then 0 else ParseNat(s[..|s| - 1]) * 10 + DigitValue(s[|s| - 1])
  }

  /** Decimal formatting of a natural number is undone by parsing it. */
  lemma {:induction false} ParseNatOfNatToString(n: nat)
    ensures ParseNat(NatToString(n)) == n
    decreases n
  {
    var s := NatToString(n);
    if n < 10 {
      assert s[..|s| - 1] == [];
    } else {
      ParseNatOfNatToString(n / 10);
      assert s[..|s| - 1] == NatToString(n / 10);
    }
  }

  function IntToString(i: int): (r: string)
    ensures |r| >= 1 && '#' !in r
  {
    if i < 0 then "-" + NatToString(-i) else NatToString(i)
  }

  function ParseInt(s: string): int {
    if |s| > 0 && s[0] == '-' && AllDigits(s[1..]) then -(ParseNat(s[1..]) as int)
    else if AllDigits(s) then ParseNat(s)
    else 0
  }

  /** Decimal formatting of any integer, sign included, is undone by parsing. */
  lemma ParseIntOfIntToString(i: int)
    ensures ParseInt(IntToString(i)) == i
  {
    var s := IntToString(i);
    if i < 0 {
      assert s[1..] == NatToString(-i);
      ParseNatOfNatToString(-i);
    } else {
      ParseNatOfNatToString(i);
    }
  }

  // ---------------------------------------------------------------------------
  // Natural ordering of strings (String.compareTo) and sorting
  // ---------------------------------------------------------------------------

  /** `a` sorts strictly before `b`: the first differing character decides,
      and a proper prefix sorts first. */
  predicate StrLess(a: string, b: string) {
    if |a| == 0 then |b| > 0
    else if |b| == 0 then false
    else if a[0] != b[0] then a[0] < b[0]
    else StrLess(a[1..], b[1..])
  }

  /** `a` and `b` agree on their first `k` characters, and at position `k`
      either `a` has ended while `b` goes on, or `a`'s character is smaller. */
  predicate LexAt(a: string, b: string, k: int) {
    0 <= k <= |a| && k < |b| && a[..k] == b[..k] && (k == |a| || a[k] < b[k])
  }

  /** The order is the lexicographic one of `String.compareTo`: `a` sorts
      before `b` exactly when some position decides it in `a`'s favour. */
  lemma {:induction false} StrLessIsLexicographic(a: string, b: string)
    ensures StrLess(a, b) <==> exists k :: LexAt(a, b, k)
  {
    if |a| == 0 {
      if |b| > 0 {
        assert LexAt(a, b, 0);
      }
    } else if |b| > 0 && a[0] != b[0] {
      if a[0] < b[0] {
        assert LexAt(a, b, 0);
      }
    } else if |b| > 0 {
      StrLessIsLexicographic(a[1..], b[1..]);
      if exists k :: LexAt(a[1..], b[1..], k) {
        var k :| LexAt(a[1..], b[1..], k);
        assert a[..k + 1] == [a[0]] + a[1..][..k];
        assert b[..k + 1] == [b[0]] + b[1..][..k];
        assert LexAt(a, b, k + 1);
      }
      if exists k :: LexAt(a, b, k) {
        var k :| LexAt(a, b, k);
        assert a[1..][..k - 1] == a[..k][1..];
        assert b[1..][..k - 1] == b[..k][1..];
        assert LexAt(a[1..], b[1..], k - 1);
      }
    }
  }

  predicate StrLe(a: string, b: string) {
    a == b || StrLess(a, b)
  }

  lemma {:induction false} StrLessIrreflexive(a: string)
    ensures !StrLess(a, a)
  {
    if |a| > 0 {
      StrLessIrreflexive(a[1..]);
    }
  }

  lemma {:induction false} StrLessTransitive(a: string, b: string, c: string)
    requires StrLess(a, b) && StrLess(b, c)
    ensures StrLess(a, c)
  {
    if |a| > 0 && a[0] == b[0] && b[0] == c[0] {
      StrLessTransitive(a[1..], b[1..], c[1..]);
    }
  }

  lemma {:induction false} StrLessTotal(a: string, b: string)
    ensures a == b || StrLess(a, b) || StrLess(b, a)
  {
    if |a| > 0 && |b| > 0 && a[0] == b[0] {
      StrLessTotal(a[1..], b[1..]);
      if a[1..] == b[1..] {
        assert a == [a[0]] + a[1..] && b == [b[0]] + b[1..];
      }
    }
  }

  lemma StrLeTransitive(a: string, b: string, c: string)
    requires StrLe(a, b) && StrLe(b, c)
    ensures StrLe(a, c)
  {
    if a != b && b != c {
      StrLessTransitive(a, b, c);
    }
  }

  predicate SortedStrings(s: seq<string>) {
    forall i, j :: 0 <= i < j < |s| ==> StrLe(s[i], s[j])
  }

  function InsertSorted(x: string, s: seq<string>): (r: seq<string>)
    requires SortedStrings(s)
    ensures SortedStrings(r)
    ensures multiset(r) == multiset(s) + multiset{x}
  {
    if |s| == 0 then
      [x]
    else if StrLe(x, s[0]) then
      assert forall j :: 0 <= j < |s| ==> StrLe(x, s[j]) by {
        forall j | 0 <= j < |s| ensures StrLe(x, s[j]) {
          StrLeTransitive(x, s[0], s[j]);
        }
      }
      [x] + s
    else
      StrLessTotal(x, s[0]);
      var t := InsertSorted(x, s[1..]);
      assert s == [s[0]] + s[1..];
      assert forall j :: 0 <= j < |t| ==> StrLe(s[0], t[j]) by {
        forall j | 0 <= j < |t| ensures StrLe(s[0], t[j]) {
          assert t[j] in multiset(t);
          if t[j] == x {
          } else {
            assert t[j] in multiset(s[1..]);
            var k :| 0 <= k < |s[1..]| && s[1..][k] == t[j];
            assert s[k + 1] == t[j];
          }
        }
      }
      [s[0]] + t
  }

  /** Insertion sort: the result is ordered and holds exactly the input. */
  function SortStrings(s: seq<string>): (r: seq<string>)
    ensures SortedStrings(r)
    ensures multiset(r) == multiset(s)
  {
    if |s| == 0 then []
    else
      assert s == [s[0]] + s[1..];
      InsertSorted(s[0], SortStrings(s[1..]))
  }
}

=== FILE: users.dfy ===
/** The per-connection user record (Project/Common/User.java) and the
    shared constants it uses (Project/Common/Constants.java). */
module Users {
  import opened Results
  import Text

  /** The id of a connection that has not been assigned one, or was reset. */
  const DefaultClientId: int := -1

  /** Ships a player has to place before placement is over. */
  const MaxShips: int := 5

  /** `clientName` is `null` until the client sends its name. */
  datatype User = User(
    clientId: int,
    clientName: Option<string>,
    isReady: bool,
    tookTurn: bool,
    placedShips: int,
    gamePoints: int)

  /** A freshly constructed record. */
  function NewUser(): (u: User)
    ensures u.clientId == DefaultClientId && u.clientName == None
    ensures !u.isReady && !u.tookTurn && u.placedShips == 0 && u.gamePoints == 0
    ensures IsSpectator(u) && !PlacedAllShips(u)
  {
    User(DefaultClientId, None, false, false, 0, 0)
  }

  /** A user that is not ready watches the game instead of playing it. */
  predicate IsSpectator(u: User) {
    !u.isReady
  }

  /** `addGamePoints(points)`: the score moves by `points`, nothing else changes. */
  function AddGamePoints(u: User, points: int): (r: User)
    ensures r.gamePoints - u.gamePoints == points
    ensures r.(gamePoints := u.gamePoints) == u
  {
    u.(gamePoints := u.gamePoints + points)
  }

  /** `setPlacedShip()`: one more ship placed, nothing else changes. */
  function SetPlacedShip(u: User): (r: User)
    ensures r.placedShips == u.placedShips + 1
    ensures r.(placedShips := u.placedShips) == u
  {
    u.(placedShips := u.placedShips + 1)
  }

  /** `placedAllShips()`: at least `MaxShips` ships placed. */
  predicate PlacedAllShips(u: User) {
    u.placedShips >= MaxShips
  }

  /** Once all ships are placed they stay placed: a further placement, points,
      the ready flag, the turn flag and a reset all keep the count. */
  lemma PlacedAllShipsStays(u: User, points: int, ready: bool, took: bool)
    requires PlacedAllShips(u)
    ensures PlacedAllShips(SetPlacedShip(u)) && PlacedAllShips(AddGamePoints(u, points))
    ensures PlacedAllShips(SetReady(u, ready)) && PlacedAllShips(SetTookTurn(u, took))
    ensures PlacedAllShips(Reset(u))
  {
  }

  function SetReady(u: User, ready: bool): (r: User)
    ensures r.isReady == ready && IsSpectator(r) == !ready
    ensures r.(isReady := u.isReady) == u
  {
    u.(isReady := ready)
  }

  function SetTookTurn(u: User, took: bool): (r: User)
    ensures r.tookTurn == took
    ensures r.(tookTurn := u.tookTurn) == u
  {
    u.(tookTurn := took)
  }

  /** `reset()`: the id, the name and both flags return to their initial
      values; placed ships and points are kept. */
  function Reset(u: User): (r: User)
    ensures r.clientId == DefaultClientId && r.clientName == None
    ensures !r.isReady && !r.tookTurn && IsSpectator(r)
    ensures r.placedShips == u.placedShips && r.gamePoints == u.gamePoints
  {
    u.(clientId := DefaultClientId, clientName := None, isReady := false, tookTurn := false)
  }

  /** Resetting twice is resetting once. */
  lemma ResetIdempotent(u: User)
    ensures Reset(Reset(u)) == Reset(u)
  {
  }

  /** The record `n` placements after `u`. */
  function PlaceMany(u: User, n: nat): (r: User)
    ensures r.(placedShips := u.placedShips) == u
  {
    if n == 0 then u else SetPlacedShip(PlaceMany(u, n - 1))
  }

  /** Starting from a fresh count, placement is complete after exactly
      `MaxShips` placements and not one before. */
  lemma {:induction false} PlaceManyCompletes(u: User, n: nat)
    requires u.placedShips == 0
    ensures PlaceMany(u, n).placedShips == n
    ensures PlacedAllShips(PlaceMany(u, n)) <==> n >= MaxShips
  {
    if n > 0 {
      PlaceManyCompletes(u, n - 1);
    }
  }

  // ---------------------------------------------------------------------------
  // Display name "name#id" and its inverse
  // ---------------------------------------------------------------------------

  /** `String.format("%s", clientName)`: a missing name prints as "null". */
  function NameText(name: Option<string>): string {
    if name.Some? then name.value else "null"
  }

  /** A client without a name and a client named "null" print the same
      display name, so the display name alone cannot tell them apart. */
  lemma NullNamePrintsAsNull(u: User)
    requires u.clientName == None
    ensures NameText(u.clientName) == NameText(Some("null"))
    ensures DisplayName(u) == DisplayName(u.(clientName := Some("null")))
  {
  }

  /** `getDisplayName()`: the name, a '#', then the decimal id. */
  function DisplayName(u: User): (d: string)
    ensures |d| >= 2
  {
    NameText(u.clientName) + "#" + Text.IntToString(u.clientId)
  }

  /** Position of the last `c` in `s`, if any. */
  function LastIndexOf(s: string, c: char): (r: Option<nat>)
    ensures r.None? <==> c !in s
    ensures r.Some? ==> r.value < |s| && s[r.value] == c
    ensures r.Some? ==> forall m :: r.value < m < |s| ==> s[m] != c
  {
    if |s| == 0 then None
    else if s[|s| - 1] == c then Some(|s| - 1)
    else
      var r := LastIndexOf(s[..|s| - 1], c);
      assert s == s[..|s| - 1] + [s[|s| - 1]];
      r
  }

  /** Splits a display name at its last '#' into the name text and the id. */
  function ParseDisplayName(d: string): (r: Option<(string, int)>)
    ensures r.Some? <==> '#' in d
  {
    match LastIndexOf(d, '#')
    case None => None
    case Some(k) => Some((d[..k], Text.ParseInt(d[k + 1..])))
  }

  /** The display name determines the printed name and the id: splitting it
      at the last '#' gives both back, whatever characters the name holds. */
  lemma DisplayNameRoundTrip(u: User)
    ensures ParseDisplayName(DisplayName(u)) == Some((NameText(u.clientName), u.clientId))
  {
    var n := NameText(u.clientName);
    var t := Text.IntToString(u.clientId);
    var d := DisplayName(u);
    assert d == n + "#" + t;
    assert d[|n|] == '#';
    assert d[|n| + 1..] == t;
    var k := LastIndexOf(d, '#');
    assert k.Some?;
    assert k.value == |n| by {
      forall m | |n| < m < |d| ensures d[m] != '#' {
        assert d[m] == t[m - |n| - 1];
      }
    }
    assert d[..|n|] == n;
    Text.ParseIntOfIntToString(u.clientId);
  }
}
